=== FILE: README.md ===
# Tourist credential issuance and verification, modelled in Dafny

This project models the credential engine of a tourist-safety backend. It covers four pieces:

- **Issuance.** `generate_issuer_id`, `create_signed_vc` and `issue_tourist_credential` in `cred2.py`:
  - make a `did:key` identity from an Ed25519 public key;
  - build a TouristCredential payload from a tourist record;
  - sign it as a detached JWS with an unencoded payload (RFC 7797);
  - attach the proof and return the credential as JSON text.
- **Signature check.** `verify_vc_signature` in `verification_enginee.py` reverses each step:
  - pop the proof and recover the key from the verification method;
  - split the JWS and recompute the signing input;
  - check the signature.
- **Anchor fingerprint.** Lines 137-140 of `anchor_vc` in `cred2.py`.
- **Anchor lookup.** `verify_anchor` in `verification_enginee.py`.

Everything these pieces rest on is modelled as pure functions with proved properties:

- `json.loads`;
- `json.dumps`, with default and with canonical separators, `sort_keys` and `ensure_ascii` escaping;
- base58 (the `base58` 2.x package);
- base64url with and without padding;
- ISO timestamps;
- `str.split`;
- the insertion-ordered dict.

Two Python dicts are changed in place. `create_signed_vc` copies the payload and stores the proof into the copy. `verify_vc_signature` pops the proof off its argument. Both are modelled by the class `MutableDict.PyDict`. The anchor store is the class `Anchor.Ledger`.

Ed25519 and SHA-256 are a `Crypto.Suite` of function values. What the protocol relies on about them appears as hypotheses:

- `Ed25519Correct`: keys are 32 bytes, signatures 64 bytes, and a signature verifies under its own key (section 5.1 of RFC 8032).
- `BindsOnly`: one signature verifies for one message only.

The central results, all about number-free documents (see "## Left out"):

- **An issued credential verifies.** Take the credential `issue_tourist_credential` returns and read it back with `json.loads`: it is the issued dict, and `verify_vc_signature` answers `True` (`Verifier.IssuedVerifies`).
- **Only the signed content verifies.** Given a signature that binds only the signed bytes, verification succeeds exactly when the credential, proof left out, equals the signed document in Python's `==` sense (`Verifier.OnlySignedContentVerifies`). Reordering keys never matters (`Verifier.ContentOnly`).
- **Canonical text is injective up to `==`.** Two number-free documents have the same canonical text exactly when they are `==` (`JsonParse.CanonicalInjective`).
- **The anchor fingerprint ignores layout.** For a number-free credential it does not depend on whitespace or key order (`Anchor.HashedBytesIffEquiv`), and it covers the proof (`Anchor.FingerprintCoversProof`).

Where the code behaves in ways a reader of such a protocol might not expect, the model follows the code:

- **The fingerprint covers the proof.** It is taken over the whole credential string, proof included, on both the anchoring and the checking side. It is not taken over a proof-free payload.
- **Missing fields.** A missing record field raises Python's `KeyError` (the first missing one, in the order the payload literal reads the record). Field values are not checked to be non-empty strings. Only the passport number must be a string, because it is encoded before hashing.
- **No separate "malformed" outcome.** A structurally malformed credential is not reported separately: every failure of the signature check is `False`.
- **Field name.** The proof field is named `jws`.
- **The header is not checked.** The verifier does not inspect the JWS header segment (`alg`, `b64`, `crit`).
- **The issuer is not compared.** The verifier does not compare the credential's `issuer` with the verification method.
- **The middle JWS segment is ignored** (`Verifier.JwsMiddleIgnored`).
- **The key prefix is not checked.** The verifier does not check the two multicodec prefix bytes (`DidKey.KeyIgnoresPrefix`).
- **No multibase prefix.** As in the code, the `did:key` identifier has no multibase `z` prefix.

## Model

| member | source | states |
|---|---|---|
| DidKey.GenerateIssuerId | cred2.py:17-37 | The DID is `did:key:` followed by a tail that base58-decodes to `0xED 0x01` and the public key. The verification method is the DID, `#` and the same tail. The DID contains no `#`, and the method is ASCII |
| DidKey.DidOf | cred2.py:30-34 | For any prefixed key, the DID splits into prefix and tail. The tail decodes back to the key, the DID has no `#`, and DID `#` tail is ASCII |
| DidKey.KeyFromVerificationMethod | verification_enginee.py:27-32 | A key is recovered exactly when the text after the last `#` base58-decodes to 34 bytes. It is then those bytes without the first two |
| DidKey.KeyIgnoresPrefix | verification_enginee.py:28-31 | Whatever precedes the last `#`, and whatever the two prefix bytes are, the 32-byte key after them comes back. The prefix is never checked |
| DidKey.KeyOfGeneratedIssuer | verification_enginee.py:27-32 | From a verification method `generate_issuer_id` made, the verifier recovers the issuer's public key |
| Base58.EncodeDecode | verification_enginee.py:29 | `b58decode` of `b58encode(bs)` gives `bs` back, leading zero bytes included |
| Base58.EncodeAlphabet | cred2.py:32 | Every character of the base58 text is a base58 digit. The text is ASCII and holds no `#` |
| Base58.DecodeEncodeInt | cred2.py:32 | Reading the base58 digits of a number gives the number back |
| Base58.EncodeIntNoLeadingOne | cred2.py:32 | The digits of a positive number never start with `1`, so leading `1`s stand only for zero bytes |
| Base58.DigitValueOfDigit | cred2.py:32 | Each base58 digit reads back as its value |
| Base64Url.DecodePaddedRoundTrip | verification_enginee.py:45 | For input of any length, `urlsafe_b64decode` of the unpadded encoding plus `==` gives the bytes back |
| Base64Url.EncodeNoPadLength | cred2.py:69 | The unpadded encoding of `n` bytes has `(4n+2)/3` characters |
| Base64Url.EncodeNoPadAlphabet | cred2.py:62 | The unpadded encoding uses only the URL-safe alphabet: ASCII, no `=`, no `.` |
| Base64Url.DecodeValueOfSextet | verification_enginee.py:45 | Each alphabet character reads back as its 6-bit value |
| PyStr.Split | verification_enginee.py:36 | `split` gives one more piece than there are separators, and no piece contains the separator |
| PyStr.SplitJoin | verification_enginee.py:36 | Splitting pieces joined by the separator gives the pieces back, when none of them contains it |
| PyStr.JoinSplit | verification_enginee.py:36 | Joining the pieces of a split gives the text back |
| PyStr.SplitThree | verification_enginee.py:36 | Three separator-free pieces joined by two separators split into exactly those three |
| PyStr.AfterLastOf | verification_enginee.py:28 | `split('#')[-1]` is the text after the last `#` |
| Bytes.HexLowerInjective | cred2.py:51 | Distinct digests have distinct lower-case hex texts |
| Bytes.Utf8AsciiInjective | cred2.py:65 | Distinct ASCII texts have distinct UTF-8 bytes |
| Bytes.ToBigEndianInverse | verification_enginee.py:29 | Writing a number in `len` big-endian bytes and reading them back gives the number, when it fits |
| Bytes.FromBigEndianInverse | verification_enginee.py:29 | Reading bytes as a number and writing it back in as many bytes gives the bytes |
| Timestamp.IsoSecondsZ | cred2.py:49 | The timestamp has 20 characters, with `-`, `-`, `T`, `:`, `:`, `Z` in place, and its digit fields read back as year, month, day, hour, minute and second |
| Timestamp.PadValue | cred2.py:49 | A zero-padded field reads back as the number written |
| Timestamp.IsoSecondsZInjective | cred2.py:76 | Distinct times give distinct timestamps |
| Json.Lookup | verification_enginee.py:27 | `d.get(k)` is present exactly when `k` is a key, and the dict then holds that item |
| Dict.PutKeys | cred2.py:74 | Storing a key adds it to the key set and keeps the keys distinct |
| Dict.PutLookup | cred2.py:74 | After storing, the key maps to the new value, and every other key maps to its old value |
| Dict.AddNewKey | cred2.py:73-74 | A new key goes last and the other items are unchanged. Removing it gives the dict back |
| Dict.RemoveSemantics | verification_enginee.py:21 | Popping a key removes it, keeps the other keys with their values, and keeps keys distinct |
| Dict.RemoveAbsent | verification_enginee.py:21 | Removing an absent key changes nothing |
| Dict.RemoveAfterPutNew | verification_enginee.py:21 | Adding a new key and popping it restores the dict, order included |
| Dict.RemoveWellFormed | verification_enginee.py:21 | Popping keeps a well-formed dict well formed |
| MutableDict.PyDict.Copy | cred2.py:73 | The copy holds the same items in the same order |
| MutableDict.PyDict.SetItem | cred2.py:74-80 | The new items are the old ones with `k` mapped to `v` (a new key goes last). The key set gains `k` and every other key keeps its value |
| MutableDict.PyDict.Pop | verification_enginee.py:21 | Returns the value stored under `k`, or `None` for the `KeyError`, in which case the dict is unchanged. The dict loses `k` and nothing else |
| JsonOrder.SortMembersCorrect | cred2.py:65 | `sort_keys` order is a permutation of a dict's items, strictly sorted by key |
| JsonOrder.SortedUnique | cred2.py:65 | Two strictly sorted lists of the same items are equal, so the sorted order depends only on the items |
| JsonOrder.NormalizeIffEquiv | cred2.py:65 | Sorting every dict at every depth gives the same document exactly when the two documents are `==` |
| JsonOrder.NormalizeIdempotent | cred2.py:138 | Sorting twice is sorting once |
| JsonOrder.EquivNormalize | cred2.py:65 | A document is `==` to its sorted form |
| JsonParse.EscapeAllRoundTrip | cred2.py:65 | The `ensure_ascii` escaping of any string, followed by a closing quote, is read back as that string |
| JsonParse.ParseSer | verification_enginee.py:81 | The reader reads back any serialisation of a well-formed document, with either choice of separators, and leaves what follows untouched |
| JsonParse.LoadsDumpsDefault | cred2.py:83 | `json.loads` of the text `json.dumps` wrote gives the document back, key order included |
| JsonParse.LoadsCanonical | cred2.py:138 | `json.loads` of the canonical text gives the document with every dict sorted |
| JsonParse.CanonicalInjective | verification_enginee.py:40 | Two well-formed documents have the same canonical text exactly when they are `==` |
| JsonParse.CanonicalIdempotent | verification_enginee.py:82 | Re-reading and re-canonicalising canonical text gives the same text |
| JsonParse.LoadsWellFormed | verification_enginee.py:81 | Every dict that `json.loads` builds has distinct keys |
| JsonParse.CanonicalIsAscii | cred2.py:65 | The canonical text is ASCII, so its UTF-8 bytes are its characters |
| JsonParse.DefaultDumpsIsAscii | cred2.py:62 | The default serialisation is ASCII too |
| Credential.Subscript | cred2.py:51-55 | Indexing the record succeeds exactly when it is a dict holding the key, and gives the stored value. Otherwise the error is the `KeyError` naming the key |
| Credential.EncodeText | cred2.py:51 | `.encode()` succeeds exactly on strings and gives their UTF-8 bytes. Any other value gives the `AttributeError` naming its type |
| Credential.SubjectIdOf | cred2.py:51 | The subject id is `did:example:` followed by hex digits, 64 of them when SHA-256 gives 32 bytes |
| Credential.BuildPayload | cred2.py:44-58 | The payload is built exactly when the record is a dict holding all six fields and the passport number is a string |
| Credential.PayloadKeysDistinct | cred2.py:44-58 | The payload's keys are distinct and do not include `proof` |
| Credential.PayloadIssuer | cred2.py:48-49 | The payload carries the issuer DID and the issuance date it was given |
| Credential.SubjectId | cred2.py:51 | `credentialSubject.id` is the subject id of the record's passport number |
| Credential.SubjectIdInjective | cred2.py:51 | Equal subject ids mean equal passport digests |
| Credential.TouristInfoCopies | cred2.py:52-56 | `touristInfo` is `type: Tourist` followed by the six record fields, copied unchanged, in the literal's order |
| Credential.FirstMissingField | cred2.py:51-55 | A record lacking a field fails with the `KeyError` of the first missing field, in the order the literal reads them |
| Credential.PassportNotText | cred2.py:51 | A passport number that is not a string fails at `.encode()` with the `AttributeError` naming its type |
| Credential.EncodedHeaderAlphabet | cred2.py:61-62 | The encoded header is ASCII and holds no `.` and no `=` |
| Credential.JwsSegments | cred2.py:69-71 | The detached JWS splits on `.` into exactly the header, an empty segment and the signature, and holds no `=`. The signature segment plus `==` decodes to the signature, and a 64-byte signature takes 86 characters |
| Credential.SigningInputInjective | cred2.py:65-66 | Under one header, two payloads give the same signing input exactly when they are `==` |
| Credential.SignedKeys | cred2.py:73-80 | The signed credential is the payload with `proof` appended. The keys are the payload's plus `proof`, and every payload value is unchanged. `proof` holds the proof dict with `created` set to the second clock reading and `jws` set to the detached JWS of the signature over the payload. Popping `proof` gives the payload back |
| Credential.ProofFields | cred2.py:74-80 | The proof dict is well formed and has exactly five items, under the keys `type`, `created`, `verificationMethod`, `proofPurpose` and `jws`. `type` is `Ed25519Signature2018`, `proofPurpose` is `assertionMethod`, and the other three hold the given values |
| Credential.SignedCredential | cred2.py:39-80 | A signed credential is produced exactly when the record is accepted |
| Credential.CreateSignedVc | cred2.py:39-83 | Succeeds exactly when the record is accepted, returning `json.dumps` of the payload with the proof attached. Otherwise returns the payload's error |
| Credential.IssueTouristCredential | cred2.py:87-107 | Succeeds exactly when the record is accepted, returning the credential signed for the generated issuer. Any failure is re-raised with the engine's prefix before its text |
| Credential.Issued | cred2.py:92-103 | The issued credential exists exactly when the record is accepted |
| Verifier.ProofKey | verification_enginee.py:27-32 | A key is found exactly when `verificationMethod` is a string from which a key is recovered. The key is 32 bytes |
| Verifier.JwsParts | verification_enginee.py:35-36 | The segments are found exactly when `jws` is a string with exactly two `.`. Neither kept segment contains `.` |
| Verifier.ProofMaterial | verification_enginee.py:21-45 | Material is found only for a present, non-empty dict proof. The proof must yield a 32-byte key from `verificationMethod` and a `jws` that splits into three parts. The signature segment plus `==` must decode, giving the signature. The header segment has no `.` |
| Verifier.VerifySignature | verification_enginee.py:14-58 | `True` only when the proof yields its material. The full meaning is proved in the lemmas below |
| Verifier.VerifyVcSignature | verification_enginee.py:14-58 | The answer is the signature check of the dict as it was. Afterwards the dict is its old items without `proof`, whatever the answer |
| Verifier.MissingProofFails | verification_enginee.py:21-24 | A missing, empty or `None` proof gives `False` |
| Verifier.MalformedJwsFails | verification_enginee.py:35-36 | A `jws` that is missing, `None`, not a string, or does not split into three parts gives `False` |
| Verifier.BadKeyFails | verification_enginee.py:27-32 | A `verificationMethod` that is missing, `None`, not a string, or yields no 32-byte key gives `False` |
| Verifier.BadSignatureEncodingFails | verification_enginee.py:45 | A signature segment that `urlsafe_b64decode` rejects after `==` is appended gives `False` |
| Verifier.JwsMiddleIgnored | verification_enginee.py:36 | Whatever the middle segment holds, the header and signature segments around it are used |
| Verifier.ContentOnly | verification_enginee.py:40-41 | Two credentials with the same proof and `==` contents get the same answer |
| Verifier.OnlySignedContentVerifies | verification_enginee.py:38-48 | Suppose the proof's signature verifies for the signed bytes and no other. Then the credential is accepted exactly when its content without the proof is `==` to the signed document |
| Verifier.AttachedProofVerifies | verification_enginee.py:38-48 | Under Ed25519 correctness, a payload completed by `create_signed_vc` verifies, whenever its verification method names the signing key |
| Verifier.AttachedMaterial | verification_enginee.py:21-45 | From a proof `create_signed_vc` attached, the verifier reads the named key, the encoded header and the signature made, and the payload is what remains |
| Verifier.ProofParts | verification_enginee.py:27-36 | Such a proof gives the verification method's key, the header and the signature text |
| Verifier.IssuedVerifies | verification_enginee.py:14-51 | The issued credential, read back with `json.loads`, is the issued dict, and its signature verifies |
| Verifier.PayloadWellFormed | cred2.py:44-58 | A well-formed record gives a well-formed payload |
| Verifier.AttachedWellFormed | cred2.py:73-80 | Attaching the proof keeps the credential well formed |
| Anchor.HashedBytes | cred2.py:137-139 | Bytes are produced exactly when the string parses, and they are the UTF-8 of ASCII canonical text |
| Anchor.Fingerprint | cred2.py:137-140 | A fingerprint exists exactly when the string parses, and is 32 bytes when SHA-256 gives 32 bytes |
| Anchor.Ledger.Anchor | cred2.py:145-156 | After the transaction, the store holds the new fingerprint in addition to the old ones. The `isAnchored` query then answers yes for it, and gives its old answer for every other fingerprint |
| Anchor.AnchorVc | cred2.py:137-157 | The fingerprint of the string is anchored. A string that does not parse changes nothing. The model returns the fingerprint where the code returns the transaction hash |
| Anchor.VerifyAnchor | verification_enginee.py:80-97 | `True` exactly when the string parses and its fingerprint is in the store |
| Anchor.HashedBytesIffEquiv | verification_enginee.py:80-84 | Two parsable strings give the same hashed bytes exactly when their documents are `==` |
| Anchor.SameDocumentSameFingerprint | verification_enginee.py:80-84 | Strings holding `==` documents have the same fingerprint, so the lookup finds what anchoring stored |
| Anchor.FingerprintOfDumps | cred2.py:137-140 | The fingerprint of `json.dumps` text, and of canonical text, is SHA-256 of the document's canonical bytes |
| Anchor.FingerprintCoversProof | cred2.py:137-140 | The hashed bytes of a credential string are the canonical bytes of the whole credential, and differ from those without the proof |

## Left out

- **I/O.** All `print` output, `.env` loading, the web3 connection, the contract address and ABI file reads, and the transaction mechanics are outside the model: building, signing and sending, waiting for the receipt, and the returned transaction hash. The same goes for `save_vc_to_file` and `main`. These are I/O with no logic of their own.
- **Anchor.AnchorVc**: the model anchors successfully whenever the string parses. The missing-configuration, file-not-found and transaction-failure exceptions are not modelled, because they come only from the environment and the chain.
- **Anchor.VerifyAnchor**: failures to reach the chain or read the contract files (which answer `False`) are not modelled, because they come only from the environment.
- **The anchor contract's own code** is not part of this model. The contract is an abstract set with an add operation and a membership query.
- **Key generation and the clock are parameters.** Key generation is random, so the private key is a parameter. Each of the two clock readings (`issuanceDate`, `proof.created`) is also a parameter.
- **Crypto internals.** Ed25519 and SHA-256 internals are not modelled. Their properties enter only as the hypotheses `Ed25519Correct` and `BindsOnly`, per signature. Unforgeability stated for all messages at once would contradict fixed-length signatures.
- **JsonParse.Loads**: a `\uXXXX` escape naming an unpaired surrogate is rejected, although CPython's `json.loads` accepts it and yields a lone-surrogate character. A Dafny string cannot hold such a character. So for such a string, `Anchor.AnchorVc` anchors nothing and `Anchor.VerifyAnchor` answers `False`, where the code hashes its `ensure_ascii` canonical text.
- **JSON numbers** are left out as a modelling choice. The JSON values here are null, booleans, strings, lists and dicts. The code does not exclude numbers: `touristInfo` copies the record's values unchanged (cred2.py:52-56), so a record holding a number gives a credential holding one, and such a record is outside this model. Two consequences follow.
  - `JsonParse.Loads` rejects any number, `NaN` or `Infinity`. So for such a string `Anchor.AnchorVc` anchors nothing and `Anchor.VerifyAnchor` answers `False`, where the code hashes its canonical text.
  - The `==`-based results hold only for number-free documents: `JsonParse.CanonicalInjective`, `Anchor.HashedBytesIffEquiv`, `Verifier.ContentOnly` and `Verifier.OnlySignedContentVerifies`. In Python `1 == 1.0 == True`, while their canonical texts `1`, `1.0` and `true` differ.
- **Encoding failures.** Dafny strings hold Unicode scalar values only, so the `UnicodeEncodeError` a lone surrogate would raise in `.encode('utf-8')` is not modelled.
- **Credential.Subscript**: the message for indexing a string is CPython 3.11's wording. Older versions word it differently.
- **Credential.EncodedHeader**: the literal base64url text of the header is not written out. What the protocol needs of it is proved instead: it is ASCII, with no `.` and no `=`.
- **Non-dict arguments.** A `verify_vc_signature` argument that is not a dict is not modelled, because its callers always pass the result of `json.loads` on a credential object.
- **Verifier.VerifySignature**: its own ensures states only that success needs the proof's material. What the answer means is stated by `Verifier.VerifyVcSignature`, `Verifier.OnlySignedContentVerifies`, `Verifier.ContentOnly` and `Verifier.IssuedVerifies`.

=== FILE: anchor.dfy ===
/** Anchoring a credential on the ledger and checking for its anchor: both sides fingerprint
    the credential string the same way, `json.loads`, then the canonical `json.dumps`,
    UTF-8, SHA-256. The chain itself is an abstract set of anchored fingerprints. */
module Anchor {
  import opened Wrappers
  import opened Bytes
  import opened Json
  import opened Crypto
  import JsonParse
  import Dict

  /** The bytes that are hashed: the canonical serialisation of the parsed credential, or
      `None` for the `JSONDecodeError` that `json.loads` raises. */
  function HashedBytes(vcString: string): (r: Option<seq<Byte>>)
    ensures r.Some? <==> JsonParse.Loads(vcString).Some?
    ensures r.Some? ==> IsAscii(Canonical(JsonParse.Loads(vcString).value))
  {
    match JsonParse.Loads(vcString)
    case None => None
    case Some(j) =>
      JsonParse.CanonicalIsAscii(j);
      Some(Utf8(Canonical(j)))
  }

  /** Lines 137-140 of `cred2.py`, and lines 81-84 of the verifier: the SHA-256 digest of the
      hashed bytes. */
  function Fingerprint(c: Suite, vcString: string): (r: Option<seq<Byte>>)
    ensures r.Some? <==> JsonParse.Loads(vcString).Some?
    ensures Sha256Length(c) && r.Some? ==> |r.value| == 32
  {
    match HashedBytes(vcString)
    case None => None
    case Some(bytes) => Some(c.sha256(bytes))
  }

  /** The anchor contract's storage, as `anchor` and `isAnchored` see it: the set of
      fingerprints anchored so far. */
  class Ledger {
    var anchored: set<seq<Byte>>

    constructor ()
      ensures anchored == {}
    {
      anchored := {};
    }

    /** A confirmed `anchor` transaction: afterwards `isAnchored` answers yes for the new
        fingerprint and gives its old answer for every other one. */
    method Anchor(fingerprint: seq<Byte>)
      modifies this
      ensures anchored == old(anchored) + {fingerprint}
      ensures IsAnchored(fingerprint)
      ensures forall g :: g != fingerprint ==> IsAnchored(g) == old(IsAnchored(g))
    {
      anchored := anchored + {fingerprint};
    }

    /** The contract's `isAnchored` query. */
    function IsAnchored(fingerprint: seq<Byte>): bool
      reads this
    {
      fingerprint in anchored
    }
  }

  /** `anchor_vc(vc_string)` once its connection is set up: the credential's fingerprint is
      anchored; a string `json.loads` rejects raises before any transaction is sent. */
  method AnchorVc(c: Suite, ledger: Ledger, vcString: string) returns (r: Option<seq<Byte>>)
    modifies ledger
    ensures r == Fingerprint(c, vcString)
    ensures r.Some? ==> ledger.anchored == old(ledger.anchored) + {r.value}
    ensures r.None? ==> ledger.anchored == old(ledger.anchored)
  {
    r := Fingerprint(c, vcString);
    if r.Some? {
      ledger.Anchor(r.value);
    }
  }

  /** `verify_anchor(vc_string)`: whether the ledger holds the credential's fingerprint;
      `False` when the string does not parse. */
  method VerifyAnchor(c: Suite, ledger: Ledger, vcString: string) returns (ok: bool)
    ensures ok <==> (JsonParse.Loads(vcString).Some? &&
      Fingerprint(c, vcString).value in ledger.anchored)
  {
    var fingerprint := Fingerprint(c, vcString);
    if fingerprint.None? {
      return false;
    }
    ok := ledger.IsAnchored(fingerprint.value);
  }

  // ---------------------------------------------------------------------------------

  /** Two credential strings have the same hashed bytes exactly when they hold the same
      document in Python's `==` sense: whitespace and key order do not matter, and any other
      difference does. */
  lemma HashedBytesIffEquiv(s1: string, s2: string)
    requires JsonParse.Loads(s1).Some? && JsonParse.Loads(s2).Some?
    ensures HashedBytes(s1) == HashedBytes(s2) <==>
      Equiv(JsonParse.Loads(s1).value, JsonParse.Loads(s2).value)
  {
    var a, b := JsonParse.Loads(s1).value, JsonParse.Loads(s2).value;
    JsonParse.LoadsWellFormed(s1);
    JsonParse.LoadsWellFormed(s2);
    JsonParse.CanonicalInjective(a, b);
    if HashedBytes(s1) == HashedBytes(s2) {
      Utf8AsciiInjective(Canonical(a), Canonical(b));
    }
  }

  /** Hence the anchor a string was given is found again for any string holding the same
      document. */
  lemma SameDocumentSameFingerprint(c: Suite, s1: string, s2: string)
    requires JsonParse.Loads(s1).Some? && JsonParse.Loads(s2).Some?
    requires Equiv(JsonParse.Loads(s1).value, JsonParse.Loads(s2).value)
    ensures Fingerprint(c, s1) == Fingerprint(c, s2)
  {
    HashedBytesIffEquiv(s1, s2);
  }

  /** The string `json.dumps` wrote for a document is fingerprinted by the document's
      canonical bytes, and so is its canonical text itself. */
  lemma FingerprintOfDumps(c: Suite, j: Json)
    requires WellFormed(j)
    ensures Fingerprint(c, DumpsDefault(j)) == Some(c.sha256(Utf8(Canonical(j))))
    ensures Fingerprint(c, Canonical(j)) == Some(c.sha256(Utf8(Canonical(j))))
  {
    JsonParse.LoadsDumpsDefault(j);
    JsonParse.CanonicalIdempotent(j);
  }

  /** The fingerprint covers the whole credential, proof included: the bytes hashed for a
      credential string differ from those of the credential without its proof. */
  lemma FingerprintCoversProof(vc: seq<Member>)
    requires WellFormed(Obj(vc)) && "proof" in KeySet(vc)
    ensures HashedBytes(DumpsDefault(Obj(vc))) == Some(Utf8(Canonical(Obj(vc))))
    ensures HashedBytes(DumpsDefault(Obj(vc))) != Some(Utf8(Canonical(Obj(Remove(vc, "proof")))))
  {
    JsonParse.LoadsDumpsDefault(Obj(vc));
    var stripped := Obj(Remove(vc, "proof"));
    Dict.RemoveWellFormed(vc, "proof");
    Dict.RemoveSemantics(vc, "proof");
    assert !Equiv(Obj(vc), stripped);
    JsonParse.CanonicalInjective(Obj(vc), stripped);
    JsonParse.CanonicalIsAscii(Obj(vc));
    JsonParse.CanonicalIsAscii(stripped);
    if Utf8(Canonical(Obj(vc))) == Utf8(Canonical(stripped)) {
      Utf8AsciiInjective(Canonical(Obj(vc)), Canonical(stripped));
    }
  }
}

=== FILE: base58.dfy ===
/** Base58 with the Bitcoin alphabet, as the `base58` package (2.x) implements
    `b58encode` and `b58decode`: each leading zero byte is written as one `1`, the remaining
    bytes as the base-58 digits of the big-endian number they denote. */
module Base58 {
  import opened Wrappers
  import opened Bytes

  /** The `d`-th character of the Bitcoin alphabet
      `123456789ABCDEFGHJKLMNPQRSTUVWXYZabcdefghijkmnopqrstuvwxyz` (no `0`, `O`, `I`, `l`),
      by its ranges. */
  function Digit(d: nat): char
    requires d < 58
  {
    if d < 9 then ('1' as int + d) as char
    else if d < 17 then ('A' as int + d - 9) as char
    else if d < 22 then ('J' as int + d - 17) as char
    else if d < 33 then ('P' as int + d - 22) as char
    else if d < 44 then ('a' as int + d - 33) as char
    else ('m' as int + d - 44) as char
  }

  /** The index of a character in the alphabet, if it is one of its 58 characters. */
  function DigitValue(c: char): (r: Option<nat>)
    ensures r.Some? ==> r.value < 58
  {
    if '1' <= c <= '9' then Some(c as int - '1' as int)
    else if 'A' <= c <= 'H' then Some(c as int - 'A' as int + 9)
    else if 'J' <= c <= 'N' then Some(c as int - 'J' as int + 17)
    else if 'P' <= c <= 'Z' then Some(c as int - 'P' as int + 22)
    else if 'a' <= c <= 'k' then Some(c as int - 'a' as int + 33)
    else if 'm' <= c <= 'z' then Some(c as int - 'm' as int + 44)
    else None
  }

  /** `b58encode_int(n, default_one=False)`: most significant digit first, zero as "". */
  function EncodeInt(n: nat): (r: string)
    ensures forall i :: 0 <= i < |r| ==> DigitValue(r[i]).Some?
    decreases n
  {
    if n == 0 then "" else
      DigitValueOfDigit(n % 58);
      EncodeInt(n / 58) + [Digit(n % 58)]
  }

  /** The number of leading zero bytes, which `b58encode` strips with `lstrip(b'\0')`. */
  function LeadingZeros(bs: seq<Byte>): (k: nat)
    ensures k <= |bs|
    ensures forall i :: 0 <= i < k ==> bs[i] == 0
    ensures k < |bs| ==> bs[k] != 0
  {
    if bs != [] && bs[0] == 0 then 1 + LeadingZeros(bs[1..]) else 0
  }

  function Ones(k: nat): (r: string)
    ensures |r| == k && forall i :: 0 <= i < k ==> r[i] == '1'
  {
    seq(k, _ => '1')
  }

  function Zeros(k: nat): (r: seq<Byte>)
    ensures |r| == k && forall i :: 0 <= i < k ==> r[i] == 0
  {
    seq(k, _ => 0)
  }

  /** `b58encode(bs).decode()`. */
  function Encode(bs: seq<Byte>): string
  {
    var z := LeadingZeros(bs);
    Ones(z) + EncodeInt(FromBigEndian(bs[z..]))
  }

  /** `b58decode_int` on text without leading or trailing whitespace: digits read most
      significant first; any character outside the alphabet is an error. */
  function DecodeInt(s: string): Option<nat>
  {
    if s == [] then Some(0)
    else
      match (DecodeInt(s[..|s| - 1]), DigitValue(s[|s| - 1]))
      case (Some(n), Some(d)) => Some(n * 58 + d)
      case _ => None
  }

  /** The number of leading `1`s, which `b58decode` strips with `lstrip`. */
  function LeadingOnes(s: string): (k: nat)
    ensures k <= |s|
  {
    if s != [] && s[0] == '1' then 1 + LeadingOnes(s[1..]) else 0
  }

  /** The characters `str.isspace()` holds for, which `str.rstrip()` removes. */
  predicate IsPyWhitespace(c: char)
  {
    var n := c as int;
    (0x09 <= n <= 0x0D) || (0x1C <= n <= 0x20) || n == 0x85 || n == 0xA0 || n == 0x1680 ||
    (0x2000 <= n <= 0x200A) || n == 0x2028 || n == 0x2029 || n == 0x202F || n == 0x205F ||
    n == 0x3000
  }

  /** `str.rstrip()`. */
  function RStrip(s: string): (r: string)
    ensures |r| <= |s|
  {
    if s != [] && IsPyWhitespace(s[|s| - 1]) then RStrip(s[..|s| - 1]) else s
  }

  /** `b58decode(s)`: trailing whitespace is dropped; a non-ASCII character (which fails the
      conversion to bytes) or a character outside the alphabet is an error; each leading `1`
      becomes a zero byte and the rest the minimal big-endian bytes of the number. */
  function Decode(s: string): Option<seq<Byte>>
  {
    var t := RStrip(s);
    if !IsAscii(t) then None
    else
      var z := LeadingOnes(t);
      match DecodeInt(t[z..])
      case None => None
      case Some(n) => Some(Zeros(z) + ToBigEndian(n, ByteLength(n)))
  }

  // ---------------------------------------------------------------------------------

  lemma DigitValueOfDigit(d: nat)
    requires d < 58
    ensures DigitValue(Digit(d)) == Some(d)
  {
  }

  /** The characters of the alphabet are ASCII, are not whitespace and are not `#`. */
  lemma DigitCharacters(c: char)
    requires DigitValue(c).Some?
    ensures c as int < 0x80 && !IsPyWhitespace(c) && c != '#'
  {
  }

  /** The digits of a positive number never start with the zero digit `1`. */
  lemma {:induction false} EncodeIntNoLeadingOne(n: nat)
    requires n > 0
    ensures EncodeInt(n) != [] && EncodeInt(n)[0] != '1'
    decreases n
  {
    if n / 58 == 0 {
      DigitValueOfDigit(n % 58);
      assert EncodeInt(n) == [Digit(n % 58)];
    } else {
      EncodeIntNoLeadingOne(n / 58);
    }
  }

  /** Reading the digits back gives the number written. */
  lemma {:induction false} DecodeEncodeInt(n: nat)
    ensures DecodeInt(EncodeInt(n)) == Some(n)
    decreases n
  {
    if n > 0 {
      var q, d := n / 58, n % 58;
      DecodeEncodeInt(q);
      DigitValueOfDigit(d);
      var s := EncodeInt(q) + [Digit(d)];
      DecodeIntAppend(EncodeInt(q), Digit(d), q, d);
      assert q * 58 + d == n;
      assert DecodeInt(s) == Some(n);
      assert EncodeInt(n) == s;
    }
  }

  lemma DecodeIntAppend(s: string, c: char, n: nat, d: nat)
    requires DecodeInt(s) == Some(n) && DigitValue(c) == Some(d)
    ensures DecodeInt(s + [c]) == Some(n * 58 + d)
  {
    assert (s + [c])[..|s|] == s;
  }

  lemma {:induction false} LeadingOnesOf(k: nat, t: string)
    requires t == [] || t[0] != '1'
    ensures LeadingOnes(Ones(k) + t) == k
  {
    if k > 0 {
      assert (Ones(k) + t)[1..] == Ones(k - 1) + t;
      LeadingOnesOf(k - 1, t);
    } else {
      assert Ones(k) + t == t;
    }
  }

  /** Encoded text is ASCII and holds only alphabet characters; in particular no `#`, so it
      can end a `did:key` verification method. */
  lemma EncodeAlphabet(bs: seq<Byte>)
    ensures forall i :: 0 <= i < |Encode(bs)| ==> DigitValue(Encode(bs)[i]).Some?
    ensures IsAscii(Encode(bs)) && '#' !in Encode(bs)
  {
    var z := LeadingZeros(bs);
    var e := Encode(bs);
    var digits := EncodeInt(FromBigEndian(bs[z..]));
    forall i | 0 <= i < |e| ensures DigitValue(e[i]).Some? {
      if i >= z {
        assert e[i] == digits[i - z];
      }
    }
    forall i | 0 <= i < |e| ensures e[i] as int < 0x80 && e[i] != '#' {
      DigitCharacters(e[i]);
    }
  }

  /** `b58decode(b58encode(bs)) == bs`: zero bytes and length survive the round trip. */
  lemma EncodeDecode(bs: seq<Byte>)
    ensures Decode(Encode(bs)) == Some(bs)
  {
    var z := LeadingZeros(bs);
    var rest := bs[z..];
    var n := FromBigEndian(rest);
    var digits := EncodeInt(n);
    var e := Encode(bs);
    assert RStrip(e) == e && IsAscii(e) by {
      EncodeAlphabet(bs);
      if e != [] {
        DigitCharacters(e[|e| - 1]);
      }
    }
    assert LeadingOnes(e) == z by {
      if n > 0 {
        EncodeIntNoLeadingOne(n);
      }
      LeadingOnesOf(z, digits);
    }
    assert DecodeInt(e[z..]) == Some(n) by {
      assert e[z..] == digits;
      DecodeEncodeInt(n);
    }
    assert ToBigEndian(n, ByteLength(n)) == rest by {
      RestBytes(rest);
    }
    DecodeOf(e, z, n);
    SplitZeros(bs);
  }

  /** What `b58decode` gives for text that needs no stripping. */
  lemma DecodeOf(e: string, z: nat, n: nat)
    requires RStrip(e) == e && IsAscii(e) && LeadingOnes(e) == z && DecodeInt(e[z..]) == Some(n)
    ensures Decode(e) == Some(Zeros(z) + ToBigEndian(n, ByteLength(n)))
  {
  }

  /** Bytes are their leading zeros followed by the rest. */
  lemma SplitZeros(bs: seq<Byte>)
    ensures bs == Zeros(LeadingZeros(bs)) + bs[LeadingZeros(bs)..]
  {
  }

  /** The bytes after the leading zeros are exactly the minimal big-endian bytes of their
      number. */
  lemma RestBytes(rest: seq<Byte>)
    requires rest == [] || rest[0] != 0
    ensures ToBigEndian(FromBigEndian(rest), ByteLength(FromBigEndian(rest))) == rest
  {
    var n := FromBigEndian(rest);
    FromBigEndianInverse(rest);
    if rest == [] {
      ByteLengthZero();
    } else {
      FromBigEndianBounds(rest);
      ByteLengthExact(n, |rest|);
    }
  }
}

=== FILE: base64url.dfy ===
/** Base64 with the URL- and filename-safe alphabet (section 5 of RFC 4648) as the credential
    code uses it: `urlsafe_b64encode(bs).rstrip(b'=')` to write, and
    `urlsafe_b64decode(text + '==')` to read. Reading follows CPython's non-strict
    `binascii.a2b_base64` (3.11 and later): characters outside the alphabet are skipped, and
    padding ends the input once it completes a group of four. */
module Base64Url {
  import opened Wrappers
  import opened Bytes

  /** The URL- and filename-safe alphabet: `A`-`Z`, `a`-`z`, `0`-`9`, `-`, `_`. */
  predicate InUrlAlphabet(c: char)
  {
    'A' <= c <= 'Z' || 'a' <= c <= 'z' || '0' <= c <= '9' || c == '-' || c == '_'
  }

  /** The character for a 6-bit value: the `v`-th of the alphabet. */
  function Sextet(v: nat): char
    requires v < 64
  {
    if v < 26 then ('A' as int + v) as char
    else if v < 52 then ('a' as int + v - 26) as char
    else if v < 62 then ('0' as int + v - 52) as char
    else if v == 62 then '-'
    else '_'
  }

  /** `base64.urlsafe_b64encode(bs).rstrip(b'=')`, as text: each group of three bytes
      becomes four characters, a final one or two bytes two or three characters. */
  function EncodeNoPad(bs: seq<Byte>): string
    decreases |bs|
  {
    if |bs| == 0 then ""
    else if |bs| == 1 then
      [Sextet(bs[0] / 4), Sextet((bs[0] % 4) * 16)]
    else if |bs| == 2 then
      [Sextet(bs[0] / 4), Sextet((bs[0] % 4) * 16 + bs[1] / 16),
       Sextet((bs[1] % 16) * 4)]
    else Quad(bs[0], bs[1], bs[2]) + EncodeNoPad(bs[3..])
  }

  /** The four characters of a group of three bytes. */
  function Quad(b0: Byte, b1: Byte, b2: Byte): string
  {
    [Sextet(b0 / 4), Sextet((b0 % 4) * 16 + b1 / 16), Sextet((b1 % 16) * 4 + b2 / 64), Sextet(b2 % 64)]
  }

  /** A character's 6-bit value once `urlsafe_b64decode` has translated `-` and `_` into `+`
      and `/`; so both spellings of 62 and of 63 are accepted. */
  function DecodeValue(c: char): (r: Option<nat>)
    ensures r.Some? ==> r.value < 64
  {
    if 'A' <= c <= 'Z' then Some(c as int - 'A' as int)
    else if 'a' <= c <= 'z' then Some(c as int - 'a' as int + 26)
    else if '0' <= c <= '9' then Some(c as int - '0' as int + 52)
    else if c == '+' || c == '-' then Some(62)
    else if c == '/' || c == '_' then Some(63)
    else None
  }

  /** The decoder's position within a group of four characters, the bits carried over from
      the previous character, and the number of `=` seen since the last data character. */
  datatype DecodeState = DecodeState(quadPos: nat, leftChar: nat, pads: nat)

  const Start := DecodeState(0, 0, 0)

  /** The carried bits fit what the next output byte has room for. */
  predicate ValidState(st: DecodeState)
  {
    st.quadPos < 4 &&
    (st.quadPos == 0 ==> st.leftChar == 0) &&
    (st.quadPos == 1 ==> st.leftChar < 64) &&
    (st.quadPos == 2 ==> st.leftChar < 16) &&
    (st.quadPos == 3 ==> st.leftChar < 4)
  }

  /** What one character does to the decoder: `Stop` when padding completes a group. */
  datatype Step = Continue(st: DecodeState, out: seq<Byte>) | Stop(out: seq<Byte>)

  function DecodeStep(c: char, st: DecodeState, out: seq<Byte>): (r: Step)
    requires ValidState(st)
    ensures r.Continue? ==> ValidState(r.st)
  {
    if c == '=' then
      if st.quadPos >= 2 && st.quadPos + st.pads + 1 >= 4 then Stop(out)
      else Continue(if st.quadPos >= 2 then st.(pads := st.pads + 1) else st, out)
    else
      match DecodeValue(c)
      case None => Continue(st, out)
      case Some(v) =>
        if st.quadPos == 0 then Continue(DecodeState(1, v, 0), out)
        else if st.quadPos == 1 then Continue(DecodeState(2, v % 16, 0), out + [st.leftChar * 4 + v / 16])
        else if st.quadPos == 2 then Continue(DecodeState(3, v % 4, 0), out + [st.leftChar * 16 + v / 4])
        else Continue(Start, out + [st.leftChar * 64 + v])
  }

  /** `binascii.a2b_base64(s, strict_mode=False)` from state `st`, having written `out`. */
  function A2bBase64(s: string, st: DecodeState, out: seq<Byte>): Option<seq<Byte>>
    requires ValidState(st)
    decreases |s|
  {
    if s == [] then
      // data characters left over: "Incorrect padding", or "Invalid base64-encoded string"
      if st.quadPos == 0 then Some(out) else None
    else
      match DecodeStep(s[0], st, out)
      case Stop(o) => Some(o)
      case Continue(st', o) => A2bBase64(s[1..], st', o)
  }

  /** `base64.urlsafe_b64decode(s)`: a non-ASCII character is an error. */
  function UrlsafeDecode(s: string): Option<seq<Byte>>
  {
    if IsAscii(s) then A2bBase64(s, Start, []) else None
  }

  // ---------------------------------------------------------------------------------

  lemma DecodeValueOfSextet(v: nat)
    requires v < 64
    ensures DecodeValue(Sextet(v)) == Some(v)
  {
  }

  lemma SextetCharacters(v: nat)
    requires v < 64
    ensures InUrlAlphabet(Sextet(v))
    ensures Sextet(v) as int < 0x80 && Sextet(v) != '=' && Sextet(v) != '.'
  {
  }

  /** The unpadded encoding of n bytes is ceil(4n / 3) characters long: 86 for a 64-byte
      Ed25519 signature. */
  lemma {:induction false} EncodeNoPadLength(bs: seq<Byte>)
    ensures |EncodeNoPad(bs)| == (4 * |bs| + 2) / 3
    decreases |bs|
  {
    if |bs| >= 3 {
      EncodeNoPadLength(bs[3..]);
    }
  }

  /** Encoded text holds only alphabet characters: it is ASCII and has no `=` padding and no
      `.`, so it can stand as one segment of a compact JWS. */
  lemma {:induction false} EncodeNoPadAlphabet(bs: seq<Byte>)
    ensures forall i :: 0 <= i < |EncodeNoPad(bs)| ==> InUrlAlphabet(EncodeNoPad(bs)[i])
    ensures IsAscii(EncodeNoPad(bs)) && '=' !in EncodeNoPad(bs) && '.' !in EncodeNoPad(bs)
    decreases |bs|
  {
    var e := EncodeNoPad(bs);
    if |bs| >= 3 {
      EncodeNoPadAlphabet(bs[3..]);
      QuadAlphabet(bs[0], bs[1], bs[2]);
      UrlConcat(Quad(bs[0], bs[1], bs[2]), EncodeNoPad(bs[3..]));
    } else {
      if |bs| >= 1 {
        SextetCharacters(bs[0] / 4);
      }
      if |bs| == 1 {
        SextetCharacters((bs[0] % 4) * 16);
      } else if |bs| == 2 {
        SextetCharacters((bs[0] % 4) * 16 + bs[1] / 16);
        SextetCharacters((bs[1] % 16) * 4);
      }
    }
    forall i | 0 <= i < |e| ensures e[i] as int < 0x80 && e[i] != '=' && e[i] != '.' {
      UrlCharacter(e[i]);
    }
  }

  lemma UrlCharacter(c: char)
    requires InUrlAlphabet(c)
    ensures c as int < 0x80 && c != '=' && c != '.'
  {
  }

  lemma QuadAlphabet(b0: Byte, b1: Byte, b2: Byte)
    ensures forall i :: 0 <= i < |Quad(b0, b1, b2)| ==> InUrlAlphabet(Quad(b0, b1, b2)[i])
  {
    SextetCharacters(b0 / 4);
    SextetCharacters((b0 % 4) * 16 + b1 / 16);
    SextetCharacters((b1 % 16) * 4 + b2 / 64);
    SextetCharacters(b2 % 64);
  }

  lemma UrlConcat(a: string, b: string)
    requires forall i :: 0 <= i < |a| ==> InUrlAlphabet(a[i])
    requires forall i :: 0 <= i < |b| ==> InUrlAlphabet(b[i])
    ensures forall i :: 0 <= i < |a + b| ==> InUrlAlphabet((a + b)[i])
  {
    forall i | 0 <= i < |a + b| ensures InUrlAlphabet((a + b)[i]) {
      if i >= |a| {
        assert (a + b)[i] == b[i - |a|];
      }
    }
  }

  /** Appending `==` to the unpadded encoding and decoding gives back the bytes, whatever
      their length: the padding completes the last group when it is short, and is skipped
      when the groups are already complete. */
  lemma DecodePaddedRoundTrip(bs: seq<Byte>)
    ensures UrlsafeDecode(EncodeNoPad(bs) + "==") == Some(bs)
  {
    EncodeNoPadAlphabet(bs);
    AsciiConcat(EncodeNoPad(bs), "==");
    DecodeGroups(bs, []);
    assert [] + bs == bs;
  }

  lemma {:induction false} DecodeGroups(bs: seq<Byte>, out: seq<Byte>)
    ensures A2bBase64(EncodeNoPad(bs) + "==", Start, out) == Some(out + bs)
    decreases |bs|
  {
    if |bs| == 0 {
      DecodeNothing(out);
      assert out + bs == out;
    } else if |bs| == 1 {
      DecodeLastOne(bs[0], out);
      assert bs == [bs[0]];
    } else if |bs| == 2 {
      DecodeLastTwo(bs[0], bs[1], out);
      assert bs == [bs[0], bs[1]];
    } else {
      DecodeGroups(bs[3..], out + bs[..3]);
      DecodeFirstGroup(bs, out);
    }
  }

  /** The padding alone decodes to nothing. */
  lemma DecodeNothing(out: seq<Byte>)
    ensures A2bBase64(EncodeNoPad([]) + "==", Start, out) == Some(out)
  {
    assert EncodeNoPad([]) + "==" == ['='] + ['='];
    PadStep(['='], Start, out);
    PadStep([], Start, out);
  }

  /** A first complete group is decoded, and the decoder goes on with the rest. */
  lemma DecodeFirstGroup(bs: seq<Byte>, out: seq<Byte>)
    requires |bs| >= 3
    requires A2bBase64(EncodeNoPad(bs[3..]) + "==", Start, out + bs[..3]) == Some(out + bs[..3] + bs[3..])
    ensures A2bBase64(EncodeNoPad(bs) + "==", Start, out) == Some(out + bs)
  {
    var first := [bs[0], bs[1], bs[2]];
    var rest := EncodeNoPad(bs[3..]) + "==";
    assert bs[..3] == first;
    assert EncodeNoPad(bs) + "==" == EncodeNoPad(first) + rest by {
      FirstGroup(bs);
    }
    assert A2bBase64(EncodeNoPad(first) + rest, Start, out) == A2bBase64(rest, Start, out + first) by {
      DecodeGroup(bs[0], bs[1], bs[2], rest, out);
    }
    assert out + first + bs[3..] == out + bs by {
      assert bs == first + bs[3..];
    }
  }

  /** The text of bytes beyond the first three is the first group followed by the rest. */
  lemma FirstGroup(bs: seq<Byte>)
    requires |bs| >= 3
    ensures EncodeNoPad(bs) + "==" == EncodeNoPad([bs[0], bs[1], bs[2]]) + (EncodeNoPad(bs[3..]) + "==")
  {
    var g := Quad(bs[0], bs[1], bs[2]);
    assert EncodeNoPad([bs[0], bs[1], bs[2]]) == g by {
      EncodeGroup(bs[0], bs[1], bs[2]);
    }
    Associate(g, EncodeNoPad(bs[3..]), "==");
  }

  lemma Associate(a: string, b: string, c: string)
    ensures a + b + c == a + (b + c)
  {
  }

  /** A `=` before the third character of a group is skipped. */
  lemma PadStep(rest: string, st: DecodeState, out: seq<Byte>)
    requires ValidState(st) && st.quadPos < 2
    ensures A2bBase64(['='] + rest, st, out) == A2bBase64(rest, st, out)
  {
    assert (['='] + rest)[1..] == rest;
  }

  /** Four characters encoding three bytes leave the decoder where it started. */
  lemma DecodeGroup(b0: Byte, b1: Byte, b2: Byte, rest: string, out: seq<Byte>)
    ensures A2bBase64(EncodeNoPad([b0, b1, b2]) + rest, Start, out) ==
      A2bBase64(rest, Start, out + [b0, b1, b2])
  {
    var v0, v1, v2, v3 := SplitGroup(b0, b1, b2);
    assert EncodeNoPad([b0, b1, b2]) + rest ==
      [Sextet(v0)] + ([Sextet(v1)] + ([Sextet(v2)] + ([Sextet(v3)] + rest)));
    DecodeSextets(v0, v1, v2, v3, b0, b1, b2, rest, out);
  }

  /** The four sextets of three bytes, and how the bytes are read back from them. */
  lemma SplitGroup(b0: Byte, b1: Byte, b2: Byte) returns (v0: nat, v1: nat, v2: nat, v3: nat)
    ensures v0 < 64 && v1 < 64 && v2 < 64 && v3 < 64
    ensures EncodeNoPad([b0, b1, b2]) == [Sextet(v0), Sextet(v1), Sextet(v2), Sextet(v3)]
    ensures v0 * 4 + v1 / 16 == b0 && (v1 % 16) * 16 + v2 / 4 == b1 && (v2 % 4) * 64 + v3 == b2
  {
    v0, v1, v2, v3 := b0 / 4, (b0 % 4) * 16 + b1 / 16, (b1 % 16) * 4 + b2 / 64, b2 % 64;
    GroupArithmetic(b0, b1, b2);
    EncodeGroup(b0, b1, b2);
  }

  lemma DecodeSextets(v0: nat, v1: nat, v2: nat, v3: nat, b0: Byte, b1: Byte, b2: Byte,
                      rest: string, out: seq<Byte>)
    requires v0 < 64 && v1 < 64 && v2 < 64 && v3 < 64
    requires v0 * 4 + v1 / 16 == b0 && (v1 % 16) * 16 + v2 / 4 == b1 && (v2 % 4) * 64 + v3 == b2
    ensures A2bBase64([Sextet(v0)] + ([Sextet(v1)] + ([Sextet(v2)] + ([Sextet(v3)] + rest))), Start, out) ==
      A2bBase64(rest, Start, out + [b0, b1, b2])
  {
    var r2 := [Sextet(v2)] + ([Sextet(v3)] + rest);
    var full := [Sextet(v0)] + ([Sextet(v1)] + r2);
    assert A2bBase64(full, Start, out) == A2bBase64(r2, DecodeState(2, v1 % 16, 0), out + [b0]) by {
      FirstHalf(v0, v1, r2, out);
    }
    assert A2bBase64(r2, DecodeState(2, v1 % 16, 0), out + [b0]) ==
           A2bBase64(rest, Start, out + [b0] + [b1] + [b2]) by {
      SecondHalf(v1 % 16, v2, v3, rest, out + [b0]);
    }
    assert out + [b0] + [b1] + [b2] == out + [b0, b1, b2];
  }

  lemma FirstHalf(v0: nat, v1: nat, rest: string, out: seq<Byte>)
    requires v0 < 64 && v1 < 64
    ensures A2bBase64([Sextet(v0)] + ([Sextet(v1)] + rest), Start, out) ==
      A2bBase64(rest, DecodeState(2, v1 % 16, 0), out + [v0 * 4 + v1 / 16])
  {
    DecodeValueOfSextet(v0);
    DecodeValueOfSextet(v1);
    DataStep0(Sextet(v0), [Sextet(v1)] + rest, v0, out);
    DataStep1(Sextet(v1), rest, v0, v1, out);
  }

  lemma SecondHalf(left: nat, v2: nat, v3: nat, rest: string, out: seq<Byte>)
    requires left < 16 && v2 < 64 && v3 < 64
    ensures A2bBase64([Sextet(v2)] + ([Sextet(v3)] + rest), DecodeState(2, left, 0), out) ==
      A2bBase64(rest, Start, out + [left * 16 + v2 / 4] + [(v2 % 4) * 64 + v3])
  {
    DecodeValueOfSextet(v2);
    DecodeValueOfSextet(v3);
    DataStep2(Sextet(v2), [Sextet(v3)] + rest, left, v2, out);
    DataStep3(Sextet(v3), rest, v2 % 4, v3, out + [left * 16 + v2 / 4]);
  }

  lemma EncodeGroup(b0: Byte, b1: Byte, b2: Byte)
    ensures EncodeNoPad([b0, b1, b2]) == Quad(b0, b1, b2)
  {
    assert [b0, b1, b2][3..] == [];
  }

  /** The bits of three bytes, cut into four sextets and joined again. */
  lemma GroupArithmetic(b0: Byte, b1: Byte, b2: Byte)
    ensures var v0, v1, v2, v3 := b0 / 4, (b0 % 4) * 16 + b1 / 16, (b1 % 16) * 4 + b2 / 64, b2 % 64;
      v0 < 64 && v1 < 64 && v2 < 64 && v3 < 64 &&
      v0 * 4 + v1 / 16 == b0 && (v1 % 16) * 16 + v2 / 4 == b1 && (v2 % 4) * 64 + v3 == b2
  {
  }

  /** One data character at each position of a group: the decoder moves on one position,
      writing a byte at every position but the first. */
  lemma DataStep0(c: char, rest: string, v: nat, out: seq<Byte>)
    requires DecodeValue(c) == Some(v)
    ensures A2bBase64([c] + rest, Start, out) == A2bBase64(rest, DecodeState(1, v, 0), out)
  {
    assert ([c] + rest)[0] == c && ([c] + rest)[1..] == rest;
  }

  lemma DataStep1(c: char, rest: string, left: nat, v: nat, out: seq<Byte>)
    requires left < 64 && DecodeValue(c) == Some(v)
    ensures A2bBase64([c] + rest, DecodeState(1, left, 0), out) ==
      A2bBase64(rest, DecodeState(2, v % 16, 0), out + [left * 4 + v / 16])
  {
    assert ([c] + rest)[0] == c && ([c] + rest)[1..] == rest;
  }

  lemma DataStep2(c: char, rest: string, left: nat, v: nat, out: seq<Byte>)
    requires left < 16 && DecodeValue(c) == Some(v)
    ensures A2bBase64([c] + rest, DecodeState(2, left, 0), out) ==
      A2bBase64(rest, DecodeState(3, v % 4, 0), out + [left * 16 + v / 4])
  {
    assert ([c] + rest)[0] == c && ([c] + rest)[1..] == rest;
  }

  lemma DataStep3(c: char, rest: string, left: nat, v: nat, out: seq<Byte>)
    requires left < 4 && DecodeValue(c) == Some(v)
    ensures A2bBase64([c] + rest, DecodeState(3, left, 0), out) ==
      A2bBase64(rest, Start, out + [left * 64 + v])
  {
    assert ([c] + rest)[0] == c && ([c] + rest)[1..] == rest;
  }

  lemma DecodeLastOne(b0: Byte, out: seq<Byte>)
    ensures A2bBase64(EncodeNoPad([b0]) + "==", Start, out) == Some(out + [b0])
  {
    var v0, v1 := b0 / 4, (b0 % 4) * 16;
    var c0, c1 := Sextet(v0), Sextet(v1);
    assert EncodeNoPad([b0]) + "==" == [c0] + ([c1] + ['=', '=']);
    DecodeValueOfSextet(v0);
    DecodeValueOfSextet(v1);
    assert v0 * 4 + v1 / 16 == b0;
    DataStep0(c0, [c1] + ['=', '='], v0, out);
    DataStep1(c1, ['=', '='], v0, v1, out);
    assert ['=', '='][1..] == ['='];
  }

  lemma DecodeLastTwo(b0: Byte, b1: Byte, out: seq<Byte>)
    ensures A2bBase64(EncodeNoPad([b0, b1]) + "==", Start, out) == Some(out + [b0, b1])
  {
    var v0, v1, v2 := b0 / 4, (b0 % 4) * 16 + b1 / 16, (b1 % 16) * 4;
    var c0, c1, c2 := Sextet(v0), Sextet(v1), Sextet(v2);
    assert EncodeNoPad([b0, b1]) + "==" == [c0] + ([c1] + ([c2] + ['=', '=']));
    DecodeValueOfSextet(v0);
    DecodeValueOfSextet(v1);
    DecodeValueOfSextet(v2);
    assert v0 * 4 + v1 / 16 == b0;
    assert (v1 % 16) * 16 + v2 / 4 == b1;
    DataStep0(c0, [c1] + ([c2] + ['=', '=']), v0, out);
    DataStep1(c1, [c2] + ['=', '='], v0, v1, out);
    DataStep2(c2, ['=', '='], v1 % 16, v2, out + [b0]);
    assert out + [b0] + [b1] == out + [b0, b1];
  }
}

=== FILE: bytes.dfy ===
/** Byte strings as Python's `bytes`, `int.from_bytes`/`int.to_bytes` (big-endian),
    `int.bit_length`, `bytes.hex()`/`hexdigest()` and `str.encode('utf-8')` treat them. */
module Bytes {

  type Byte = b: int | 0 <= b < 256

  function Pow2(k: nat): (r: nat)
    ensures r >= 1
  {
    if k == 0 then 1 else 2 * Pow2(k - 1)
  }

  function Pow256(k: nat): (r: nat)
    ensures r >= 1
  {
    if k == 0 then 1 else 256 * Pow256(k - 1)
  }

  lemma {:induction false} Pow256IsPow2(k: nat)
    ensures Pow256(k) == Pow2(8 * k)
  {
    if k > 0 {
      Pow256IsPow2(k - 1);
      assert Pow2(8 * k) == 256 * Pow2(8 * (k - 1)) by {
        var m := 8 * (k - 1);
        assert 8 * k == m + 8;
        assert Pow2(m + 8) == 2 * Pow2(m + 7) == 4 * Pow2(m + 6) == 8 * Pow2(m + 5)
          == 16 * Pow2(m + 4) == 32 * Pow2(m + 3) == 64 * Pow2(m + 2) == 128 * Pow2(m + 1)
          == 256 * Pow2(m);
      }
    }
  }

  lemma {:induction false} Pow2Monotone(a: nat, b: nat)
    requires a <= b
    ensures Pow2(a) <= Pow2(b)
  {
    if a < b {
      Pow2Monotone(a, b - 1);
    }
  }

  /** `int.from_bytes(bs, 'big')`: the first byte is the most significant. */
  function FromBigEndian(bs: seq<Byte>): nat
  {
    if bs == [] then 0 else FromBigEndian(bs[..|bs| - 1]) * 256 + bs[|bs| - 1]
  }

  /** `n.to_bytes(len, 'big')`; Python raises OverflowError unless n < 256^len, which the
      only caller (base58 decoding) never violates. */
  function ToBigEndian(n: nat, len: nat): (r: seq<Byte>)
    ensures |r| == len
  {
    if len == 0 then [] else ToBigEndian(n / 256, len - 1) + [n % 256]
  }

  /** A byte string of length k denotes a number below 256^k, and at least 256^(k-1)
      when its first byte is not zero. */
  lemma {:induction false} FromBigEndianBounds(bs: seq<Byte>)
    ensures FromBigEndian(bs) < Pow256(|bs|)
    ensures |bs| > 0 && bs[0] != 0 ==> Pow256(|bs| - 1) <= FromBigEndian(bs)
  {
    if bs != [] {
      var init := bs[..|bs| - 1];
      FromBigEndianBounds(init);
      if |bs| > 1 {
        assert init[0] == bs[0];
      }
    }
  }

  /** The `to_bytes` encoding of a number that fits decodes back to that number. */
  lemma {:induction false} ToBigEndianInverse(n: nat, len: nat)
    requires n < Pow256(len)
    ensures FromBigEndian(ToBigEndian(n, len)) == n
  {
    if len > 0 {
      ToBigEndianInverse(n / 256, len - 1);
      var r := ToBigEndian(n, len);
      assert r[..|r| - 1] == ToBigEndian(n / 256, len - 1);
    }
  }

  /** Re-encoding a byte string at its own length gives it back: `from_bytes` loses nothing
      but the length. */
  lemma {:induction false} FromBigEndianInverse(bs: seq<Byte>)
    ensures ToBigEndian(FromBigEndian(bs), |bs|) == bs
  {
    if bs != [] {
      var init := bs[..|bs| - 1];
      FromBigEndianInverse(init);
      var n := FromBigEndian(bs);
      assert n / 256 == FromBigEndian(init);
      assert n % 256 == bs[|bs| - 1];
      assert bs == init + [bs[|bs| - 1]];
    }
  }

  /** `int.bit_length()`. */
  function BitLength(n: nat): nat
  {
    if n == 0 then 0 else 1 + BitLength(n / 2)
  }

  /** The length `int.to_bytes` is given in base58 decoding: `(n.bit_length() + 7) // 8`. */
  function ByteLength(n: nat): nat
  {
    (BitLength(n) + 7) / 8
  }

  lemma {:induction false} BitLengthBounds(n: nat)
    ensures n < Pow2(BitLength(n))
    ensures n > 0 ==> Pow2(BitLength(n) - 1) <= n
  {
    if n > 0 {
      BitLengthBounds(n / 2);
    }
  }

  /** The bit length is the unique k with 2^(k-1) <= n < 2^k. */
  lemma {:induction false} BitLengthUnique(n: nat, k: nat)
    requires n < Pow2(k)
    requires k > 0 ==> Pow2(k - 1) <= n
    ensures BitLength(n) == k
  {
    if k > 0 {
      assert n > 0;
      BitLengthUnique(n / 2, k - 1);
    } else {
      assert n == 0;
    }
  }

  /** A number that is exactly len bytes long (its top byte non-zero) has byte length len,
      so `to_bytes((bit_length + 7) // 8)` writes no leading zero byte and drops no byte. */
  lemma ByteLengthExact(n: nat, len: nat)
    requires len > 0
    requires Pow256(len - 1) <= n < Pow256(len)
    ensures ByteLength(n) == len
  {
    Pow256IsPow2(len);
    Pow256IsPow2(len - 1);
    BitLengthBounds(n);
    var k := BitLength(n);
    assert k > 0;
    if k > 8 * len {
      Pow2Monotone(8 * len, k - 1);
    }
    if k <= 8 * (len - 1) {
      Pow2Monotone(k, 8 * (len - 1));
    }
    assert 8 * (len - 1) < k <= 8 * len;
  }

  lemma ByteLengthZero()
    ensures ByteLength(0) == 0
  {
  }

  /** Every number fits in its byte length. */
  lemma ByteLengthFits(n: nat)
    ensures n < Pow256(ByteLength(n))
  {
    BitLengthBounds(n);
    var k := BitLength(n);
    Pow256IsPow2(ByteLength(n));
    Pow2Monotone(k, 8 * ByteLength(n));
  }

  // ---------------------------------------------------------------------------------
  // Lower-case hexadecimal, as `bytes.hex()` and `hashlib.sha256(..).hexdigest()`.

  const HexDigits: string := "0123456789abcdef"

  function HexByte(b: Byte): string
  {
    [HexDigits[b / 16], HexDigits[b % 16]]
  }

  function HexLower(bs: seq<Byte>): (r: string)
    ensures |r| == 2 * |bs|
    ensures forall i :: 0 <= i < |r| ==> r[i] in HexDigits
  {
    if bs == [] then "" else HexByte(bs[0]) + HexLower(bs[1..])
  }

  lemma HexDigitsDistinct(a: nat, b: nat)
    requires a < 16 && b < 16 && HexDigits[a] == HexDigits[b]
    ensures a == b
  {
  }

  /** Distinct digests have distinct hex digests. */
  lemma {:induction false} HexLowerInjective(a: seq<Byte>, b: seq<Byte>)
    requires HexLower(a) == HexLower(b)
    ensures a == b
  {
    if a != [] {
      assert |b| == |a|;
      var ha, hb := HexLower(a), HexLower(b);
      assert ha[0] == hb[0] && ha[1] == hb[1];
      HexDigitsDistinct(a[0] / 16, b[0] / 16);
      HexDigitsDistinct(a[0] % 16, b[0] % 16);
      assert a[0] == b[0];
      assert ha[2..] == HexLower(a[1..]) && hb[2..] == HexLower(b[1..]);
      HexLowerInjective(a[1..], b[1..]);
      assert a == [a[0]] + a[1..] && b == [b[0]] + b[1..];
    }
  }

  // ---------------------------------------------------------------------------------
  // UTF-8, as `str.encode('utf-8')` (Dafny strings hold Unicode scalar values only, so
  // the surrogate error Python can raise here never arises).

  function Utf8Char(c: char): (r: seq<Byte>)
    ensures 1 <= |r| <= 4
  {
    var n := c as int;
    if n < 0x80 then [n]
    else if n < 0x800 then [0xC0 + n / 0x40, 0x80 + n % 0x40]
    else if n < 0x1_0000 then [0xE0 + n / 0x1000, 0x80 + (n / 0x40) % 0x40, 0x80 + n % 0x40]
    else [0xF0 + n / 0x4_0000, 0x80 + (n / 0x1000) % 0x40, 0x80 + (n / 0x40) % 0x40, 0x80 + n % 0x40]
  }

  function Utf8(s: string): seq<Byte>
  {
    if s == [] then [] else Utf8Char(s[0]) + Utf8(s[1..])
  }

  predicate IsAscii(s: string)
  {
    forall i :: 0 <= i < |s| ==> s[i] as int < 0x80
  }

  lemma AsciiConcat(a: string, b: string)
    requires IsAscii(a) && IsAscii(b)
    ensures IsAscii(a + b)
  {
    forall i | 0 <= i < |a + b| ensures (a + b)[i] as int < 0x80 {
      if i >= |a| {
        assert (a + b)[i] == b[i - |a|];
      }
    }
  }

  /** The bytes of an ASCII string, one per character. */
  function AsciiBytes(s: string): (r: seq<Byte>)
    requires IsAscii(s)
    ensures |r| == |s|
  {
    seq(|s|, i requires 0 <= i < |s| => s[i] as int)
  }

  lemma {:induction false} Utf8Append(a: string, b: string)
    ensures Utf8(a + b) == Utf8(a) + Utf8(b)
  {
    if a != [] {
      assert (a + b)[1..] == a[1..] + b;
      Utf8Append(a[1..], b);
    } else {
      assert a + b == b;
    }
  }

  /** On ASCII text UTF-8 is the identity on code points: one byte per character. */
  lemma {:induction false} Utf8OfAscii(s: string)
    requires IsAscii(s)
    ensures Utf8(s) == AsciiBytes(s)
  {
    if s != [] {
      Utf8OfAscii(s[1..]);
      assert AsciiBytes(s) == [s[0] as int] + AsciiBytes(s[1..]);
    }
  }

  /** Distinct ASCII strings have distinct UTF-8 encodings. */
  lemma Utf8AsciiInjective(a: string, b: string)
    requires IsAscii(a) && IsAscii(b) && Utf8(a) == Utf8(b)
    ensures a == b
  {
    Utf8OfAscii(a);
    Utf8OfAscii(b);
    var ba, bb := AsciiBytes(a), AsciiBytes(b);
    assert |a| == |b|;
    forall i | 0 <= i < |a| ensures a[i] == b[i] {
      assert ba[i] == bb[i];
    }
  }
}

=== FILE: credential.dfy ===
/** Issuing a TouristCredential (`create_signed_vc` and `issue_tourist_credential`): the
    payload built from the tourist record, its detached JWS with an unencoded payload
    (RFC 7797), and the proof attached to a copy of the payload. */
module Credential {
  import opened Wrappers
  import opened Bytes
  import opened Json
  import opened Crypto
  import opened Timestamp
  import opened MutableDict
  import Base64Url
  import DidKey
  import Dict
  import JsonParse
  import PyStr

  // ---------------------------------------------------------------------------------
  // Reading the tourist record.

  /** The name `type(v).__name__` gives for a JSON value. */
  function TypeName(v: Json): string
  {
    match v
    case Null => "NoneType"
    case Bool(_) => "bool"
    case Str(_) => "str"
    case Arr(_) => "list"
    case Obj(_) => "dict"
  }

  /** `tourist_data[key]`, or the text of the `KeyError` or `TypeError` it raises. */
  function Subscript(data: Json, key: string): (r: Result<Json, string>)
    ensures r.Ok? <==> data.Obj? && key in KeySet(data.members)
    ensures r.Ok? ==> Lookup(data.members, key) == Some(r.value)
    ensures data.Obj? && r.Err? ==> r.error == "'" + key + "'"
  {
    match data
    case Null => Err("'NoneType' object is not subscriptable")
    case Bool(_) => Err("'bool' object is not subscriptable")
    case Str(_) => Err("string indices must be integers, not 'str'")
    case Arr(_) => Err("list indices must be integers or slices, not str")
    case Obj(ms) =>
      match Lookup(ms, key)
      case None => Err("'" + key + "'")
      case Some(v) => Ok(v)
  }

  /** `v.encode()`: the UTF-8 bytes of a string, or the text of the `AttributeError` any
      other value raises. */
  function EncodeText(v: Json): (r: Result<seq<Byte>, string>)
    ensures r.Ok? <==> v.Str?
    ensures r.Ok? ==> r.value == Utf8(v.s)
    ensures r.Err? ==> r.error == "'" + TypeName(v) + "' object has no attribute 'encode'"
  {
    match v
    case Str(s) => Ok(Utf8(s))
    case _ => Err("'" + TypeName(v) + "' object has no attribute 'encode'")
  }

  // ---------------------------------------------------------------------------------
  // The payload.

  /** The six fields copied from the tourist record into `touristInfo`. */
  const TouristFields: seq<string> :=
    ["name", "nationality", "passportNumber", "emergencyContact", "bloodType", "insurancePolicyId"]

  /** The order in which the payload expression reads the record: the passport number first
      (for the subject id), then the `touristInfo` fields. */
  const AccessOrder: seq<string> :=
    ["passportNumber", "name", "nationality", "emergencyContact", "bloodType", "insurancePolicyId"]

  const SubjectIdPrefix: string := "did:example:"

  /** The subject id: `did:example:` and the lower-case hex SHA-256 digest of the passport
      number's UTF-8 bytes, 64 hex digits. */
  function SubjectIdOf(c: Suite, passport: string): (id: string)
    ensures |id| >= |SubjectIdPrefix| && id[..|SubjectIdPrefix|] == SubjectIdPrefix
    ensures Sha256Length(c) ==> |id| == |SubjectIdPrefix| + 64
    ensures forall i :: |SubjectIdPrefix| <= i < |id| ==> id[i] in HexDigits
  {
    var digest := HexLower(c.sha256(Utf8(passport)));
    var id := SubjectIdPrefix + digest;
    assert forall i :: |SubjectIdPrefix| <= i < |id| ==> id[i] == digest[i - |SubjectIdPrefix|];
    id
  }

  /** The `touristInfo` object: its type, then the six record fields, in this order. */
  function TouristInfo(name: Json, nationality: Json, passport: Json, emergencyContact: Json,
                       bloodType: Json, insurancePolicyId: Json): seq<Member>
  {
    [Member("type", Str("Tourist")), Member("name", name), Member("nationality", nationality),
     Member("passportNumber", passport), Member("emergencyContact", emergencyContact),
     Member("bloodType", bloodType), Member("insurancePolicyId", insurancePolicyId)]
  }

  /** The `credential_payload` dict literal, items in the order the literal lists them. */
  function PayloadMembers(issuerDid: string, issuanceDate: string, subjectId: string,
                          info: seq<Member>): seq<Member>
  {
    [Member("@context", Arr([Str("https://www.w3.org/2018/credentials/v1")])),
     Member("id", Str("urn:uuid:4f378344-8596-4c3a-a978-8fcaba3903c5")),
     Member("type", Arr([Str("VerifiableCredential"), Str("TouristCredential")])),
     Member("issuer", Str(issuerDid)),
     Member("issuanceDate", Str(issuanceDate)),
     Member("credentialSubject", Obj([Member("id", Str(subjectId)), Member("touristInfo", Obj(info))]))]
  }

  /** Evaluating the `credential_payload` literal (lines 44-58 of `cred2.py`): the first
      failing read of the record raises, and nothing is built. */
  function BuildPayload(c: Suite, data: Json, issuerDid: string, issuanceDate: string)
    : (r: Result<seq<Member>, string>)
    ensures r.Ok? <==> RecordAccepted(data)
  {
    var passport :- Subscript(data, "passportNumber");
    var passportBytes :- EncodeText(passport);
    var name :- Subscript(data, "name");
    var nationality :- Subscript(data, "nationality");
    var emergencyContact :- Subscript(data, "emergencyContact");
    var bloodType :- Subscript(data, "bloodType");
    var insurancePolicyId :- Subscript(data, "insurancePolicyId");
    // the second read of `passportNumber` (for `touristInfo`) gives the same value again
    var subjectId := SubjectIdPrefix + HexLower(c.sha256(passportBytes));
    assert subjectId == SubjectIdOf(c, passport.s);
    Ok(PayloadMembers(issuerDid, issuanceDate, subjectId,
      TouristInfo(name, nationality, passport, emergencyContact, bloodType, insurancePolicyId)))
  }

  /** The records issuance accepts: a dict holding all six fields, the passport number a
      string. */
  predicate RecordAccepted(data: Json)
  {
    data.Obj? &&
    "name" in KeySet(data.members) && "nationality" in KeySet(data.members) &&
    "passportNumber" in KeySet(data.members) && "emergencyContact" in KeySet(data.members) &&
    "bloodType" in KeySet(data.members) && "insurancePolicyId" in KeySet(data.members) &&
    PassportIsText(data)
  }

  /** The record holds a string under `passportNumber`. */
  predicate PassportIsText(data: Json)
  {
    data.Obj? && Lookup(data.members, "passportNumber").Some? &&
    Lookup(data.members, "passportNumber").value.Str?
  }

  // ---------------------------------------------------------------------------------
  // The detached JWS.

  /** `{"alg": "EdDSA", "b64": false, "crit": ["b64"]}`: RFC 7797's unencoded payload,
      marked critical as its section 6 requires. */
  const JwsHeader: Json :=
    Obj([Member("alg", Str("EdDSA")), Member("b64", Bool(false)), Member("crit", Arr([Str("b64")]))])

  /** The JWS header serialised by `json.dumps` with the default separators (not the
      canonical ones), UTF-8 encoded, then base64url-encoded without padding. */
  function EncodedHeader(): string
  {
    Base64Url.EncodeNoPad(Utf8(DumpsDefault(JwsHeader)))
  }

  /** The JWS signing input for an unencoded payload: the encoded header, `.`, and the
      canonical payload bytes. */
  function SigningInput(encodedHeader: string, payload: Json): seq<Byte>
  {
    Utf8(encodedHeader) + [46] + Utf8(Canonical(payload))
  }

  /** The detached compact serialisation: header, an empty payload segment, signature. */
  function DetachedJws(encodedHeader: string, signature: seq<Byte>): string
  {
    encodedHeader + ".." + Base64Url.EncodeNoPad(signature)
  }

  /** The `proof` dict. */
  function ProofObject(created: string, verificationMethod: string, jws: string): Json
  {
    Obj([Member("type", Str("Ed25519Signature2018")), Member("created", Str(created)),
         Member("verificationMethod", Str(verificationMethod)),
         Member("proofPurpose", Str("assertionMethod")), Member("jws", Str(jws))])
  }

  /** Lines 60-80 of `cred2.py`: the payload signed under the issuer's private key, and the
      `proof` carrying that signature added to (a copy of) it; `signedAt` is the clock reading
      for `created`. */
  function AttachProof(c: Suite, payload: seq<Member>, privateKey: seq<Byte>,
                       verificationMethod: string, signedAt: DateTime): seq<Member>
    requires Valid(signedAt)
  {
    var signature := c.sign(privateKey, SigningInput(EncodedHeader(), Obj(payload)));
    var jws := DetachedJws(EncodedHeader(), signature);
    Put(payload, "proof", ProofObject(IsoSecondsZ(signedAt), verificationMethod, jws))
  }

  /** The credential `create_signed_vc` returns, as a dict: the payload with `proof` added;
      `issuedAt` and `signedAt` are the two readings of the clock. */
  function SignedCredential(c: Suite, data: Json, privateKey: seq<Byte>, issuerDid: string,
                            verificationMethod: string, issuedAt: DateTime, signedAt: DateTime)
    : (r: Result<seq<Member>, string>)
    requires Valid(issuedAt) && Valid(signedAt)
    ensures r.Ok? <==> RecordAccepted(data)
  {
    var payload :- BuildPayload(c, data, issuerDid, IsoSecondsZ(issuedAt));
    Ok(AttachProof(c, payload, privateKey, verificationMethod, signedAt))
  }

  /** `create_signed_vc`: builds the payload, signs it, attaches the proof to a copy of the
      payload dict, and returns `json.dumps` of that copy. */
  method CreateSignedVc(c: Suite, data: Json, privateKey: seq<Byte>, issuerDid: string,
                        verificationMethod: string, issuedAt: DateTime, signedAt: DateTime)
    returns (r: Result<string, string>)
    requires Valid(issuedAt) && Valid(signedAt)
    ensures r.Ok? <==> RecordAccepted(data)
    ensures r.Ok? ==> r.value == DumpsDefault(Obj(
      SignedCredential(c, data, privateKey, issuerDid, verificationMethod, issuedAt, signedAt).value))
    ensures r.Err? ==> (r.error ==
      SignedCredential(c, data, privateKey, issuerDid, verificationMethod, issuedAt, signedAt).error)
  {
    var payload :- BuildPayload(c, data, issuerDid, IsoSecondsZ(issuedAt));
    var header := EncodedHeader();
    var signature := c.sign(privateKey, SigningInput(header, Obj(payload)));
    var jws := DetachedJws(header, signature);
    PayloadKeysDistinct(c, data, issuerDid, IsoSecondsZ(issuedAt));
    var finalVc := new PyDict.Copy(payload);
    finalVc.SetItem("proof", ProofObject(IsoSecondsZ(signedAt), verificationMethod, jws));
    r := Ok(DumpsDefault(Obj(finalVc.items)));
  }

  const IssuanceErrorPrefix: string := "Credential issuance failed in engine: "

  /** `issue_tourist_credential`: a new issuer identity, then `create_signed_vc`; any
      exception is raised again with its text after the engine's prefix. */
  method IssueTouristCredential(c: Suite, data: Json, privateKey: seq<Byte>,
                                issuedAt: DateTime, signedAt: DateTime)
    returns (r: Result<string, string>)
    requires Valid(issuedAt) && Valid(signedAt)
    ensures r.Ok? <==> RecordAccepted(data)
    ensures r.Ok? ==> r.value == DumpsDefault(Obj(Issued(c, data, privateKey, issuedAt, signedAt).value))
    ensures r.Err? ==> r.error == IssuanceErrorPrefix + Issued(c, data, privateKey, issuedAt, signedAt).error
  {
    var issuer := DidKey.GenerateIssuerId(c, privateKey);
    var signed := CreateSignedVc(c, data, issuer.privateKey, issuer.did,
                                 issuer.verificationMethod, issuedAt, signedAt);
    match signed
    case Ok(s) => r := Ok(s);
    case Err(e) => r := Err(IssuanceErrorPrefix + e);
  }

  /** The credential issued to a fresh issuer whose private key is `privateKey`. */
  function Issued(c: Suite, data: Json, privateKey: seq<Byte>, issuedAt: DateTime, signedAt: DateTime)
    : (r: Result<seq<Member>, string>)
    requires Valid(issuedAt) && Valid(signedAt)
    ensures r.Ok? <==> RecordAccepted(data)
  {
    var issuer := DidKey.GenerateIssuerId(c, privateKey);
    SignedCredential(c, data, privateKey, issuer.did, issuer.verificationMethod, issuedAt, signedAt)
  }

  // ---------------------------------------------------------------------------------
  // What the payload holds.

  /** The value at a path of keys through nested dicts, `j[k0][k1]...`. */
  function At(j: Json, path: seq<string>): Option<Json>
    decreases |path|
  {
    if path == [] then Some(j)
    else if !j.Obj? then None
    else
      match Lookup(j.members, path[0])
      case None => None
      case Some(v) => At(v, path[1..])
  }

  lemma PayloadKeysDistinct(c: Suite, data: Json, issuerDid: string, issuanceDate: string)
    requires BuildPayload(c, data, issuerDid, issuanceDate).Ok?
    ensures DistinctKeys(BuildPayload(c, data, issuerDid, issuanceDate).value)
    ensures "proof" !in KeySet(BuildPayload(c, data, issuerDid, issuanceDate).value)
  {
    var ms := data.members;
    BuildPayloadOf(c, data, issuerDid, issuanceDate);
    PayloadMembersDistinct(issuerDid, issuanceDate,
      SubjectIdOf(c, Lookup(ms, "passportNumber").value.s),
      TouristInfo(Lookup(ms, "name").value, Lookup(ms, "nationality").value,
        Lookup(ms, "passportNumber").value, Lookup(ms, "emergencyContact").value,
        Lookup(ms, "bloodType").value, Lookup(ms, "insurancePolicyId").value));
  }

  /** The payload built from an accepted record, field by field. */
  lemma BuildPayloadOf(c: Suite, data: Json, issuerDid: string, issuanceDate: string)
    requires RecordAccepted(data)
    ensures var ms := data.members;
      BuildPayload(c, data, issuerDid, issuanceDate) == Ok(PayloadMembers(issuerDid, issuanceDate,
        SubjectIdOf(c, Lookup(ms, "passportNumber").value.s),
        TouristInfo(Lookup(ms, "name").value, Lookup(ms, "nationality").value,
          Lookup(ms, "passportNumber").value, Lookup(ms, "emergencyContact").value,
          Lookup(ms, "bloodType").value, Lookup(ms, "insurancePolicyId").value)))
  {
  }

  /** The value at `path` when its first key is the `i`-th of a dict. */
  lemma AtIndex(ms: seq<Member>, i: nat, path: seq<string>)
    requires DistinctKeys(ms) && i < |ms| && path != [] && path[0] == ms[i].key
    ensures At(Obj(ms), path) == At(ms[i].value, path[1..])
  {
    Dict.LookupIndex(ms, i);
  }

  /** `credentialSubject.id` is the subject id of the record's passport number. */
  lemma SubjectId(c: Suite, data: Json, issuerDid: string, issuanceDate: string)
    requires RecordAccepted(data)
    ensures At(Obj(BuildPayload(c, data, issuerDid, issuanceDate).value), ["credentialSubject", "id"]) ==
      Some(Str(SubjectIdOf(c, Lookup(data.members, "passportNumber").value.s)))
  {
    var ms := data.members;
    var info := TouristInfo(Lookup(ms, "name").value, Lookup(ms, "nationality").value,
      Lookup(ms, "passportNumber").value, Lookup(ms, "emergencyContact").value,
      Lookup(ms, "bloodType").value, Lookup(ms, "insurancePolicyId").value);
    var id := SubjectIdOf(c, Lookup(ms, "passportNumber").value.s);
    BuildPayloadOf(c, data, issuerDid, issuanceDate);
    PayloadAt(issuerDid, issuanceDate, id, info);
  }

  /** Distinct SHA-256 digests of passport numbers give distinct subject ids. */
  lemma SubjectIdInjective(c: Suite, a: string, b: string)
    requires SubjectIdOf(c, a) == SubjectIdOf(c, b)
    ensures c.sha256(Utf8(a)) == c.sha256(Utf8(b))
  {
    var da, db := HexLower(c.sha256(Utf8(a))), HexLower(c.sha256(Utf8(b)));
    assert da == SubjectIdOf(c, a)[|SubjectIdPrefix|..];
    assert db == SubjectIdOf(c, b)[|SubjectIdPrefix|..];
    HexLowerInjective(c.sha256(Utf8(a)), c.sha256(Utf8(b)));
  }

  lemma PayloadMembersDistinct(issuerDid: string, issuanceDate: string, subjectId: string,
                               info: seq<Member>)
    ensures DistinctKeys(PayloadMembers(issuerDid, issuanceDate, subjectId, info))
    ensures "proof" !in KeySet(PayloadMembers(issuerDid, issuanceDate, subjectId, info))
  {
  }

  /** Where the payload keeps the issuer, the issuance date, the subject id and the tourist
      information. */
  lemma PayloadAt(issuerDid: string, issuanceDate: string, subjectId: string, info: seq<Member>)
    ensures var p := Obj(PayloadMembers(issuerDid, issuanceDate, subjectId, info));
      At(p, ["issuer"]) == Some(Str(issuerDid)) &&
      At(p, ["issuanceDate"]) == Some(Str(issuanceDate)) &&
      At(p, ["credentialSubject", "id"]) == Some(Str(subjectId)) &&
      At(p, ["credentialSubject", "touristInfo"]) == Some(Obj(info))
  {
    var p := PayloadMembers(issuerDid, issuanceDate, subjectId, info);
    PayloadMembersDistinct(issuerDid, issuanceDate, subjectId, info);
    var subject := [Member("id", Str(subjectId)), Member("touristInfo", Obj(info))];
    assert p[5].value == Obj(subject);
    AtIndex(p, 3, ["issuer"]);
    AtIndex(p, 4, ["issuanceDate"]);
    AtIndex(p, 5, ["credentialSubject", "id"]);
    AtIndex(p, 5, ["credentialSubject", "touristInfo"]);
    AtIndex(subject, 0, ["id"]);
    AtIndex(subject, 1, ["touristInfo"]);
    assert ["credentialSubject", "id"][1..] == ["id"];
    assert ["credentialSubject", "touristInfo"][1..] == ["touristInfo"];
  }

  /** `touristInfo` is `type: "Tourist"` followed by the record's six fields, copied as
      they are, in this order. */
  lemma TouristInfoCopies(c: Suite, data: Json, issuerDid: string, issuanceDate: string)
    requires RecordAccepted(data)
    ensures var info := At(Obj(BuildPayload(c, data, issuerDid, issuanceDate).value),
                           ["credentialSubject", "touristInfo"]);
      info.Some? && info.value.Obj? && |info.value.members| == 1 + |TouristFields| &&
      info.value.members[0] == Member("type", Str("Tourist")) &&
      forall i :: 0 <= i < |TouristFields| ==>
        Lookup(data.members, TouristFields[i]).Some? &&
        info.value.members[i + 1] == Member(TouristFields[i], Lookup(data.members, TouristFields[i]).value)
  {
    var ms := data.members;
    var info := TouristInfo(Lookup(ms, "name").value, Lookup(ms, "nationality").value,
      Lookup(ms, "passportNumber").value, Lookup(ms, "emergencyContact").value,
      Lookup(ms, "bloodType").value, Lookup(ms, "insurancePolicyId").value);
    var id := SubjectIdOf(c, Lookup(ms, "passportNumber").value.s);
    assert At(Obj(BuildPayload(c, data, issuerDid, issuanceDate).value),
              ["credentialSubject", "touristInfo"]) == Some(Obj(info)) by {
      BuildPayloadOf(c, data, issuerDid, issuanceDate);
      PayloadAt(issuerDid, issuanceDate, id, info);
    }
    TouristInfoFields(data);
  }

  lemma TouristInfoFields(data: Json)
    requires RecordAccepted(data)
    ensures var ms := data.members;
      var info := TouristInfo(Lookup(ms, "name").value, Lookup(ms, "nationality").value,
        Lookup(ms, "passportNumber").value, Lookup(ms, "emergencyContact").value,
        Lookup(ms, "bloodType").value, Lookup(ms, "insurancePolicyId").value);
      |info| == 1 + |TouristFields| &&
      forall i :: 0 <= i < |TouristFields| ==>
        Lookup(ms, TouristFields[i]).Some? &&
        info[i + 1] == Member(TouristFields[i], Lookup(ms, TouristFields[i]).value)
  {
    var ms := data.members;
    FieldsPresent(data);
    var v := seq(6, i requires 0 <= i < 6 => Lookup(ms, TouristFields[i]).value);
    assert v[0] == Lookup(ms, "name").value && v[1] == Lookup(ms, "nationality").value &&
      v[2] == Lookup(ms, "passportNumber").value && v[3] == Lookup(ms, "emergencyContact").value &&
      v[4] == Lookup(ms, "bloodType").value && v[5] == Lookup(ms, "insurancePolicyId").value;
    InfoAt(v);
  }

  lemma FieldsPresent(data: Json)
    requires RecordAccepted(data)
    ensures forall i :: 0 <= i < |TouristFields| ==> Lookup(data.members, TouristFields[i]).Some?
  {
    forall i | 0 <= i < |TouristFields| ensures TouristFields[i] in KeySet(data.members) {
      if i == 0 { } else if i == 1 { } else if i == 2 { } else if i == 3 { } else if i == 4 { } else { }
    }
  }

  lemma InfoAt(v: seq<Json>)
    requires |v| == 6
    ensures var info := TouristInfo(v[0], v[1], v[2], v[3], v[4], v[5]);
      forall i :: 0 <= i < 6 ==> info[i + 1] == Member(TouristFields[i], v[i])
  {
  }

  /** The payload names the issuer and carries the issuance date it was given. */
  lemma PayloadIssuer(c: Suite, data: Json, issuerDid: string, issuanceDate: string)
    requires RecordAccepted(data)
    ensures At(Obj(BuildPayload(c, data, issuerDid, issuanceDate).value), ["issuer"]) ==
      Some(Str(issuerDid))
    ensures At(Obj(BuildPayload(c, data, issuerDid, issuanceDate).value), ["issuanceDate"]) ==
      Some(Str(issuanceDate))
  {
    var ms := data.members;
    var info := TouristInfo(Lookup(ms, "name").value, Lookup(ms, "nationality").value,
      Lookup(ms, "passportNumber").value, Lookup(ms, "emergencyContact").value,
      Lookup(ms, "bloodType").value, Lookup(ms, "insurancePolicyId").value);
    var id := SubjectIdOf(c, Lookup(ms, "passportNumber").value.s);
    BuildPayloadOf(c, data, issuerDid, issuanceDate);
    PayloadAt(issuerDid, issuanceDate, id, info);
  }

  /** A record that lacks a field aborts issuance with the `KeyError` of the first missing
      field in the order the payload reads them. */
  lemma FirstMissingField(c: Suite, data: Json, issuerDid: string, issuanceDate: string, i: nat)
    requires data.Obj? && i < |AccessOrder|
    requires AccessOrder[i] !in KeySet(data.members)
    requires forall j :: 0 <= j < i ==> AccessOrder[j] in KeySet(data.members)
    requires i > 0 ==> PassportIsText(data)
    ensures BuildPayload(c, data, issuerDid, issuanceDate) == Err("'" + AccessOrder[i] + "'")
  {
    var keys := KeySet(data.members);
    if i >= 2 { assert AccessOrder[1] in keys; }
    if i >= 3 { assert AccessOrder[2] in keys; }
    if i >= 4 { assert AccessOrder[3] in keys; }
    if i >= 5 { assert AccessOrder[4] in keys; }
  }
  /** A passport number that is not a string aborts issuance at `.encode()`. */
  lemma PassportNotText(c: Suite, data: Json, issuerDid: string, issuanceDate: string)
    requires data.Obj? && "passportNumber" in KeySet(data.members)
    requires !Lookup(data.members, "passportNumber").value.Str?
    ensures BuildPayload(c, data, issuerDid, issuanceDate) ==
      Err("'" + TypeName(Lookup(data.members, "passportNumber").value) +
          "' object has no attribute 'encode'")
  {
  }

  // ---------------------------------------------------------------------------------
  // The JWS.

  /** The encoded header can stand as the first segment of a compact JWS. */
  lemma EncodedHeaderAlphabet()
    ensures IsAscii(EncodedHeader()) && '.' !in EncodedHeader() && '=' !in EncodedHeader()
  {
    Base64Url.EncodeNoPadAlphabet(Utf8(DumpsDefault(JwsHeader)));
  }

  /** The detached JWS has no padding and splits on `.` into exactly three segments: the
      header, an empty payload and the signature, which `urlsafe_b64decode` reads back once
      `==` is appended; a 64-byte signature takes 86 characters. */
  lemma JwsSegments(encodedHeader: string, signature: seq<Byte>)
    requires '.' !in encodedHeader && '=' !in encodedHeader
    ensures PyStr.Split(DetachedJws(encodedHeader, signature), '.') ==
      [encodedHeader, "", Base64Url.EncodeNoPad(signature)]
    ensures '=' !in DetachedJws(encodedHeader, signature)
    ensures Base64Url.UrlsafeDecode(Base64Url.EncodeNoPad(signature) + "==") == Some(signature)
    ensures |signature| == 64 ==> |Base64Url.EncodeNoPad(signature)| == 86
  {
    var e := Base64Url.EncodeNoPad(signature);
    Base64Url.EncodeNoPadAlphabet(signature);
    Base64Url.EncodeNoPadLength(signature);
    Base64Url.DecodePaddedRoundTrip(signature);
    var jws := DetachedJws(encodedHeader, signature);
    assert jws == encodedHeader + ['.'] + "" + ['.'] + e;
    assert PyStr.Split(jws, '.') == [encodedHeader, "", e] by {
      PyStr.SplitThree(encodedHeader, "", e, '.');
    }
    assert '=' !in jws by {
      assert '=' !in "..";
      assert jws == encodedHeader + ".." + e;
    }
  }

  /** Equal signing inputs under one header mean equal documents in Python's sense, and
      conversely: the signature covers the payload's content and nothing else. */
  lemma SigningInputInjective(encodedHeader: string, a: Json, b: Json)
    requires WellFormed(a) && WellFormed(b)
    ensures SigningInput(encodedHeader, a) == SigningInput(encodedHeader, b) <==> Equiv(a, b)
  {
    JsonParse.CanonicalInjective(a, b);
    if SigningInput(encodedHeader, a) == SigningInput(encodedHeader, b) {
      var n := |Utf8(encodedHeader)| + 1;
      assert Utf8(Canonical(a)) == SigningInput(encodedHeader, a)[n..];
      assert Utf8(Canonical(b)) == SigningInput(encodedHeader, b)[n..];
      JsonParse.CanonicalIsAscii(a);
      JsonParse.CanonicalIsAscii(b);
      Utf8AsciiInjective(Canonical(a), Canonical(b));
    }
  }

  // ---------------------------------------------------------------------------------
  // The signed credential.

  /** The signed credential is the payload with `proof` added last: the keys are the
      payload's and `proof`, every payload value is unchanged, and dropping `proof` gives
      the payload back. */
  lemma SignedKeys(c: Suite, payload: seq<Member>, privateKey: seq<Byte>,
                   verificationMethod: string, signedAt: DateTime)
    requires Valid(signedAt) && DistinctKeys(payload) && "proof" !in KeySet(payload)
    ensures var vc := AttachProof(c, payload, privateKey, verificationMethod, signedAt);
      DistinctKeys(vc) &&
      KeySet(vc) == KeySet(payload) + {"proof"} &&
      vc[..|vc| - 1] == payload && vc[|vc| - 1].key == "proof" &&
      (forall k :: k != "proof" ==> Lookup(vc, k) == Lookup(payload, k)) &&
      Remove(vc, "proof") == payload &&
      Lookup(vc, "proof") == Some(ProofObject(IsoSecondsZ(signedAt), verificationMethod,
        DetachedJws(EncodedHeader(), c.sign(privateKey, SigningInput(EncodedHeader(), Obj(payload))))))
  {
    var signature := c.sign(privateKey, SigningInput(EncodedHeader(), Obj(payload)));
    var proof := ProofObject(IsoSecondsZ(signedAt), verificationMethod, DetachedJws(EncodedHeader(), signature));
    Dict.AddNewKey(payload, "proof", proof);
    Dict.PutLookup(payload, "proof", proof);
  }

  /** The `proof` dict holds exactly five fields, all distinct: the constant `type` and
      `proofPurpose`, and the given `created`, `verificationMethod` and `jws`. */
  lemma ProofFields(created: string, verificationMethod: string, jws: string)
    ensures var p := ProofObject(created, verificationMethod, jws);
      p.Obj? && p.members != [] && WellFormed(p) &&
      |p.members| == 5 &&
      Lookup(p.members, "type") == Some(Str("Ed25519Signature2018")) &&
      Lookup(p.members, "created") == Some(Str(created)) &&
      Lookup(p.members, "verificationMethod") == Some(Str(verificationMethod)) &&
      Lookup(p.members, "proofPurpose") == Some(Str("assertionMethod")) &&
      Lookup(p.members, "jws") == Some(Str(jws))
  {
    ProofShape(created, verificationMethod, jws);
    ProofLookups(created, verificationMethod, jws);
  }

  lemma ProofShape(created: string, verificationMethod: string, jws: string)
    ensures var p := ProofObject(created, verificationMethod, jws);
      p.Obj? && |p.members| == 5 && WellFormed(p)
  {
    var p := ProofObject(created, verificationMethod, jws).members;
    assert DistinctKeys(p);
    assert forall i :: 0 <= i < |p| ==> p[i].value.Str?;
  }

  lemma ProofLookups(created: string, verificationMethod: string, jws: string)
    ensures var p := ProofObject(created, verificationMethod, jws).members;
      Lookup(p, "type") == Some(Str("Ed25519Signature2018")) &&
      Lookup(p, "created") == Some(Str(created)) &&
      Lookup(p, "verificationMethod") == Some(Str(verificationMethod)) &&
      Lookup(p, "proofPurpose") == Some(Str("assertionMethod")) &&
      Lookup(p, "jws") == Some(Str(jws))
  {
    var p := ProofObject(created, verificationMethod, jws).members;
    assert DistinctKeys(p);
    Dict.LookupIndex(p, 0);
    Dict.LookupIndex(p, 1);
    Dict.LookupIndex(p, 2);
    Dict.LookupIndex(p, 3);
    Dict.LookupIndex(p, 4);
  }
}

=== FILE: crypto.dfy ===
/** The primitives the credential code takes from `cryptography` (Ed25519) and `hashlib`
    (SHA-256). Their internals are not part of this model: a `Suite` carries them as function
    values, and what the protocol relies on about them is stated as predicates that the
    theorems take as hypotheses. */
module Crypto {
  import opened Bytes

  datatype Suite = Suite(
    /** `Ed25519PrivateKey.public_key().public_bytes(Raw, Raw)` for a private key (seed). */
    publicKey: seq<Byte> -> seq<Byte>,
    /** `private_key.sign(message)`, arguments (private key, message). */
    sign: (seq<Byte>, seq<Byte>) -> seq<Byte>,
    /** `Ed25519PublicKey.verify(signature, message)` not raising `InvalidSignature`,
        arguments (raw public key, signature, message). */
    verify: (seq<Byte>, seq<Byte>, seq<Byte>) -> bool,
    /** `hashlib.sha256(data).digest()`. */
    sha256: seq<Byte> -> seq<Byte>)

  /** Ed25519 as section 5.1 of RFC 8032 defines it: raw public keys are 32 bytes,
      signatures 64 bytes, and a signature made with a private key verifies under its
      public key. */
  ghost predicate Ed25519Correct(c: Suite)
  {
    (forall sk :: |c.publicKey(sk)| == 32) &&
    (forall sk, m :: |c.sign(sk, m)| == 64) &&
    (forall sk, m :: c.verify(c.publicKey(sk), c.sign(sk, m), m))
  }

  /** A SHA-256 digest is 32 bytes. */
  ghost predicate Sha256Length(c: Suite)
  {
    forall m :: |c.sha256(m)| == 32
  }

  /** Unforgeability as it is used for one signature: `sig` verifies under `pk` for the
      message `m` and for no other. (Stated for all signatures at once, with fixed-length
      signatures, this could not hold; the theorems take it per signature.) */
  ghost predicate BindsOnly(c: Suite, pk: seq<Byte>, sig: seq<Byte>, m: seq<Byte>)
  {
    forall m' :: c.verify(pk, sig, m') ==> m' == m
  }
}

=== FILE: dict.dfy ===
/** The dict semantics of `d[k] = v` (`Put`) and `d.pop(k)` (`Remove`) on insertion-ordered
    items: which keys remain, what each key now maps to, and that distinct keys stay
    distinct. */
module Dict {
  import opened Wrappers
  import opened Json

  lemma KeySetCons(ms: seq<Member>)
    requires ms != []
    ensures KeySet(ms) == {ms[0].key} + KeySet(ms[1..])
  {
    forall x | x in KeySet(ms) ensures x in {ms[0].key} + KeySet(ms[1..]) {
      var i :| 0 <= i < |ms| && ms[i].key == x;
      if i > 0 {
        assert ms[1..][i - 1].key == x;
      }
    }
    forall x | x in KeySet(ms[1..]) ensures x in KeySet(ms) {
      var i :| 0 <= i < |ms[1..]| && ms[1..][i].key == x;
      assert ms[i + 1].key == x;
    }
  }

  lemma DistinctKeysCons(m: Member, ms: seq<Member>)
    ensures DistinctKeys([m] + ms) <==> DistinctKeys(ms) && m.key !in KeySet(ms)
  {
    var s := [m] + ms;
    assert s[1..] == ms;
    KeySetCons(s);
    if DistinctKeys(s) {
      forall i, k | 0 <= i < k < |ms| ensures ms[i].key != ms[k].key {
        assert s[i + 1] == ms[i] && s[k + 1] == ms[k];
      }
      forall i | 0 <= i < |ms| ensures ms[i].key != m.key {
        assert s[i + 1] == ms[i];
      }
    }
  }

  /** Storing under a key the dict does not hold appends the item at the end. */
  lemma {:induction false} PutNewKeyAppends(ms: seq<Member>, k: string, v: Json)
    requires k !in KeySet(ms)
    ensures Put(ms, k, v) == ms + [Member(k, v)]
  {
    if ms != [] {
      KeySetCons(ms);
      PutNewKeyAppends(ms[1..], k, v);
      assert [ms[0]] + (ms[1..] + [Member(k, v)]) == ms + [Member(k, v)];
    }
  }

  /** `d[k] = v`: the keys become those of `d` plus `k`, and distinct keys stay distinct. */
  lemma PutKeys(ms: seq<Member>, k: string, v: Json)
    ensures KeySet(Put(ms, k, v)) == KeySet(ms) + {k}
    ensures DistinctKeys(ms) ==> DistinctKeys(Put(ms, k, v))
  {
    PutKeySet(ms, k, v);
    if DistinctKeys(ms) {
      PutDistinct(ms, k, v);
    }
  }

  lemma {:induction false} PutKeySet(ms: seq<Member>, k: string, v: Json)
    ensures KeySet(Put(ms, k, v)) == KeySet(ms) + {k}
  {
    var r := Put(ms, k, v);
    KeySetCons(r);
    if ms != [] {
      KeySetCons(ms);
      if ms[0].key == k {
        assert r[1..] == ms[1..];
      } else {
        PutKeySet(ms[1..], k, v);
        assert r[1..] == Put(ms[1..], k, v);
      }
    }
  }

  lemma {:induction false} PutDistinct(ms: seq<Member>, k: string, v: Json)
    requires DistinctKeys(ms)
    ensures DistinctKeys(Put(ms, k, v))
  {
    var r := Put(ms, k, v);
    if ms != [] {
      assert [ms[0]] + ms[1..] == ms;
      DistinctKeysCons(ms[0], ms[1..]);
      if ms[0].key == k {
        assert r == [Member(k, v)] + ms[1..];
        DistinctKeysCons(Member(k, v), ms[1..]);
      } else {
        PutDistinct(ms[1..], k, v);
        PutKeySet(ms[1..], k, v);
        assert r == [ms[0]] + Put(ms[1..], k, v);
        DistinctKeysCons(ms[0], Put(ms[1..], k, v));
      }
    }
  }

  /** `d[k] = v`: `k` now maps to `v`, and every other key to what it mapped to before. */
  lemma {:induction false} PutLookup(ms: seq<Member>, k: string, v: Json)
    ensures Lookup(Put(ms, k, v), k) == Some(v)
    ensures forall k' :: k' != k ==> Lookup(Put(ms, k, v), k') == Lookup(ms, k')
  {
    var r := Put(ms, k, v);
    if ms != [] {
      if ms[0].key == k {
        assert r[1..] == ms[1..];
      } else {
        PutLookup(ms[1..], k, v);
        assert r[1..] == Put(ms[1..], k, v);
      }
    }
  }

  /** `d.pop(k)`: the keys become those of `d` without `k`, still distinct; `k` is gone and
      every other key maps to what it mapped to before. */
  lemma RemoveSemantics(ms: seq<Member>, k: string)
    ensures KeySet(Remove(ms, k)) == KeySet(ms) - {k}
    ensures DistinctKeys(ms) ==> DistinctKeys(Remove(ms, k))
    ensures Lookup(Remove(ms, k), k) == None
    ensures forall k' :: k' != k ==> Lookup(Remove(ms, k), k') == Lookup(ms, k')
  {
    RemoveKeySet(ms, k);
    RemoveLookup(ms, k);
    if DistinctKeys(ms) {
      RemoveDistinct(ms, k);
    }
  }

  lemma {:induction false} RemoveKeySet(ms: seq<Member>, k: string)
    ensures KeySet(Remove(ms, k)) == KeySet(ms) - {k}
  {
    if ms != [] {
      RemoveKeySet(ms[1..], k);
      KeySetCons(ms);
      if ms[0].key != k {
        var r := Remove(ms, k);
        KeySetCons(r);
        assert r[1..] == Remove(ms[1..], k);
      }
    }
  }

  lemma {:induction false} RemoveLookup(ms: seq<Member>, k: string)
    ensures Lookup(Remove(ms, k), k) == None
    ensures forall k' :: k' != k ==> Lookup(Remove(ms, k), k') == Lookup(ms, k')
  {
    if ms != [] {
      RemoveLookup(ms[1..], k);
      if ms[0].key != k {
        var r := Remove(ms, k);
        assert r[0] == ms[0] && r[1..] == Remove(ms[1..], k);
      }
    }
  }

  lemma {:induction false} RemoveDistinct(ms: seq<Member>, k: string)
    requires DistinctKeys(ms)
    ensures DistinctKeys(Remove(ms, k))
  {
    if ms != [] {
      assert [ms[0]] + ms[1..] == ms;
      DistinctKeysCons(ms[0], ms[1..]);
      RemoveDistinct(ms[1..], k);
      if ms[0].key != k {
        RemoveKeySet(ms[1..], k);
        assert Remove(ms, k) == [ms[0]] + Remove(ms[1..], k);
        DistinctKeysCons(ms[0], Remove(ms[1..], k));
      }
    }
  }

  /** Removing a key the dict does not hold changes nothing. */
  lemma {:induction false} RemoveAbsent(ms: seq<Member>, k: string)
    requires k !in KeySet(ms)
    ensures Remove(ms, k) == ms
  {
    if ms != [] {
      KeySetCons(ms);
      RemoveAbsent(ms[1..], k);
      assert [ms[0]] + ms[1..] == ms;
    }
  }

  /** Adding a new key and popping it again restores the dict, order included. */
  lemma RemoveAfterPutNew(ms: seq<Member>, k: string, v: Json)
    requires k !in KeySet(ms)
    ensures Remove(Put(ms, k, v), k) == ms
  {
    PutNewKeyAppends(ms, k, v);
    RemoveAppended(ms, Member(k, v));
  }

  lemma {:induction false} RemoveAppended(ms: seq<Member>, m: Member)
    requires m.key !in KeySet(ms)
    ensures Remove(ms + [m], m.key) == ms
  {
    if ms == [] {
      assert ([] + [m])[1..] == [];
    } else {
      KeySetCons(ms);
      assert (ms + [m])[1..] == ms[1..] + [m];
      RemoveAppended(ms[1..], m);
      assert [ms[0]] + ms[1..] == ms;
    }
  }

  /** In a dict, the key of the item at position `i` maps to that item's value. */
  lemma {:induction false} LookupIndex(ms: seq<Member>, i: nat)
    requires DistinctKeys(ms) && i < |ms|
    ensures Lookup(ms, ms[i].key) == Some(ms[i].value)
  {
    if i > 0 {
      DistinctKeysCons(ms[0], ms[1..]);
      assert [ms[0]] + ms[1..] == ms;
      assert ms[1..][i - 1] == ms[i];
      LookupIndex(ms[1..], i - 1);
    }
  }

  /** Adding a key a dict lacks: it goes last, the other keys keep their values, and
      removing it again gives the dict back. */
  lemma AddNewKey(ms: seq<Member>, k: string, v: Json)
    requires DistinctKeys(ms) && k !in KeySet(ms)
    ensures var r := Put(ms, k, v);
      DistinctKeys(r) && KeySet(r) == KeySet(ms) + {k} &&
      r[..|r| - 1] == ms && r[|r| - 1] == Member(k, v) &&
      (forall k' :: k' != k ==> Lookup(r, k') == Lookup(ms, k')) &&
      Remove(r, k) == ms
  {
    PutNewKeyAppends(ms, k, v);
    PutKeys(ms, k, v);
    PutLookup(ms, k, v);
    RemoveAppended(ms, Member(k, v));
    assert (ms + [Member(k, v)])[..|ms|] == ms;
  }
  /** `d.pop(k)` keeps only items the dict held, so a well-formed dict stays well formed. */
  lemma RemoveWellFormed(ms: seq<Member>, k: string)
    requires WellFormed(Obj(ms))
    ensures WellFormed(Obj(Remove(ms, k)))
  {
    RemoveDistinct(ms, k);
    RemoveItems(ms, k);
    var r := Remove(ms, k);
    forall i | 0 <= i < |r| ensures WellFormed(r[i].value) {
      var j :| 0 <= j < |ms| && ms[j] == r[i];
    }
  }

  lemma {:induction false} RemoveItems(ms: seq<Member>, k: string)
    ensures forall i :: 0 <= i < |Remove(ms, k)| ==> Remove(ms, k)[i] in ms
  {
    if ms != [] {
      RemoveItems(ms[1..], k);
      var r := Remove(ms, k);
      if ms[0].key != k {
        assert r == [ms[0]] + Remove(ms[1..], k);
        forall i | 0 <= i < |r| ensures r[i] in ms {
          if i > 0 {
            assert r[i] == Remove(ms[1..], k)[i - 1];
            assert r[i] in ms[1..];
          }
        }
      } else {
        forall i | 0 <= i < |r| ensures r[i] in ms {
          assert r[i] in ms[1..];
        }
      }
    }
  }
  /** `d[k] = v` for a new key and a well-formed value keeps a well-formed dict well formed. */
  lemma AddWellFormed(ms: seq<Member>, k: string, v: Json)
    requires WellFormed(Obj(ms)) && k !in KeySet(ms) && WellFormed(v)
    ensures WellFormed(Obj(Put(ms, k, v)))
  {
    AddNewKey(ms, k, v);
    var r := Put(ms, k, v);
    forall i | 0 <= i < |r| ensures WellFormed(r[i].value) {
      if i < |r| - 1 {
        assert r[i] == r[..|r| - 1][i];
      }
    }
  }
}

=== FILE: did_key.dfy ===
/** The issuer identity: a `did:key` identifier built from an Ed25519 public key
    (`generate_issuer_id`), and the public key recovered from a verification method as the
    verifier does it. As the code does, and unlike the W3C did:key method, the identifier
    carries no multibase `z` before the base58 text. */
module DidKey {
  import opened Wrappers
  import opened Bytes
  import opened Crypto
  import Base58
  import PyStr

  /** The multicodec prefix for an Ed25519 public key. */
  const MulticodecEd25519: seq<Byte> := [0xED, 0x01]

  const DidKeyPrefix: string := "did:key:"

  /** What `generate_issuer_id` returns: the private key, the DID and the verification
      method. */
  datatype Issuer = Issuer(privateKey: seq<Byte>, did: string, verificationMethod: string)

  /** `generate_issuer_id()` for the freshly generated private key `privateKey`: the DID is
      `did:key:` followed by a tail that base58-decodes to the prefixed public key, and the
      verification method is the DID, `#`, and the same tail. */
  function GenerateIssuerId(c: Suite, privateKey: seq<Byte>): (r: Issuer)
    ensures r.privateKey == privateKey
    ensures |r.did| >= |DidKeyPrefix| && r.did[..|DidKeyPrefix|] == DidKeyPrefix
    ensures r.verificationMethod == r.did + "#" + r.did[|DidKeyPrefix|..]
    ensures Base58.Decode(r.did[|DidKeyPrefix|..]) ==
      Some(MulticodecEd25519 + c.publicKey(privateKey))
    ensures '#' !in r.did && IsAscii(r.verificationMethod)
  {
    var did := DidKeyPrefix + Base58.Encode(MulticodecEd25519 + c.publicKey(privateKey));
    DidOf(MulticodecEd25519 + c.publicKey(privateKey));
    Issuer(privateKey, did, did + "#" + Base58.Encode(MulticodecEd25519 + c.publicKey(privateKey)))
  }

  /** What the DID and the verification method built from the prefixed key `key` are. */
  lemma DidOf(key: seq<Byte>)
    ensures var tail := Base58.Encode(key);
      var did := DidKeyPrefix + tail;
      did[..|DidKeyPrefix|] == DidKeyPrefix && did[|DidKeyPrefix|..] == tail &&
      Base58.Decode(tail) == Some(key) && '#' !in did && IsAscii(did + "#" + tail)
  {
    var tail := Base58.Encode(key);
    var did := DidKeyPrefix + tail;
    assert Base58.Decode(tail) == Some(key) by {
      Base58.EncodeDecode(key);
    }
    assert IsAscii(tail) && '#' !in tail by {
      Base58.EncodeAlphabet(key);
    }
    assert IsAscii(DidKeyPrefix) && '#' !in DidKeyPrefix;
    assert IsAscii(did) && '#' !in did by {
      AsciiConcat(DidKeyPrefix, tail);
    }
    assert IsAscii(did + "#" + tail) by {
      AsciiConcat(did, "#");
      AsciiConcat(did + "#", tail);
    }
  }

  /** Lines 27-32 of the verifier: the text after the last `#`, base58-decoded, without its
      first two bytes (whatever they are); the key is usable only when 32 bytes remain.
      `None` stands for every exception these steps raise. */
  function KeyFromVerificationMethod(vm: string): (r: Option<seq<Byte>>)
    ensures r.Some? <==>
      Base58.Decode(PyStr.AfterLast(vm, '#')).Some? &&
      |Base58.Decode(PyStr.AfterLast(vm, '#')).value| == 34
    ensures r.Some? ==> r.value == Base58.Decode(PyStr.AfterLast(vm, '#')).value[2..]
  {
    match Base58.Decode(PyStr.AfterLast(vm, '#'))
    case None => None
    case Some(d) =>
      // Python slicing: `d[2:]` of fewer than two bytes is empty
      var pk := if |d| >= 2 then d[2..] else [];
      if |pk| == 32 then Some(pk) else None
  }

  // ---------------------------------------------------------------------------------

  /** Whatever the text before the last `#` and whatever the two prefix bytes, a tail that
      encodes two bytes followed by a 32-byte key yields that key. */
  lemma KeyIgnoresPrefix(head: string, p0: Byte, p1: Byte, key: seq<Byte>)
    requires |key| == 32
    ensures KeyFromVerificationMethod(head + "#" + Base58.Encode([p0, p1] + key)) == Some(key)
  {
    var tail := Base58.Encode([p0, p1] + key);
    Base58.EncodeAlphabet([p0, p1] + key);
    PyStr.AfterLastOf(head, '#', tail);
    Base58.EncodeDecode([p0, p1] + key);
    assert ([p0, p1] + key)[2..] == key;
  }

  /** The verifier recovers, from a verification method `generate_issuer_id` produced, the
      issuer's public key. */
  lemma KeyOfGeneratedIssuer(c: Suite, privateKey: seq<Byte>)
    requires |c.publicKey(privateKey)| == 32
    ensures KeyFromVerificationMethod(GenerateIssuerId(c, privateKey).verificationMethod) ==
      Some(c.publicKey(privateKey))
  {
    var r := GenerateIssuerId(c, privateKey);
    var pk := c.publicKey(privateKey);
    var tail := Base58.Encode(MulticodecEd25519 + pk);
    assert r.did[|DidKeyPrefix|..] == tail;
    KeyIgnoresPrefix(r.did, 0xED, 0x01, pk);
  }
}

=== FILE: json.dfy ===
/** JSON documents as Python's `json` module produces and reads them for the credential:
    null, booleans, strings, lists and insertion-ordered objects, and `json.dumps` with `ensure_ascii` escaping, a choice of separators and
    optional key sorting. Numbers are left out: a record or credential holding one is outside
    this model, and every property stated here is about number-free documents. */
module Json {
  import opened Wrappers
  import opened Bytes

  datatype Json =
    | Null
    | Bool(b: bool)
    | Str(s: string)
    | Arr(items: seq<Json>)
    | Obj(members: seq<Member>)   // a Python dict: its items in insertion order

  datatype Member = Member(key: string, value: Json)

  /** The `separators=(item, key)` argument of `json.dumps`. */
  datatype Separators = Separators(item: string, key: string)

  /** `separators=(',', ':')`, used for every canonical serialisation. */
  const Compact := Separators(",", ":")

  /** The default separators of `json.dumps` without `indent`: `', '` and `': '`. */
  const Spaced := Separators(", ", ": ")

  // ---------------------------------------------------------------------------------
  // Objects as Python dicts: lookup, `d[k] = v`, `d.pop(k)`.

  predicate DistinctKeys(ms: seq<Member>)
  {
    forall i, k :: 0 <= i < k < |ms| ==> ms[i].key != ms[k].key
  }

  function KeySet(ms: seq<Member>): set<string>
  {
    set i | 0 <= i < |ms| :: ms[i].key
  }

  /** A well-formed document: every object has distinct keys, as every Python dict does. */
  predicate WellFormed(j: Json)
    decreases j
  {
    match j
    case Arr(items) => forall i :: 0 <= i < |items| ==> WellFormed(items[i])
    case Obj(ms) => DistinctKeys(ms) && forall i :: 0 <= i < |ms| ==> WellFormed(ms[i].value)
    case _ => true
  }

  /** `d.get(k)`: the value stored under `k`, if any. */
  function Lookup(ms: seq<Member>, k: string): (r: Option<Json>)
    ensures r.Some? <==> k in KeySet(ms)
    ensures r.Some? ==> exists i :: 0 <= i < |ms| && ms[i] == Member(k, r.value)
  {
    if ms == [] then None
    else if ms[0].key == k then Some(ms[0].value)
    else
      var r := Lookup(ms[1..], k);
      assert KeySet(ms) == {ms[0].key} + KeySet(ms[1..]);
      assert r.Some? ==> exists i :: 0 <= i < |ms| && ms[i] == Member(k, r.value) by {
        if r.Some? {
          var i :| 0 <= i < |ms[1..]| && ms[1..][i] == Member(k, r.value);
          assert ms[i + 1] == Member(k, r.value);
        }
      }
      r
  }

  /** `d[k] = v`: an existing key keeps its position and takes the new value; a new key is
      appended at the end. */
  function Put(ms: seq<Member>, k: string, v: Json): seq<Member>
  {
    if ms == [] then [Member(k, v)]
    else if ms[0].key == k then [Member(k, v)] + ms[1..]
    else [ms[0]] + Put(ms[1..], k, v)
  }

  /** `d.pop(k)` without the returned value, or `del d[k]`: every other item keeps its order. */
  function Remove(ms: seq<Member>, k: string): seq<Member>
  {
    if ms == [] then []
    else if ms[0].key == k then Remove(ms[1..], k)
    else [ms[0]] + Remove(ms[1..], k)
  }

  // ---------------------------------------------------------------------------------
  // Serialisation.

  /** `'{0:04x}'.format(n)`. */
  function Hex4(n: nat): (r: string)
    requires n < 0x1_0000
    ensures |r| == 4
  {
    [HexDigits[n / 0x1000], HexDigits[(n / 0x100) % 16],
     HexDigits[(n / 0x10) % 16], HexDigits[n % 16]]
  }

  /** The escape `json.dumps` (with its default `ensure_ascii=True`) writes for one character:
      the seven short escapes, printable ASCII as itself, any other character below U+10000
      as `\uXXXX`, and characters beyond as a UTF-16 surrogate pair of two such escapes. */
  function EscapeChar(c: char): string
  {
    var n := c as int;
    if c == '"' then ['\\', '"']
    else if c == '\\' then ['\\', '\\']
    else if n == 0x08 then ['\\', 'b']
    else if n == 0x0C then ['\\', 'f']
    else if n == 0x0A then ['\\', 'n']
    else if n == 0x0D then ['\\', 'r']
    else if n == 0x09 then ['\\', 't']
    else if 0x20 <= n <= 0x7E then [c]
    else if n < 0x1_0000 then ['\\', 'u'] + Hex4(n)
    else
      // (n >> 10) & 0x3ff and n & 0x3ff, for n - 0x10000 < 0x100000
      var m := n - 0x1_0000;
      ['\\', 'u'] + Hex4(0xD800 + m / 0x400) + ['\\', 'u'] + Hex4(0xDC00 + m % 0x400)
  }

  function EscapeAll(s: string): string
  {
    if s == [] then "" else EscapeChar(s[0]) + EscapeAll(s[1..])
  }

  /** A string literal: the escaped characters between double quotes. */
  function Quote(s: string): string
  {
    "\"" + EscapeAll(s) + "\""
  }

  /** The text `json.dumps` writes for `j` with the given separators, items in order. */
  function Ser(j: Json, seps: Separators): string
    decreases j
  {
    match j
    case Null => "null"
    case Bool(b) => if b then "true" else "false"
    case Str(s) => Quote(s)
    case Arr(items) => "[" + SerItems(items, seps) + "]"
    case Obj(ms) => "{" + SerMembers(ms, seps) + "}"
  }

  function SerItems(items: seq<Json>, seps: Separators): string
    decreases items
  {
    if items == [] then ""
    else if |items| == 1 then Ser(items[0], seps)
    else Ser(items[0], seps) + seps.item + SerItems(items[1..], seps)
  }

  function SerMember(m: Member, seps: Separators): string
    decreases m
  {
    Quote(m.key) + seps.key + Ser(m.value, seps)
  }

  function SerMembers(ms: seq<Member>, seps: Separators): string
    decreases ms
  {
    if ms == [] then ""
    else if |ms| == 1 then SerMember(ms[0], seps)
    else SerMember(ms[0], seps) + seps.item + SerMembers(ms[1..], seps)
  }

  // ---------------------------------------------------------------------------------
  // Key order and sorting (`sort_keys=True` sorts each dict's items before writing them).

  /** Python's `<` on `str`: lexicographic by code point, a proper prefix first. */
  predicate KeyLess(a: string, b: string)
  {
    if a == [] then b != []
    else if b == [] then false
    else if a[0] != b[0] then a[0] < b[0]
    else KeyLess(a[1..], b[1..])
  }

  /** One step of sorting: place `m` before the first item whose key it precedes. */
  function InsertMember(m: Member, sorted: seq<Member>): seq<Member>
  {
    if sorted == [] then [m]
    else if KeyLess(m.key, sorted[0].key) then [m] + sorted
    else [sorted[0]] + InsertMember(m, sorted[1..])
  }

  /** `sorted(d.items())` for a dict (whose keys are distinct, so values are never compared). */
  function SortMembers(ms: seq<Member>): seq<Member>
  {
    if ms == [] then [] else InsertMember(ms[0], SortMembers(ms[1..]))
  }

  /** The document as `sort_keys=True` visits it: every object's items sorted by key, at
      every depth. */
  function Normalize(j: Json): Json
    decreases j
  {
    match j
    case Arr(items) => Arr(seq(|items|, i requires 0 <= i < |items| => Normalize(items[i])))
    case Obj(ms) => Obj(SortMembers(NormalizeValues(ms)))
    case _ => j
  }

  /** The items of a dict with each value normalised, before sorting. */
  function NormalizeValues(ms: seq<Member>): (r: seq<Member>)
    decreases ms
  {
    seq(|ms|, i requires 0 <= i < |ms| => Member(ms[i].key, Normalize(ms[i].value)))
  }

  /** `json.dumps(j, separators=seps, sort_keys=sortKeys)` with the default `ensure_ascii`. */
  function Dumps(j: Json, sortKeys: bool, seps: Separators): string
  {
    Ser(if sortKeys then Normalize(j) else j, seps)
  }

  /** `json.dumps(j, separators=(',', ':'), sort_keys=True)`: the serialisation that is signed,
      re-computed by the verifier, and hashed for the anchor. */
  function Canonical(j: Json): string
  {
    Dumps(j, true, Compact)
  }

  /** `json.dumps(j)` with every argument at its default. */
  function DumpsDefault(j: Json): string
  {
    Dumps(j, false, Spaced)
  }

  // ---------------------------------------------------------------------------------
  // Python truthiness and `==`, as the verifier and the anchor comparison rely on them.

  /** `not j` in Python: None, False, "", [] and {} are false. */
  predicate Falsy(j: Json)
  {
    match j
    case Null => true
    case Bool(b) => !b
    case Str(s) => s == []
    case Arr(items) => items == []
    case Obj(ms) => ms == []
  }

  /** Python's `==` on decoded JSON: dicts are equal when they hold the same keys with equal
      values, whatever the insertion order; lists compare item by item. This is "the same
      logical document". */
  predicate Equiv(a: Json, b: Json)
    decreases a
  {
    match a
    case Null => b.Null?
    case Bool(x) => b.Bool? && b.b == x
    case Str(x) => b.Str? && b.s == x
    case Arr(xs) =>
      b.Arr? && |xs| == |b.items| &&
      forall i :: 0 <= i < |xs| ==> Equiv(xs[i], b.items[i])
    case Obj(ms) =>
      b.Obj? && KeySet(ms) == KeySet(b.members) &&
      forall i, k :: 0 <= i < |ms| && 0 <= k < |b.members| && ms[i].key == b.members[k].key ==>
        Equiv(ms[i].value, b.members[k].value)
  }
}

=== FILE: json_order.dfy ===
/** Why `sort_keys=True` makes serialisation independent of insertion order: Python's string
    order is a strict total order, sorting a dict's items yields the unique key-sorted
    arrangement of them, and so two documents Python considers equal normalise to the same
    tree. */
module JsonOrder {
  import opened Json

  // ---------------------------------------------------------------------------------
  // Python's `<` on `str` is a strict total order.

  lemma {:induction false} KeyLessIrreflexive(a: string)
    ensures !KeyLess(a, a)
  {
    if a != [] {
      KeyLessIrreflexive(a[1..]);
    }
  }

  lemma {:induction false} KeyLessTransitive(a: string, b: string, c: string)
    requires KeyLess(a, b) && KeyLess(b, c)
    ensures KeyLess(a, c)
  {
    if a != [] && b != [] && c != [] && a[0] == b[0] && b[0] == c[0] {
      KeyLessTransitive(a[1..], b[1..], c[1..]);
    }
  }

  lemma {:induction false} KeyLessTotal(a: string, b: string)
    requires a != b
    ensures KeyLess(a, b) || KeyLess(b, a)
  {
    if a != [] && b != [] && a[0] == b[0] {
      assert a == [a[0]] + a[1..] && b == [b[0]] + b[1..];
      KeyLessTotal(a[1..], b[1..]);
    }
  }

  lemma KeyLessAsymmetric(a: string, b: string)
    requires KeyLess(a, b)
    ensures !KeyLess(b, a)
  {
    if KeyLess(b, a) {
      KeyLessTransitive(a, b, a);
      KeyLessIrreflexive(a);
    }
  }

  // ---------------------------------------------------------------------------------
  // Sorting.

  /** Keys strictly increase along the sequence. */
  predicate StrictlySorted(ms: seq<Member>)
  {
    forall i, k :: 0 <= i < k < |ms| ==> KeyLess(ms[i].key, ms[k].key)
  }

  lemma SortedHasDistinctKeys(ms: seq<Member>)
    requires StrictlySorted(ms)
    ensures DistinctKeys(ms)
  {
    forall i, k | 0 <= i < k < |ms| ensures ms[i].key != ms[k].key {
      KeyLessIrreflexive(ms[i].key);
    }
  }

  /** Inserting adds exactly the one item. */
  lemma {:induction false} InsertMemberPermutes(m: Member, s: seq<Member>)
    ensures multiset(InsertMember(m, s)) == multiset(s) + multiset{m}
  {
    if s != [] && !KeyLess(m.key, s[0].key) {
      InsertMemberPermutes(m, s[1..]);
      assert s == [s[0]] + s[1..];
    }
  }

  /** Inserting an item with a fresh key into a key-sorted sequence keeps it sorted. */
  lemma {:induction false} InsertMemberSorted(m: Member, s: seq<Member>)
    requires StrictlySorted(s)
    requires forall x :: x in s ==> x.key != m.key
    ensures StrictlySorted(InsertMember(m, s))
  {
    if s == [] {
    } else if KeyLess(m.key, s[0].key) {
      forall y | y in s ensures KeyLess(m.key, y.key) {
        var k :| 0 <= k < |s| && s[k] == y;
        if k > 0 {
          KeyLessTransitive(m.key, s[0].key, y.key);
        }
      }
      PrependSorted(m, s);
    } else {
      var tail := s[1..];
      assert StrictlySorted(tail);
      InsertMemberSorted(m, tail);
      var t := InsertMember(m, tail);
      assert s[0] in s;
      KeyLessTotal(m.key, s[0].key);
      forall x | x in t ensures KeyLess(s[0].key, x.key) {
        InsertMemberPermutes(m, tail);
        assert x in multiset(t);
        if x != m {
          assert x in multiset(tail);
          var k :| 0 <= k < |tail| && tail[k] == x;
          assert s[k + 1] == x;
        }
      }
      PrependSorted(s[0], t);
    }
  }

  /** An item whose key precedes every key of a sorted sequence can go in front of it. */
  lemma PrependSorted(x: Member, t: seq<Member>)
    requires StrictlySorted(t)
    requires forall y :: y in t ==> KeyLess(x.key, y.key)
    ensures StrictlySorted([x] + t)
  {
    var r := [x] + t;
    forall i, k | 0 <= i < k < |r| ensures KeyLess(r[i].key, r[k].key) {
      if i == 0 {
        assert r[k] == t[k - 1] && r[k] in t;
      } else {
        assert r[i] == t[i - 1] && r[k] == t[k - 1];
      }
    }
  }

  /** `sorted(d.items())` is a permutation of the items, sorted strictly by key. */
  lemma {:induction false} SortMembersCorrect(ms: seq<Member>)
    requires DistinctKeys(ms)
    ensures StrictlySorted(SortMembers(ms))
    ensures multiset(SortMembers(ms)) == multiset(ms)
  {
    if ms != [] {
      var tail := ms[1..];
      TailDistinct(ms);
      SortMembersCorrect(tail);
      var st := SortMembers(tail);
      FreshFirstKey(ms, st);
      InsertMemberSorted(ms[0], st);
      InsertMemberPermutes(ms[0], st);
      assert multiset(ms) == multiset(tail) + multiset{ms[0]} by {
        assert ms == [ms[0]] + tail;
      }
    }
  }

  lemma TailDistinct(ms: seq<Member>)
    requires ms != [] && DistinctKeys(ms)
    ensures DistinctKeys(ms[1..])
  {
    var tail := ms[1..];
    forall i, k | 0 <= i < k < |tail| ensures tail[i].key != tail[k].key {
      assert tail[i] == ms[i + 1] && tail[k] == ms[k + 1];
    }
  }

  /** The first key of a dict is none of the keys of any rearrangement of the others. */
  lemma FreshFirstKey(ms: seq<Member>, st: seq<Member>)
    requires ms != [] && DistinctKeys(ms) && multiset(st) == multiset(ms[1..])
    ensures forall x :: x in st ==> x.key != ms[0].key
  {
    var tail := ms[1..];
    forall x | x in st ensures x.key != ms[0].key {
      assert x in multiset(tail);
      var j :| 0 <= j < |tail| && tail[j] == x;
      assert ms[j + 1] == x;
    }
  }

  lemma SameMultisetSameKeys(a: seq<Member>, b: seq<Member>)
    requires multiset(a) == multiset(b)
    ensures KeySet(a) == KeySet(b)
  {
    forall key | key in KeySet(a) ensures key in KeySet(b) {
      var i :| 0 <= i < |a| && a[i].key == key;
      assert a[i] in multiset(b);
      var k :| 0 <= k < |b| && b[k] == a[i];
    }
    forall key | key in KeySet(b) ensures key in KeySet(a) {
      var i :| 0 <= i < |b| && b[i].key == key;
      assert b[i] in multiset(a);
      var k :| 0 <= k < |a| && a[k] == b[i];
    }
  }

  /** A key-sorted sequence repeats no item, so it has as many distinct items as entries. */
  lemma {:induction false} SortedCardinality(s: seq<Member>)
    requires StrictlySorted(s)
    ensures |set m | m in s| == |s|
  {
    if s != [] {
      var tail := s[1..];
      SortedCardinality(tail);
      forall i | 0 <= i < |tail| ensures tail[i] != s[0] {
        assert KeyLess(s[0].key, s[i + 1].key);
        KeyLessIrreflexive(s[0].key);
      }
      assert s[0] !in tail;
      assert (set m | m in s) == {s[0]} + (set m | m in tail) by {
        assert s == [s[0]] + tail;
      }
    }
  }

  lemma SortedSameHead(a: seq<Member>, b: seq<Member>)
    requires StrictlySorted(a) && StrictlySorted(b) && a != [] && b != []
    requires forall m :: m in a <==> m in b
    ensures a[0] == b[0]
  {
    assert a[0] in a && b[0] in b;
    var k :| 0 <= k < |b| && b[k] == a[0];
    var i :| 0 <= i < |a| && a[i] == b[0];
    if k > 0 {
      assert KeyLess(b[0].key, b[k].key);
      if i > 0 {
        KeyLessAsymmetric(a[0].key, a[i].key);
      } else {
        KeyLessIrreflexive(b[0].key);
      }
    }
  }

  lemma SortedTailMember(a: seq<Member>, b: seq<Member>, m: Member)
    requires StrictlySorted(a) && a != [] && b != [] && a[0] == b[0]
    requires m in a[1..] && m in b
    ensures m in b[1..]
  {
    var j :| 0 <= j < |a[1..]| && a[1..][j] == m;
    assert KeyLess(a[0].key, a[j + 1].key);
    KeyLessIrreflexive(a[0].key);
    assert b == [b[0]] + b[1..];
  }

  /** Two key-sorted sequences holding the same items are the same sequence: the sorted
      arrangement of a dict's items is unique. */
  lemma {:induction false} SortedUnique(a: seq<Member>, b: seq<Member>)
    requires StrictlySorted(a) && StrictlySorted(b)
    requires forall m :: m in a <==> m in b
    ensures a == b
  {
    SortedCardinality(a);
    SortedCardinality(b);
    assert (set m | m in a) == (set m | m in b);
    if a != [] {
      SortedSameHead(a, b);
      forall m ensures m in a[1..] <==> m in b[1..] {
        if m in a[1..] {
          SortedTailMember(a, b, m);
        }
        if m in b[1..] {
          SortedTailMember(b, a, m);
        }
      }
      SortedUnique(a[1..], b[1..]);
      assert a == [a[0]] + a[1..] && b == [b[0]] + b[1..];
    }
  }

  // ---------------------------------------------------------------------------------
  // Normalisation.

  /** Every object's items are sorted, at every depth: the shape `sort_keys=True` writes. */
  predicate NormalForm(j: Json)
    decreases j
  {
    match j
    case Arr(items) => forall i :: 0 <= i < |items| ==> NormalForm(items[i])
    case Obj(ms) => StrictlySorted(ms) && forall i :: 0 <= i < |ms| ==> NormalForm(ms[i].value)
    case _ => true
  }

  lemma NormalFormIsWellFormed(j: Json)
    requires NormalForm(j)
    ensures WellFormed(j)
    decreases j
  {
    match j
    case Arr(items) =>
      forall i | 0 <= i < |items| ensures WellFormed(items[i]) {
        NormalFormIsWellFormed(items[i]);
      }
    case Obj(ms) =>
      SortedHasDistinctKeys(ms);
      forall i | 0 <= i < |ms| ensures WellFormed(ms[i].value) {
        NormalFormIsWellFormed(ms[i].value);
      }
    case _ =>
  }

  /** The items of a normalised dict are exactly the original keys with normalised values. */
  lemma NormalizedMembers(ms: seq<Member>)
    requires DistinctKeys(ms)
    ensures StrictlySorted(SortMembers(NormalizeValues(ms)))
    ensures forall m :: m in SortMembers(NormalizeValues(ms)) <==>
      exists i :: 0 <= i < |ms| && m == Member(ms[i].key, Normalize(ms[i].value))
  {
    var nv := NormalizeValues(ms);
    assert DistinctKeys(nv);
    SortMembersCorrect(nv);
    var s := SortMembers(nv);
    forall m ensures m in s <==> exists i :: 0 <= i < |ms| && m == Member(ms[i].key, Normalize(ms[i].value)) {
      if m in s {
        assert m in multiset(nv);
        var i :| 0 <= i < |nv| && nv[i] == m;
      }
      if exists i :: 0 <= i < |ms| && m == Member(ms[i].key, Normalize(ms[i].value)) {
        var i :| 0 <= i < |ms| && m == Member(ms[i].key, Normalize(ms[i].value));
        assert nv[i] == m;
        assert m in multiset(s);
      }
    }
  }

  /** Normalising a well-formed document sorts every object. */
  lemma {:induction false} NormalizeNormalForm(j: Json)
    requires WellFormed(j)
    ensures NormalForm(Normalize(j))
    decreases j
  {
    match j
    case Arr(items) =>
      forall i | 0 <= i < |items| ensures NormalForm(Normalize(items[i])) {
        NormalizeNormalForm(items[i]);
      }
    case Obj(ms) =>
      NormalizedMembers(ms);
      var s := SortMembers(NormalizeValues(ms));
      forall k | 0 <= k < |s| ensures NormalForm(s[k].value) {
        assert s[k] in s;
        var i :| 0 <= i < |ms| && s[k] == Member(ms[i].key, Normalize(ms[i].value));
        NormalizeNormalForm(ms[i].value);
      }
    case _ =>
  }

  lemma NormalizeWellFormed(j: Json)
    requires WellFormed(j)
    ensures WellFormed(Normalize(j))
  {
    NormalizeNormalForm(j);
    NormalFormIsWellFormed(Normalize(j));
  }

  // ---------------------------------------------------------------------------------
  // Python equality versus normalisation.

  lemma {:induction false} EquivSymmetric(a: Json, b: Json)
    requires Equiv(a, b)
    ensures Equiv(b, a)
    decreases a
  {
    match a
    case Arr(xs) =>
      forall i | 0 <= i < |xs| ensures Equiv(b.items[i], xs[i]) {
        EquivSymmetric(xs[i], b.items[i]);
      }
    case Obj(ms) =>
      var ns := b.members;
      forall i, k | 0 <= i < |ns| && 0 <= k < |ms| && ns[i].key == ms[k].key
        ensures Equiv(ns[i].value, ms[k].value)
      {
        EquivSymmetric(ms[k].value, ns[i].value);
      }
    case _ =>
  }

  lemma {:induction false} EquivTransitive(a: Json, b: Json, c: Json)
    requires Equiv(a, b) && Equiv(b, c)
    ensures Equiv(a, c)
    decreases a
  {
    match a
    case Arr(xs) =>
      forall i | 0 <= i < |xs| ensures Equiv(xs[i], c.items[i]) {
        EquivTransitive(xs[i], b.items[i], c.items[i]);
      }
    case Obj(ms) =>
      var ns, ps := b.members, c.members;
      forall i, k | 0 <= i < |ms| && 0 <= k < |ps| && ms[i].key == ps[k].key
        ensures Equiv(ms[i].value, ps[k].value)
      {
        assert ms[i].key in KeySet(ns);
        var p :| 0 <= p < |ns| && ns[p].key == ms[i].key;
        EquivTransitive(ms[i].value, ns[p].value, ps[k].value);
      }
    case _ =>
  }

  /** A well-formed document equals (in Python's sense) its normalised form. */
  lemma {:induction false} EquivNormalize(j: Json)
    requires WellFormed(j)
    ensures Equiv(j, Normalize(j))
    decreases j
  {
    match j
    case Arr(items) =>
      forall i | 0 <= i < |items| ensures Equiv(items[i], Normalize(items[i])) {
        EquivNormalize(items[i]);
      }
    case Obj(ms) =>
      NormalizedMembers(ms);
      var s := SortMembers(NormalizeValues(ms));
      assert KeySet(ms) == KeySet(s) by {
        forall key | key in KeySet(ms) ensures key in KeySet(s) {
          var i :| 0 <= i < |ms| && ms[i].key == key;
          var m := Member(ms[i].key, Normalize(ms[i].value));
          assert m in s;
          var k :| 0 <= k < |s| && s[k] == m;
        }
        forall key | key in KeySet(s) ensures key in KeySet(ms) {
          var k :| 0 <= k < |s| && s[k].key == key;
          assert s[k] in s;
          var i :| 0 <= i < |ms| && s[k] == Member(ms[i].key, Normalize(ms[i].value));
        }
      }
      forall i, k | 0 <= i < |ms| && 0 <= k < |s| && ms[i].key == s[k].key
        ensures Equiv(ms[i].value, s[k].value)
      {
        assert s[k] in s;
        var p :| 0 <= p < |ms| && s[k] == Member(ms[p].key, Normalize(ms[p].value));
        assert p == i;
        EquivNormalize(ms[i].value);
      }
    case _ =>
  }

  /** Documents Python considers equal normalise to the same tree, whatever the insertion
      order of their dicts. */
  lemma {:induction false} EquivSameNormalForm(a: Json, b: Json)
    requires WellFormed(a) && WellFormed(b)
    requires Equiv(a, b)
    ensures Normalize(a) == Normalize(b)
    decreases a
  {
    match a
    case Arr(xs) =>
      var na, nb := Normalize(a).items, Normalize(b).items;
      forall i | 0 <= i < |xs| ensures na[i] == nb[i] {
        EquivSameNormalForm(xs[i], b.items[i]);
      }
    case Obj(ms) =>
      var ns := b.members;
      NormalizedMembers(ms);
      NormalizedMembers(ns);
      var sa, sb := SortMembers(NormalizeValues(ms)), SortMembers(NormalizeValues(ns));
      forall m ensures m in sa <==> m in sb {
        if m in sa {
          var i :| 0 <= i < |ms| && m == Member(ms[i].key, Normalize(ms[i].value));
          assert ms[i].key in KeySet(ns);
          var k :| 0 <= k < |ns| && ns[k].key == ms[i].key;
          EquivSameNormalForm(ms[i].value, ns[k].value);
          assert m == Member(ns[k].key, Normalize(ns[k].value));
        }
        if m in sb {
          var k :| 0 <= k < |ns| && m == Member(ns[k].key, Normalize(ns[k].value));
          assert ns[k].key in KeySet(ms);
          var i :| 0 <= i < |ms| && ms[i].key == ns[k].key;
          EquivSameNormalForm(ms[i].value, ns[k].value);
          assert m == Member(ms[i].key, Normalize(ms[i].value));
        }
      }
      SortedUnique(sa, sb);
    case _ =>
  }

  /** Normalisation identifies exactly the documents Python considers equal. */
  lemma NormalizeIffEquiv(a: Json, b: Json)
    requires WellFormed(a) && WellFormed(b)
    ensures Normalize(a) == Normalize(b) <==> Equiv(a, b)
  {
    if Equiv(a, b) {
      EquivSameNormalForm(a, b);
    }
    if Normalize(a) == Normalize(b) {
      EquivNormalize(a);
      EquivNormalize(b);
      EquivSymmetric(b, Normalize(b));
      EquivTransitive(a, Normalize(a), b);
    }
  }

  /** Normalising twice changes nothing. */
  lemma NormalizeIdempotent(j: Json)
    requires WellFormed(j)
    ensures Normalize(Normalize(j)) == Normalize(j)
  {
    NormalizeWellFormed(j);
    EquivNormalize(j);
    EquivSymmetric(j, Normalize(j));
    EquivSameNormalForm(Normalize(j), j);
  }
}

=== FILE: json_parse.dfy ===
/** `json.loads` for documents without numbers (a number, `NaN` or `Infinity` is rejected),
    as CPython's C scanner reads them: whitespace
    is space, tab, newline and carriage return; string literals accept the escapes
    `\" \\ \/ \b \f \n \r \t \uXXXX` (hex digits in either case, surrogate pairs joined) and
    reject raw control characters; unlike CPython, which yields a lone-surrogate character, an
    escape naming an unpaired surrogate is rejected, since a Dafny string holds only Unicode
    scalar values; a repeated object key keeps its first position and takes
    its last value; anything after the document other than whitespace is an error.

    The lemmas show that this reader inverts `json.dumps`, from which the canonical
    serialisation is injective on logical documents. */
module JsonParse {
  import opened Wrappers
  import opened Bytes
  import opened Json
  import opened JsonOrder
  import opened Dict

  predicate IsWs(c: char)
  {
    c == ' ' || c == '\t' || c == '\n' || c == '\r'
  }

  /** The scanner's whitespace skip: drops the leading whitespace. */
  function SkipWs(s: string): (r: string)
    ensures |r| <= |s|
  {
    if s != [] && IsWs(s[0]) then SkipWs(s[1..]) else s
  }

  function HexValue(c: char): Option<nat>
  {
    if '0' <= c <= '9' then Some(c as int - '0' as int)
    else if 'a' <= c <= 'f' then Some(c as int - 'a' as int + 10)
    else if 'A' <= c <= 'F' then Some(c as int - 'A' as int + 10)
    else None
  }

  /** Four hex digits, as the scanner reads after `\u`. */
  function Hex4Value(s: string): (r: Option<nat>)
    requires |s| == 4
    ensures r.Some? ==> r.value < 0x1_0000
  {
    match (HexValue(s[0]), HexValue(s[1]), HexValue(s[2]), HexValue(s[3]))
    case (Some(a), Some(b), Some(c), Some(d)) =>
      if a < 16 && b < 16 && c < 16 && d < 16 then Some(a * 0x1000 + b * 0x100 + c * 0x10 + d)
      else None
    case _ => None
  }

  /** One character of a string literal's body (which does not start with the closing
      quote): a raw character or an escape. A `\uXXXX` naming a surrogate must be the high
      half of a pair completed by a second escape naming the low half. */
  function ParseStrChar(s: string): (r: Option<(char, string)>)
    requires s != []
    ensures r.Some? ==> |r.value.1| < |s|
  {
    if s[0] == '\\' then
      if |s| < 2 then None
      else if s[1] == '"' then Some(('"', s[2..]))
      else if s[1] == '\\' then Some(('\\', s[2..]))
      else if s[1] == '/' then Some(('/', s[2..]))
      else if s[1] == 'b' then Some((0x08 as char, s[2..]))
      else if s[1] == 'f' then Some((0x0C as char, s[2..]))
      else if s[1] == 'n' then Some((0x0A as char, s[2..]))
      else if s[1] == 'r' then Some((0x0D as char, s[2..]))
      else if s[1] == 't' then Some((0x09 as char, s[2..]))
      else if s[1] == 'u' && |s| >= 6 then
        match Hex4Value(s[2..6])
        case None => None
        case Some(n) =>
          if 0xD800 <= n < 0xDC00 then
            if |s| >= 12 && s[6] == '\\' && s[7] == 'u' then
              match Hex4Value(s[8..12])
              case None => None
              case Some(n2) =>
                if 0xDC00 <= n2 < 0xE000 then
                  Some(((0x1_0000 + (n - 0xD800) * 0x400 + (n2 - 0xDC00)) as char, s[12..]))
                else None
            else None
          else if 0xDC00 <= n < 0xE000 then None
          else Some((n as char, s[6..]))
      else None
    else if (s[0] as int) < 0x20 then None
    else Some((s[0], s[1..]))
  }

  /** The body of a string literal up to and including its closing quote. */
  function ParseStrBody(s: string): (r: Option<(string, string)>)
    decreases |s|
    ensures r.Some? ==> |r.value.1| < |s|
  {
    if s == [] then None
    else if s[0] == '"' then Some(([], s[1..]))
    else
      match ParseStrChar(s)
      case None => None
      case Some((c, rest)) =>
        match ParseStrBody(rest)
        case None => None
        case Some((cs, rest')) => Some(([c] + cs, rest'))
  }

  /** Builds a dict from its key/value pairs in order: `d[k] = v` for each. */
  function FromPairs(acc: seq<Member>, pairs: seq<Member>): seq<Member>
    decreases |pairs|
  {
    if pairs == [] then acc else FromPairs(Put(acc, pairs[0].key, pairs[0].value), pairs[1..])
  }

  /** A value at the start of `s` (no leading whitespace), and the text after it. */
  function ParseValue(s: string): (r: Option<(Json, string)>)
    decreases |s|, 1
    ensures r.Some? ==> |r.value.1| < |s|
  {
    if s == [] then None
    else if s[0] == 'n' then (if |s| >= 4 && s[..4] == "null" then Some((Null, s[4..])) else None)
    else if s[0] == 't' then (if |s| >= 4 && s[..4] == "true" then Some((Bool(true), s[4..])) else None)
    else if s[0] == 'f' then (if |s| >= 5 && s[..5] == "false" then Some((Bool(false), s[5..])) else None)
    else if s[0] == '"' then
      match ParseStrBody(s[1..])
      case None => None
      case Some((cs, rest)) => Some((Str(cs), rest))
    else if s[0] == '[' then ParseArray(s[1..])
    else if s[0] == '{' then ParseObject(s[1..])
    else None
  }

  /** A list after its `[`. */
  function ParseArray(s: string): (r: Option<(Json, string)>)
    decreases |s|, 3
    ensures r.Some? ==> |r.value.1| < |s|
  {
    var t := SkipWs(s);
    if t != [] && t[0] == ']' then Some((Arr([]), t[1..]))
    else
      match ParseItems(t)
      case None => None
      case Some((items, rest)) => Some((Arr(items), rest))
  }

  /** The items of a non-empty list, through its `]`. */
  function ParseItems(s: string): (r: Option<(seq<Json>, string)>)
    decreases |s|, 2
    ensures r.Some? ==> |r.value.1| < |s|
  {
    match ParseValue(s)
    case None => None
    case Some((v, rest)) =>
      var t := SkipWs(rest);
      if t == [] then None
      else if t[0] == ']' then Some(([v], t[1..]))
      else if t[0] == ',' then
        match ParseItems(SkipWs(t[1..]))
        case None => None
        case Some((vs, rest')) => Some(([v] + vs, rest'))
      else None
  }

  /** A dict after its `{`. */
  function ParseObject(s: string): (r: Option<(Json, string)>)
    decreases |s|, 3
    ensures r.Some? ==> |r.value.1| < |s|
  {
    var t := SkipWs(s);
    if t != [] && t[0] == '}' then Some((Obj([]), t[1..]))
    else
      match ParseMembers(t)
      case None => None
      case Some((pairs, rest)) => Some((Obj(FromPairs([], pairs)), rest))
  }

  /** The key/value pairs of a non-empty dict as written, through its `}`. */
  function ParseMembers(s: string): (r: Option<(seq<Member>, string)>)
    decreases |s|, 2
    ensures r.Some? ==> |r.value.1| < |s|
  {
    if s == [] || s[0] != '"' then None
    else
      match ParseStrBody(s[1..])
      case None => None
      case Some((key, afterKey)) =>
        var t := SkipWs(afterKey);
        if t == [] || t[0] != ':' then None
        else
          match ParseValue(SkipWs(t[1..]))
          case None => None
          case Some((v, rest)) =>
            var u := SkipWs(rest);
            if u == [] then None
            else if u[0] == '}' then Some(([Member(key, v)], u[1..]))
            else if u[0] == ',' then
              match ParseMembers(SkipWs(u[1..]))
              case None => None
              case Some((ms, rest')) => Some(([Member(key, v)] + ms, rest'))
            else None
  }

  /** `json.loads(s)`: one document, optionally surrounded by whitespace. */
  function Loads(s: string): Option<Json>
  {
    match ParseValue(SkipWs(s))
    case None => None
    case Some((j, rest)) => if SkipWs(rest) == [] then Some(j) else None
  }

  // ---------------------------------------------------------------------------------
  // The reader inverts the writer.

  /** The two separator choices the credential code uses. */
  predicate ValidSeps(seps: Separators)
  {
    seps == Compact || seps == Spaced
  }

  /** The characters a serialised value can start with. */
  predicate ValueStart(c: char)
  {
    c == 'n' || c == 't' || c == 'f' || c == '"' || c == '[' || c == '{'
  }

  lemma HexValueOfDigit(d: nat)
    requires d < 16
    ensures HexValue(HexDigits[d]) == Some(d)
  {
  }

  /** Reading back four hex digits written by `Hex4` gives the number written. */
  lemma Hex4RoundTrip(n: nat)
    requires n < 0x1_0000
    ensures Hex4Value(Hex4(n)) == Some(n)
  {
    var a, b, c, d := n / 0x1000, (n / 0x100) % 16, (n / 0x10) % 16, n % 16;
    var h := Hex4(n);
    assert h[0] == HexDigits[a] && h[1] == HexDigits[b] && h[2] == HexDigits[c] && h[3] == HexDigits[d];
    HexValueOfDigit(a);
    HexValueOfDigit(b);
    HexValueOfDigit(c);
    HexValueOfDigit(d);
    DigitsOf(n);
  }

  lemma DigitsOf(n: nat)
    requires n < 0x1_0000
    ensures n == (n / 0x1000) * 0x1000 + ((n / 0x100) % 16) * 0x100 + ((n / 0x10) % 16) * 0x10 + n % 16
  {
    var q1 := n / 16;
    var q2 := q1 / 16;
    var q3 := q2 / 16;
    assert n == q1 * 16 + n % 16;
    assert q1 == q2 * 16 + q1 % 16;
    assert q2 == q3 * 16 + q2 % 16;
    assert q2 == n / 0x100 && q3 == n / 0x1000;
  }

  /** Every escape `json.dumps` writes reads back as the character escaped, and never
      starts with the closing quote. */
  lemma EscapeCharRoundTrip(c: char, rest: string)
    ensures EscapeChar(c) != [] && EscapeChar(c)[0] != '"'
    ensures ParseStrChar(EscapeChar(c) + rest) == Some((c, rest))
  {
    var n := c as int;
    var s := EscapeChar(c) + rest;
    if c == '"' || c == '\\' || n == 0x08 || n == 0x0C || n == 0x0A || n == 0x0D || n == 0x09 {
      assert s[2..] == rest;
    } else if 0x20 <= n <= 0x7E {
      assert s[1..] == rest;
    } else if n < 0x1_0000 {
      UnicodeEscapeRoundTrip(c, rest);
    } else {
      SurrogatePairRoundTrip(c, rest);
    }
  }

  lemma UnicodeEscapeRoundTrip(c: char, rest: string)
    requires c as int < 0x1_0000
    ensures ParseStrChar(['\\', 'u'] + Hex4(c as int) + rest) == Some((c, rest))
  {
    var n := c as int;
    var s := ['\\', 'u'] + Hex4(n) + rest;
    Hex4RoundTrip(n);
    assert s[2..6] == Hex4(n);
    assert s[6..] == rest;
    assert !(0xD800 <= n < 0xE000);
  }

  lemma SurrogatePairRoundTrip(c: char, rest: string)
    requires c as int >= 0x1_0000
    ensures var m := c as int - 0x1_0000;
      ParseStrChar(['\\', 'u'] + Hex4(0xD800 + m / 0x400) + ['\\', 'u'] + Hex4(0xDC00 + m % 0x400) + rest)
      == Some((c, rest))
  {
    var m := c as int - 0x1_0000;
    var hi, lo := 0xD800 + m / 0x400, 0xDC00 + m % 0x400;
    var s := ['\\', 'u'] + Hex4(hi) + ['\\', 'u'] + Hex4(lo) + rest;
    assert m == (m / 0x400) * 0x400 + m % 0x400;
    Hex4RoundTrip(hi);
    Hex4RoundTrip(lo);
    assert s[2..6] == Hex4(hi);
    assert s[8..12] == Hex4(lo);
    assert s[12..] == rest;
    ReadSurrogatePair(s, hi, lo);
  }

  /** The scanner's reading of a `\uXXXX\uXXXX` surrogate pair. */
  lemma ReadSurrogatePair(s: string, hi: nat, lo: nat)
    requires |s| >= 12 && s[0] == '\\' && s[1] == 'u' && s[6] == '\\' && s[7] == 'u'
    requires Hex4Value(s[2..6]) == Some(hi) && Hex4Value(s[8..12]) == Some(lo)
    requires 0xD800 <= hi < 0xDC00 && 0xDC00 <= lo < 0xE000
    ensures ParseStrChar(s) == Some(((0x1_0000 + (hi - 0xD800) * 0x400 + (lo - 0xDC00)) as char, s[12..]))
  {
  }

  /** A string literal's body as `json.dumps` writes it reads back as the string. */
  lemma {:induction false} EscapeAllRoundTrip(x: string, rest: string)
    ensures ParseStrBody(EscapeAll(x) + "\"" + rest) == Some((x, rest))
  {
    if x == [] {
      assert EscapeAll(x) + "\"" + rest == "\"" + rest;
    } else {
      var tail := EscapeAll(x[1..]) + "\"" + rest;
      assert EscapeAll(x) + "\"" + rest == EscapeChar(x[0]) + tail by {
        assert EscapeAll(x) == EscapeChar(x[0]) + EscapeAll(x[1..]);
        Enclosed(EscapeChar(x[0]), EscapeAll(x[1..]), "\"", rest);
      }
      EscapeAllRoundTrip(x[1..], rest);
      EscapeCharRoundTrip(x[0], tail);
      assert [x[0]] + x[1..] == x;
    }
  }

  lemma SerFirst(j: Json, seps: Separators)
    ensures Ser(j, seps) != [] && ValueStart(Ser(j, seps)[0])
  {
  }

  lemma SerItemsFirst(items: seq<Json>, seps: Separators)
    requires items != []
    ensures SerItems(items, seps) != [] && ValueStart(SerItems(items, seps)[0])
  {
    SerFirst(items[0], seps);
  }

  lemma SerMembersFirst(ms: seq<Member>, seps: Separators)
    requires ms != []
    ensures SerMembers(ms, seps) != [] && SerMembers(ms, seps)[0] == '"'
  {
  }

  lemma SkipWsNone(s: string)
    requires s == [] || !IsWs(s[0])
    ensures SkipWs(s) == s
  {
  }

  /** What a separator followed by a value reads as: the separator's punctuation, then,
      once whitespace is skipped, the value. */
  lemma SkipSeparator(sep: string, t: string)
    requires sep == "," || sep == ", " || sep == ":" || sep == ": "
    requires t != [] && ValueStart(t[0])
    ensures SkipWs(sep + t) == sep + t
    ensures SkipWs((sep + t)[1..]) == t
  {
    var s := sep + t;
    assert s[0] == sep[0] && !IsWs(s[0]);
    SkipWsNone(s);
    SkipWsNone(t);
    if |sep| == 2 {
      assert sep[1] == ' ';
      var u := s[1..];
      assert u[0] == ' ' && u[1..] == t;
    } else {
      assert s[1..] == t;
    }
  }

  /** Items with distinct keys, read one by one into a dict, give back those items. */
  lemma {:induction false} FromPairsDistinct(acc: seq<Member>, pairs: seq<Member>)
    requires DistinctKeys(acc + pairs)
    ensures FromPairs(acc, pairs) == acc + pairs
    decreases pairs
  {
    if pairs != [] {
      var k := pairs[0].key;
      assert k !in KeySet(acc) by {
        forall i | 0 <= i < |acc| ensures acc[i].key != k {
          assert (acc + pairs)[i] == acc[i] && (acc + pairs)[|acc|] == pairs[0];
        }
      }
      PutNewKeyAppends(acc, k, pairs[0].value);
      assert acc + [pairs[0]] + pairs[1..] == acc + pairs;
      FromPairsDistinct(acc + [pairs[0]], pairs[1..]);
    }
  }

  // One lemma per step of the reader, so that each unfolds one function once.

  lemma ReadScalar(j: Json, seps: Separators, rest: string)
    requires j.Null? || j.Bool? || j.Str?
    ensures ParseValue(Ser(j, seps) + rest) == Some((j, rest))
  {
    var s := Ser(j, seps) + rest;
    match j
    case Null =>
      assert s[..4] == "null" && s[4..] == rest;
    case Bool(b) =>
      if b {
        assert s[..4] == "true" && s[4..] == rest;
      } else {
        assert s[..5] == "false" && s[5..] == rest;
      }
    case Str(x) =>
      assert s[1..] == EscapeAll(x) + "\"" + rest by {
        assert Ser(j, seps) == "\"" + EscapeAll(x) + "\"";
        DropOpening("\"", EscapeAll(x), "\"", rest, "");
        assert rest + "" == rest;
      }
      EscapeAllRoundTrip(x, rest);
  }

  lemma ReadEmpty(open: char, close: char, rest: string)
    requires (open, close) == ('[', ']') || (open, close) == ('{', '}')
    ensures ParseValue([open, close] + rest) ==
      Some((if open == '[' then Arr([]) else Obj([]), rest))
  {
    var s := [open, close] + rest;
    assert s[1..] == [close] + rest;
    SkipWsNone([close] + rest);
    assert ([close] + rest)[1..] == rest;
  }

  lemma ReadArray(t: string, items: seq<Json>, rest: string)
    requires t != [] && ValueStart(t[0])
    requires ParseItems(t) == Some((items, rest))
    ensures ParseValue("[" + t) == Some((Arr(items), rest))
  {
    assert ("[" + t)[1..] == t;
    SkipWsNone(t);
  }

  lemma ReadObject(t: string, ms: seq<Member>, rest: string)
    requires t != [] && t[0] == '"'
    requires ParseMembers(t) == Some((ms, rest))
    ensures ParseValue("{" + t) == Some((Obj(FromPairs([], ms)), rest))
  {
    assert ("{" + t)[1..] == t;
    SkipWsNone(t);
  }

  lemma ReadLastItem(s: string, v: Json, rest: string)
    requires ParseValue(s) == Some((v, "]" + rest))
    ensures ParseItems(s) == Some(([v], rest))
  {
    SkipWsNone("]" + rest);
    assert ("]" + rest)[1..] == rest;
  }

  lemma ReadNextItem(s: string, v: Json, sep: string, tail: string, vs: seq<Json>, rest: string)
    requires sep == "," || sep == ", "
    requires tail != [] && ValueStart(tail[0])
    requires ParseValue(s) == Some((v, sep + tail))
    requires ParseItems(tail) == Some((vs, rest))
    ensures ParseItems(s) == Some(([v] + vs, rest))
  {
    SkipSeparator(sep, tail);
  }

  lemma DropOpening(a: string, b: string, c: string, d: string, e: string)
    requires |a| == 1
    ensures (a + b + c + d + e)[1..] == b + c + (d + e)
  {
  }

  /** The reading of `"key"` and the key separator, up to the value. */
  lemma ReadKey(key: string, sep: string, t: string)
    requires sep == ":" || sep == ": "
    requires t != [] && ValueStart(t[0])
    ensures var s := Quote(key) + sep + t;
      ParseStrBody(s[1..]) == Some((key, sep + t)) && SkipWs(sep + t) == sep + t &&
      SkipWs((sep + t)[1..]) == t
  {
    var s := Quote(key) + sep + t;
    assert s[1..] == EscapeAll(key) + "\"" + (sep + t) by {
      assert Quote(key) == "\"" + EscapeAll(key) + "\"";
      DropOpening("\"", EscapeAll(key), "\"", sep, t);
    }
    EscapeAllRoundTrip(key, sep + t);
    SkipSeparator(sep, t);
  }

  lemma ReadLastMember(key: string, sep: string, t: string, v: Json, rest: string)
    requires sep == ":" || sep == ": "
    requires t != [] && ValueStart(t[0])
    requires ParseValue(t) == Some((v, "}" + rest))
    ensures ParseMembers(Quote(key) + sep + t) == Some(([Member(key, v)], rest))
  {
    ReadKey(key, sep, t);
    SkipWsNone("}" + rest);
    assert ("}" + rest)[1..] == rest;
  }

  lemma ReadNextMember(key: string, sep: string, t: string, v: Json, isep: string, tail: string,
                       ms: seq<Member>, rest: string)
    requires sep == ":" || sep == ": "
    requires isep == "," || isep == ", "
    requires t != [] && ValueStart(t[0])
    requires tail != [] && tail[0] == '"'
    requires ParseValue(t) == Some((v, isep + tail))
    requires ParseMembers(tail) == Some((ms, rest))
    ensures ParseMembers(Quote(key) + sep + t) == Some(([Member(key, v)] + ms, rest))
  {
    ReadKey(key, sep, t);
    SkipSeparator(isep, tail);
  }

  /** `json.loads` reads what `json.dumps` wrote (with either separator choice), and stops
      exactly at its end. */
  lemma {:induction false} ParseSer(j: Json, seps: Separators, rest: string)
    requires WellFormed(j) && ValidSeps(seps)
    ensures ParseValue(Ser(j, seps) + rest) == Some((j, rest))
    decreases j
  {
    match j
    case Arr(items) =>
      if items == [] {
        assert Ser(j, seps) + rest == ['[', ']'] + rest;
        ReadEmpty('[', ']', rest);
      } else {
        var t := SerItems(items, seps) + "]" + rest;
        assert Ser(j, seps) + rest == "[" + t by {
          Enclosed("[", SerItems(items, seps), "]", rest);
        }
        assert ParseItems(t) == Some((items, rest)) by {
          ParseItemsSer(items, seps, rest);
        }
        SerItemsFirst(items, seps);
        ReadArray(t, items, rest);
      }
    case Obj(ms) =>
      if ms == [] {
        assert Ser(j, seps) + rest == ['{', '}'] + rest;
        ReadEmpty('{', '}', rest);
      } else {
        var t := SerMembers(ms, seps) + "}" + rest;
        assert Ser(j, seps) + rest == "{" + t by {
          Enclosed("{", SerMembers(ms, seps), "}", rest);
        }
        assert ParseMembers(t) == Some((ms, rest)) by {
          ParseMembersSer(ms, seps, rest);
        }
        SerMembersFirst(ms, seps);
        ReadObject(t, ms, rest);
        assert FromPairs([], ms) == ms by {
          FromPairsDistinct([], ms);
          assert [] + ms == ms;
        }
      }
    case _ =>
      ReadScalar(j, seps, rest);
  }

  lemma {:induction false} ParseItemsSer(items: seq<Json>, seps: Separators, rest: string)
    requires items != [] && ValidSeps(seps)
    requires forall i :: 0 <= i < |items| ==> WellFormed(items[i])
    ensures ParseItems(SerItems(items, seps) + "]" + rest) == Some((items, rest))
    decreases items
  {
    var v, more := items[0], items[1..];
    if |items| == 1 {
      ParseSer(v, seps, "]" + rest);
      LastItemSer(v, seps, rest);
      assert items == [v];
    } else {
      var tail := SerItems(more, seps) + "]" + rest;
      ParseSer(v, seps, seps.item + tail);
      ParseItemsSer(more, seps, rest);
      NextItemSer(v, more, seps, rest);
      assert [v] + more == items;
    }
  }

  /** The last item of a list is read, and then the closing bracket. */
  lemma LastItemSer(v: Json, seps: Separators, rest: string)
    requires ParseValue(Ser(v, seps) + ("]" + rest)) == Some((v, "]" + rest))
    ensures ParseItems(SerItems([v], seps) + "]" + rest) == Some(([v], rest))
  {
    assert SerItems([v], seps) + "]" + rest == Ser(v, seps) + ("]" + rest);
    ReadLastItem(Ser(v, seps) + ("]" + rest), v, rest);
  }

  /** An item written before further items is read, then the rest after the separator. */
  lemma NextItemSer(v: Json, more: seq<Json>, seps: Separators, rest: string)
    requires more != [] && ValidSeps(seps)
    requires var tail := SerItems(more, seps) + "]" + rest;
      ParseValue(Ser(v, seps) + (seps.item + tail)) == Some((v, seps.item + tail)) &&
      ParseItems(tail) == Some((more, rest))
    ensures ParseItems(SerItems([v] + more, seps) + "]" + rest) == Some(([v] + more, rest))
  {
    var items := [v] + more;
    var tail := SerItems(more, seps) + "]" + rest;
    var s := Ser(v, seps) + (seps.item + tail);
    assert SerItems(items, seps) + "]" + rest == s by {
      assert items[1..] == more;
      assert SerItems(items, seps) == Ser(v, seps) + seps.item + SerItems(more, seps);
      Regroup(Ser(v, seps), seps.item, SerItems(more, seps), "]", rest);
    }
    SerItemsFirst(more, seps);
    ReadNextItem(s, v, seps.item, tail, more, rest);
  }

  lemma {:induction false} ParseMembersSer(ms: seq<Member>, seps: Separators, rest: string)
    requires ms != [] && ValidSeps(seps)
    requires forall i :: 0 <= i < |ms| ==> WellFormed(ms[i].value)
    ensures ParseMembers(SerMembers(ms, seps) + "}" + rest) == Some((ms, rest))
    decreases ms, 1
  {
    if |ms| == 1 {
      ParseLastMemberSer(ms, seps, rest);
    } else {
      ParseMoreMembersSer(ms, seps, rest);
    }
  }

  lemma {:induction false} ParseLastMemberSer(ms: seq<Member>, seps: Separators, rest: string)
    requires |ms| == 1 && ValidSeps(seps) && WellFormed(ms[0].value)
    ensures ParseMembers(SerMembers(ms, seps) + "}" + rest) == Some((ms, rest))
    decreases ms, 0
  {
    var m := ms[0];
    SerFirst(m.value, seps);
    var t := Ser(m.value, seps) + ("}" + rest);
    assert SerMembers(ms, seps) + "}" + rest == Quote(m.key) + seps.key + t by {
      assert SerMembers(ms, seps) == Quote(m.key) + seps.key + Ser(m.value, seps);
      RegroupLast(Quote(m.key), seps.key, Ser(m.value, seps), "}", rest);
    }
    ParseSer(m.value, seps, "}" + rest);
    ReadLastMember(m.key, seps.key, t, m.value, rest);
    assert ms == [Member(m.key, m.value)];
  }

  lemma {:induction false} ParseMoreMembersSer(ms: seq<Member>, seps: Separators, rest: string)
    requires |ms| > 1 && ValidSeps(seps)
    requires forall i :: 0 <= i < |ms| ==> WellFormed(ms[i].value)
    ensures ParseMembers(SerMembers(ms, seps) + "}" + rest) == Some((ms, rest))
    decreases ms, 0
  {
    var m, more := ms[0], ms[1..];
    var tail := SerMembers(more, seps) + "}" + rest;
    ParseSer(m.value, seps, seps.item + tail);
    ParseMembersSer(more, seps, rest);
    NextMemberSer(m, more, seps, rest);
    assert [m] + more == ms;
  }

  /** A member written before further members is read, then the rest after the separator. */
  lemma NextMemberSer(m: Member, more: seq<Member>, seps: Separators, rest: string)
    requires more != [] && ValidSeps(seps)
    requires var tail := SerMembers(more, seps) + "}" + rest;
      ParseValue(Ser(m.value, seps) + (seps.item + tail)) == Some((m.value, seps.item + tail)) &&
      ParseMembers(tail) == Some((more, rest))
    ensures ParseMembers(SerMembers([m] + more, seps) + "}" + rest) == Some(([m] + more, rest))
  {
    var ms := [m] + more;
    var tail := SerMembers(more, seps) + "}" + rest;
    var t := Ser(m.value, seps) + (seps.item + tail);
    assert SerMembers(ms, seps) + "}" + rest == Quote(m.key) + seps.key + t by {
      assert ms[1..] == more;
      assert SerMembers(ms, seps) == SerMember(m, seps) + seps.item + SerMembers(more, seps);
      assert SerMember(m, seps) == Quote(m.key) + seps.key + Ser(m.value, seps);
      RegroupMember(Quote(m.key), seps.key, Ser(m.value, seps), seps.item, SerMembers(more, seps), "}", rest);
    }
    SerFirst(m.value, seps);
    SerMembersFirst(more, seps);
    ReadNextMember(m.key, seps.key, t, m.value, seps.item, tail, more, rest);
  }

  lemma Regroup(a: string, b: string, c: string, d: string, e: string)
    ensures a + b + c + d + e == a + (b + (c + d + e))
  {
  }

  lemma Enclosed(a: string, b: string, c: string, d: string)
    ensures a + b + c + d == a + (b + c + d)
  {
  }

  lemma RegroupLast(a: string, b: string, c: string, d: string, e: string)
    ensures a + b + c + d + e == a + b + (c + (d + e))
  {
  }

  lemma RegroupMember(a: string, b: string, c: string, d: string, e: string, f: string, g: string)
    ensures a + b + c + d + e + f + g == a + b + (c + (d + (e + f + g)))
  {
  }

  // ---------------------------------------------------------------------------------
  // Consequences: what `loads` returns, and what the canonical text determines.

  /** `json.loads(json.dumps(j))` gives back `j`, key order included. */
  lemma LoadsDumpsDefault(j: Json)
    requires WellFormed(j)
    ensures Loads(DumpsDefault(j)) == Some(j)
  {
    LoadsSer(j, Spaced);
  }

  /** `json.loads` of the canonical text gives the document with every dict sorted. */
  lemma LoadsCanonical(j: Json)
    requires WellFormed(j)
    ensures Loads(Canonical(j)) == Some(Normalize(j))
  {
    NormalizeWellFormed(j);
    LoadsSer(Normalize(j), Compact);
  }

  lemma LoadsSer(j: Json, seps: Separators)
    requires WellFormed(j) && ValidSeps(seps)
    ensures Loads(Ser(j, seps)) == Some(j)
  {
    ParseSer(j, seps, []);
    SerFirst(j, seps);
    SkipWsNone(Ser(j, seps));
    assert Ser(j, seps) + [] == Ser(j, seps);
  }

  /** Two documents have the same canonical serialisation exactly when Python's `==` holds
      between them: key order is forgotten and nothing else is. */
  lemma CanonicalInjective(a: Json, b: Json)
    requires WellFormed(a) && WellFormed(b)
    ensures Canonical(a) == Canonical(b) <==> Equiv(a, b)
  {
    NormalizeIffEquiv(a, b);
    if Canonical(a) == Canonical(b) {
      LoadsCanonical(a);
      LoadsCanonical(b);
    }
  }

  /** Re-reading and re-canonicalising canonical text gives the same text. */
  lemma CanonicalIdempotent(j: Json)
    requires WellFormed(j)
    ensures Loads(Canonical(j)).Some?
    ensures Canonical(Loads(Canonical(j)).value) == Canonical(j)
  {
    LoadsCanonical(j);
    NormalizeIdempotent(j);
  }

  /** Whatever `json.loads` accepts is a well-formed document: every dict it builds has
      distinct keys. */
  lemma LoadsWellFormed(s: string)
    ensures Loads(s).Some? ==> WellFormed(Loads(s).value)
  {
    ParseValueWellFormed(SkipWs(s));
  }

  lemma {:induction false} ParseValueWellFormed(s: string)
    ensures ParseValue(s).Some? ==> WellFormed(ParseValue(s).value.0)
    decreases |s|, 1
  {
    if s != [] && s[0] == '[' {
      ParseArrayWellFormed(s[1..]);
    } else if s != [] && s[0] == '{' {
      ParseObjectWellFormed(s[1..]);
    }
  }

  lemma {:induction false} ParseArrayWellFormed(s: string)
    ensures ParseArray(s).Some? ==> WellFormed(ParseArray(s).value.0)
    decreases |s|, 3
  {
    ParseItemsWellFormed(SkipWs(s));
  }

  lemma {:induction false} ParseItemsWellFormed(s: string)
    ensures ParseItems(s).Some? ==>
      forall i :: 0 <= i < |ParseItems(s).value.0| ==> WellFormed(ParseItems(s).value.0[i])
    decreases |s|, 2
  {
    ParseValueWellFormed(s);
    match ParseValue(s)
    case None =>
    case Some((v, rest)) =>
      var t := SkipWs(rest);
      if t != [] && t[0] == ',' {
        ParseItemsWellFormed(SkipWs(t[1..]));
      }
  }

  lemma {:induction false} ParseObjectWellFormed(s: string)
    ensures ParseObject(s).Some? ==> WellFormed(ParseObject(s).value.0)
    decreases |s|, 3
  {
    var t := SkipWs(s);
    ParseMembersWellFormed(t);
    if !(t != [] && t[0] == '}') {
      match ParseMembers(t)
      case None =>
      case Some((pairs, rest)) =>
        FromPairsWellFormed([], pairs);
    }
  }

  lemma {:induction false} ParseMembersWellFormed(s: string)
    ensures ParseMembers(s).Some? ==>
      forall i :: 0 <= i < |ParseMembers(s).value.0| ==> WellFormed(ParseMembers(s).value.0[i].value)
    decreases |s|, 2
  {
    if s != [] && s[0] == '"' {
      match ParseStrBody(s[1..])
      case None =>
      case Some((key, afterKey)) =>
        var t := SkipWs(afterKey);
        if t != [] && t[0] == ':' {
          ParseValueWellFormed(SkipWs(t[1..]));
          match ParseValue(SkipWs(t[1..]))
          case None =>
          case Some((v, rest)) =>
            var u := SkipWs(rest);
            if u != [] && u[0] == ',' {
              ParseMembersWellFormed(SkipWs(u[1..]));
            }
        }
    }
  }

  lemma {:induction false} PutValues(ms: seq<Member>, k: string, v: Json)
    ensures forall m :: m in Put(ms, k, v) ==> m == Member(k, v) || m in ms
  {
    if ms != [] && ms[0].key != k {
      PutValues(ms[1..], k, v);
    }
  }

  lemma {:induction false} FromPairsWellFormed(acc: seq<Member>, pairs: seq<Member>)
    requires DistinctKeys(acc)
    requires forall i :: 0 <= i < |acc| ==> WellFormed(acc[i].value)
    requires forall i :: 0 <= i < |pairs| ==> WellFormed(pairs[i].value)
    ensures WellFormed(Obj(FromPairs(acc, pairs)))
    decreases pairs
  {
    if pairs == [] {
    } else {
      var next := Put(acc, pairs[0].key, pairs[0].value);
      PutKeys(acc, pairs[0].key, pairs[0].value);
      PutValues(acc, pairs[0].key, pairs[0].value);
      forall i | 0 <= i < |next| ensures WellFormed(next[i].value) {
        assert next[i] in next;
      }
      FromPairsWellFormed(next, pairs[1..]);
    }
  }

  /** The canonical text, like all text `json.dumps` writes by default, is pure ASCII, so
      its UTF-8 encoding has one byte per character. */
  lemma CanonicalIsAscii(j: Json)
    ensures IsAscii(Canonical(j))
  {
    SerAscii(Normalize(j), Compact);
  }

  lemma DefaultDumpsIsAscii(j: Json)
    ensures IsAscii(DumpsDefault(j))
  {
    SerAscii(j, Spaced);
  }

  lemma Hex4Ascii(n: nat)
    requires n < 0x1_0000
    ensures IsAscii(Hex4(n))
  {
    var h := Hex4(n);
    forall i | 0 <= i < 4 ensures h[i] as int < 0x80 {
      assert h[i] in HexDigits;
    }
  }

  lemma EscapeCharAscii(c: char)
    ensures IsAscii(EscapeChar(c))
  {
    var n := c as int;
    if n < 0x80 {
      ShortEscapeAscii(c);
    } else if n < 0x1_0000 {
      assert EscapeChar(c) == ['\\', 'u'] + Hex4(n);
      Hex4Ascii(n);
      AsciiConcat(['\\', 'u'], Hex4(n));
    } else {
      var m := n - 0x1_0000;
      assert EscapeChar(c) ==
        ['\\', 'u'] + Hex4(0xD800 + m / 0x400) + ['\\', 'u'] + Hex4(0xDC00 + m % 0x400);
      PairEscapeAscii(m);
    }
  }

  lemma ShortEscapeAscii(c: char)
    requires c as int < 0x80
    ensures IsAscii(EscapeChar(c))
  {
    var n := c as int;
    if n < 0x20 || n == 0x7F {
      if !(n == 0x08 || n == 0x0C || n == 0x0A || n == 0x0D || n == 0x09) {
        assert EscapeChar(c) == ['\\', 'u'] + Hex4(n);
        Hex4Ascii(n);
        AsciiConcat(['\\', 'u'], Hex4(n));
      }
    }
  }

  lemma PairEscapeAscii(m: nat)
    requires m < 0x10_0000
    ensures IsAscii(['\\', 'u'] + Hex4(0xD800 + m / 0x400) + ['\\', 'u'] + Hex4(0xDC00 + m % 0x400))
  {
    var hi, lo := Hex4(0xD800 + m / 0x400), Hex4(0xDC00 + m % 0x400);
    Hex4Ascii(0xD800 + m / 0x400);
    Hex4Ascii(0xDC00 + m % 0x400);
    AsciiConcat(['\\', 'u'], hi);
    AsciiConcat(['\\', 'u'] + hi, ['\\', 'u']);
    AsciiConcat(['\\', 'u'] + hi + ['\\', 'u'], lo);
  }

  lemma {:induction false} EscapeAllAscii(x: string)
    ensures IsAscii(EscapeAll(x))
  {
    if x != [] {
      EscapeCharAscii(x[0]);
      EscapeAllAscii(x[1..]);
      AsciiConcat(EscapeChar(x[0]), EscapeAll(x[1..]));
    }
  }

  lemma {:induction false} SerAscii(j: Json, seps: Separators)
    requires ValidSeps(seps)
    ensures IsAscii(Ser(j, seps))
    decreases j
  {
    match j
    case Str(x) =>
      EscapeAllAscii(x);
      AsciiConcat("\"" + EscapeAll(x), "\"");
      AsciiConcat("\"", EscapeAll(x));
    case Arr(items) =>
      SerItemsAscii(items, seps);
      AsciiConcat("[" + SerItems(items, seps), "]");
      AsciiConcat("[", SerItems(items, seps));
    case Obj(ms) =>
      SerMembersAscii(ms, seps);
      AsciiConcat("{" + SerMembers(ms, seps), "}");
      AsciiConcat("{", SerMembers(ms, seps));
    case _ =>
  }

  lemma {:induction false} SerItemsAscii(items: seq<Json>, seps: Separators)
    requires ValidSeps(seps)
    ensures IsAscii(SerItems(items, seps))
    decreases items
  {
    if items != [] {
      SerAscii(items[0], seps);
      if |items| > 1 {
        SerItemsAscii(items[1..], seps);
        AsciiConcat(Ser(items[0], seps), seps.item);
        AsciiConcat(Ser(items[0], seps) + seps.item, SerItems(items[1..], seps));
      }
    }
  }

  lemma {:induction false} SerMembersAscii(ms: seq<Member>, seps: Separators)
    requires ValidSeps(seps)
    ensures IsAscii(SerMembers(ms, seps))
    decreases ms
  {
    if ms != [] {
      var m := ms[0];
      SerAscii(m.value, seps);
      EscapeAllAscii(m.key);
      AsciiConcat("\"", EscapeAll(m.key));
      AsciiConcat("\"" + EscapeAll(m.key), "\"");
      AsciiConcat(Quote(m.key), seps.key);
      AsciiConcat(Quote(m.key) + seps.key, Ser(m.value, seps));
      if |ms| > 1 {
        SerMembersAscii(ms[1..], seps);
        AsciiConcat(SerMember(m, seps), seps.item);
        AsciiConcat(SerMember(m, seps) + seps.item, SerMembers(ms[1..], seps));
      }
    }
  }
}

=== FILE: pydict.dfy ===
/** A Python `dict` that the credential code changes in place: the proof is stored into a
    copy of the payload when issuing, and popped off the credential when verifying. */
module MutableDict {
  import opened Wrappers
  import opened Json
  import Dict

  class PyDict {
    /** The items in insertion order. */
    var items: seq<Member>

    /** Every Python dict holds each key once. */
    ghost predicate Valid()
      reads this
    {
      DistinctKeys(items)
    }

    /** `d.copy()` of a dict holding `src`: a new dict with the same items, in the same
        order (the values themselves are shared, and never changed here). */
    constructor Copy(src: seq<Member>)
      requires DistinctKeys(src)
      ensures Valid() && items == src
    {
      items := src;
    }

    /** `d.get(k)`. */
    function Get(k: string): (r: Option<Json>)
      reads this
      ensures r.Some? <==> k in KeySet(items)
    {
      Lookup(items, k)
    }

    /** `d[k] = v`: `k` now maps to `v`, every other key keeps its value and place, and a
        new key goes last. */
    method SetItem(k: string, v: Json)
      requires Valid()
      modifies this
      ensures Valid()
      ensures items == Put(old(items), k, v)
      ensures KeySet(items) == KeySet(old(items)) + {k}
      ensures Lookup(items, k) == Some(v)
      ensures forall k' :: k' != k ==> Lookup(items, k') == Lookup(old(items), k')
    {
      Dict.PutKeys(items, k, v);
      Dict.PutLookup(items, k, v);
      items := Put(items, k, v);
    }

    /** `d.pop(k)` without a default: the value stored under `k`, which is removed, or `None`
        for the `KeyError` raised when there is none, in which case the dict is unchanged. */
    method Pop(k: string) returns (r: Option<Json>)
      requires Valid()
      modifies this
      ensures Valid()
      ensures r == Lookup(old(items), k)
      ensures items == Remove(old(items), k)
      ensures r.None? ==> items == old(items)
      ensures k !in KeySet(items)
      ensures forall k' :: k' != k ==> Lookup(items, k') == Lookup(old(items), k')
    {
      r := Lookup(items, k);
      Dict.RemoveSemantics(items, k);
      if r.None? {
        Dict.RemoveAbsent(items, k);
      }
      items := Remove(items, k);
    }
  }
}

=== FILE: pystr.dfy ===
/** Python's `str.split(sep)` with a one-character separator, and `s.split(sep)[-1]`. */
module PyStr {

  /** `s.split(sep)`: the pieces between occurrences of `sep`, empty ones included. */
  function Split(s: string, sep: char): (r: seq<string>)
    ensures |r| == multiset(s)[sep] + 1
    ensures forall i :: 0 <= i < |r| ==> sep !in r[i]
  {
    if s == [] then [""]
    else
      var rest := Split(s[1..], sep);
      assert s == [s[0]] + s[1..];
      if s[0] == sep then [""] + rest
      else [[s[0]] + rest[0]] + rest[1..]
  }

  /** `sep.join(parts)`, the reference the splitting is checked against. */
  function Join(parts: seq<string>, sep: char): string
    requires |parts| >= 1
  {
    if |parts| == 1 then parts[0] else parts[0] + [sep] + Join(parts[1..], sep)
  }

  /** `s.split(sep)[-1]`: the text after the last `sep`, or all of `s` when there is none. */
  function AfterLast(s: string, sep: char): (r: string)
    ensures sep !in r
  {
    var parts := Split(s, sep);
    parts[|parts| - 1]
  }

  // ---------------------------------------------------------------------------------

  lemma {:induction false} SplitNoSeparator(a: string, sep: char)
    requires sep !in a
    ensures Split(a, sep) == [a]
  {
    if a != [] {
      SplitNoSeparator(a[1..], sep);
      assert [a[0]] + a[1..] == a;
    }
  }

  /** Splitting at the first separator: the piece before it, then the pieces of the rest. */
  lemma {:induction false} SplitFirst(a: string, sep: char, t: string)
    requires sep !in a
    ensures Split(a + [sep] + t, sep) == [a] + Split(t, sep)
  {
    if a == [] {
      assert a + [sep] + t == [sep] + t;
      assert ([sep] + t)[1..] == t;
    } else {
      var s := a + [sep] + t;
      assert s[1..] == a[1..] + [sep] + t;
      SplitFirst(a[1..], sep, t);
      assert [a[0]] + a[1..] == a;
    }
  }

  /** Joining pieces that hold no separator and splitting again gives back the pieces. */
  lemma {:induction false} SplitJoin(parts: seq<string>, sep: char)
    requires |parts| >= 1
    requires forall i :: 0 <= i < |parts| ==> sep !in parts[i]
    ensures Split(Join(parts, sep), sep) == parts
    decreases |parts|
  {
    if |parts| == 1 {
      SplitNoSeparator(parts[0], sep);
    } else {
      SplitJoin(parts[1..], sep);
      SplitFirst(parts[0], sep, Join(parts[1..], sep));
      assert [parts[0]] + parts[1..] == parts;
    }
  }

  /** Splitting and joining again gives back the text. */
  lemma {:induction false} JoinSplit(s: string, sep: char)
    ensures Join(Split(s, sep), sep) == s
  {
    if s != [] {
      var t := s[1..];
      JoinSplit(t, sep);
      JoinSplitStep(s[0], t, sep);
      assert s == [s[0]] + t;
    }
  }

  lemma JoinSplitStep(c: char, t: string, sep: char)
    requires Join(Split(t, sep), sep) == t
    ensures Join(Split([c] + t, sep), sep) == [c] + t
  {
    var s := [c] + t;
    assert s[1..] == t;
    var rest := Split(t, sep);
    if c == sep {
      JoinAfterSeparator(sep, rest);
      assert Split(s, sep) == [""] + rest;
    } else {
      JoinAfterChar(c, sep, rest);
      assert Split(s, sep) == [[c] + rest[0]] + rest[1..];
    }
  }

  lemma JoinAfterSeparator(sep: char, rest: seq<string>)
    requires |rest| >= 1
    ensures Join([""] + rest, sep) == [sep] + Join(rest, sep)
  {
    var r := [""] + rest;
    assert r[1..] == rest;
    assert r[0] == "";
  }

  lemma JoinAfterChar(c: char, sep: char, rest: seq<string>)
    requires |rest| >= 1
    ensures Join([[c] + rest[0]] + rest[1..], sep) == [c] + Join(rest, sep)
  {
    var r := [[c] + rest[0]] + rest[1..];
    if |rest| > 1 {
      assert r[1..] == rest[1..];
      var j := Join(rest[1..], sep);
      assert Join(r, sep) == [c] + rest[0] + [sep] + j;
      assert Join(rest, sep) == rest[0] + [sep] + j;
      assert [c] + rest[0] + [sep] + j == [c] + (rest[0] + [sep] + j);
    }
  }

  /** Three pieces without the separator split back into exactly those three. */
  lemma SplitThree(a: string, b: string, c: string, sep: char)
    requires sep !in a && sep !in b && sep !in c
    ensures Split(a + [sep] + b + [sep] + c, sep) == [a, b, c]
  {
    var parts := [a, b, c];
    assert Join(parts[2..], sep) == c;
    assert Join(parts[1..], sep) == b + [sep] + c;
    assert Join(parts, sep) == a + [sep] + b + [sep] + c;
    SplitJoin(parts, sep);
  }

  /** The text after the last separator is the tail that follows it. */
  lemma AfterLastOf(head: string, sep: char, tail: string)
    requires sep !in tail
    ensures AfterLast(head + [sep] + tail, sep) == tail
  {
    var s := head + [sep] + tail;
    var parts := Split(s, sep);
    JoinSplit(head, sep);
    var hp := Split(head, sep);
    var all := hp + [tail];
    JoinAppend(hp, tail, sep);
    SplitJoin(all, sep);
  }

  lemma {:induction false} JoinAppend(parts: seq<string>, last: string, sep: char)
    requires |parts| >= 1
    ensures Join(parts + [last], sep) == Join(parts, sep) + [sep] + last
    decreases |parts|
  {
    if |parts| > 1 {
      assert (parts + [last])[1..] == parts[1..] + [last];
      JoinAppend(parts[1..], last, sep);
    } else {
      assert (parts + [last])[1..] == [last];
    }
  }
}

=== FILE: timestamp.dfy ===
/** The timestamps of a credential: the current UTC time in ISO 8601 form to the second,
    followed by `Z`. The clock is not part of the model; the time it returns is a parameter. */
module Timestamp {

  /** A naive `datetime` to the second (`timespec='seconds'` drops the microseconds). */
  datatype DateTime = DateTime(year: nat, month: nat, day: nat, hour: nat, minute: nat, second: nat)

  predicate IsLeapYear(y: nat)
  {
    y % 4 == 0 && (y % 100 != 0 || y % 400 == 0)
  }

  function DaysInMonth(y: nat, m: nat): nat
    requires 1 <= m <= 12
  {
    if m == 2 then (if IsLeapYear(y) then 29 else 28)
    else if m == 4 || m == 6 || m == 9 || m == 11 then 30
    else 31
  }

  /** The values `datetime` admits: years 1 to 9999 and the proleptic Gregorian calendar. */
  predicate Valid(t: DateTime)
  {
    1 <= t.year <= 9999 && 1 <= t.month <= 12 && 1 <= t.day <= DaysInMonth(t.year, t.month) &&
    t.hour < 24 && t.minute < 60 && t.second < 60
  }

  function Pow10(k: nat): (r: nat)
    ensures r >= 1
  {
    if k == 0 then 1 else 10 * Pow10(k - 1)
  }

  predicate IsDigit(c: char)
  {
    '0' <= c <= '9'
  }

  /** `'%0{width}d' % n` for an `n` that fits the width. */
  function Pad(n: nat, width: nat): (r: string)
    requires n < Pow10(width)
    ensures |r| == width
    ensures forall i :: 0 <= i < |r| ==> IsDigit(r[i])
  {
    if width == 0 then "" else Pad(n / 10, width - 1) + [('0' as int + n % 10) as char]
  }

  /** The number a string of decimal digits denotes: the reference reading of the fields. */
  function DigitsValue(s: string): nat
  {
    if s == [] then 0
    else
      var d := s[|s| - 1] as int - '0' as int;
      DigitsValue(s[..|s| - 1]) * 10 + (if 0 <= d then d else 0)
  }

  /** `t.isoformat(timespec='seconds') + 'Z'`: `YYYY-MM-DDTHH:MM:SSZ`, twenty characters
      whose digit fields read back as the fields of `t`. */
  function IsoSecondsZ(t: DateTime): (r: string)
    requires Valid(t)
    ensures |r| == 20
    ensures r[4] == '-' && r[7] == '-' && r[10] == 'T' && r[13] == ':' && r[16] == ':' &&
      r[19] == 'Z'
    ensures DigitsValue(r[0..4]) == t.year && DigitsValue(r[5..7]) == t.month &&
      DigitsValue(r[8..10]) == t.day && DigitsValue(r[11..13]) == t.hour &&
      DigitsValue(r[14..16]) == t.minute && DigitsValue(r[17..19]) == t.second
  {
    assert Pow10(2) == 100 && Pow10(4) == 10000;
    var y, mo, d := Pad(t.year, 4), Pad(t.month, 2), Pad(t.day, 2);
    var h, mi, s := Pad(t.hour, 2), Pad(t.minute, 2), Pad(t.second, 2);
    Layout(y, mo, d, h, mi, s);
    PadValue(t.year, 4);
    PadValue(t.month, 2);
    PadValue(t.day, 2);
    PadValue(t.hour, 2);
    PadValue(t.minute, 2);
    PadValue(t.second, 2);
    y + "-" + mo + "-" + d + "T" + h + ":" + mi + ":" + s + "Z"
  }

  /** Where each field and separator sits in `YYYY-MM-DDTHH:MM:SSZ`. */
  lemma Layout(y: string, mo: string, d: string, h: string, mi: string, s: string)
    requires |y| == 4 && |mo| == 2 && |d| == 2 && |h| == 2 && |mi| == 2 && |s| == 2
    ensures var r := y + "-" + mo + "-" + d + "T" + h + ":" + mi + ":" + s + "Z";
      |r| == 20 &&
      r[4] == '-' && r[7] == '-' && r[10] == 'T' && r[13] == ':' && r[16] == ':' &&
      r[19] == 'Z' &&
      r[0..4] == y && r[5..7] == mo && r[8..10] == d &&
      r[11..13] == h && r[14..16] == mi && r[17..19] == s
  {
    var date := y + "-" + mo + "-" + d;
    var time := h + ":" + mi + ":" + s;
    var r := y + "-" + mo + "-" + d + "T" + h + ":" + mi + ":" + s + "Z";
    assert r == date + "T" + time + "Z";
    assert date[0..4] == y && date[5..7] == mo && date[8..10] == d by {
      assert date == y + ("-" + mo) + ("-" + d);
    }
    assert time[0..2] == h && time[3..5] == mi && time[6..8] == s by {
      assert time == h + (":" + mi) + (":" + s);
    }
    assert r[0..10] == date && r[11..19] == time;
    assert r[0..4] == date[0..4] && r[5..7] == date[5..7] && r[8..10] == date[8..10];
    assert r[11..13] == time[0..2] && r[14..16] == time[3..5] && r[17..19] == time[6..8];
  }

  // ---------------------------------------------------------------------------------

  /** Zero-padded digits read back as the number written. */
  lemma {:induction false} PadValue(n: nat, width: nat)
    requires n < Pow10(width)
    ensures DigitsValue(Pad(n, width)) == n
  {
    if width > 0 {
      var p := Pad(n, width);
      assert p[..|p| - 1] == Pad(n / 10, width - 1);
      PadValue(n / 10, width - 1);
    }
  }

  /** Distinct times are written differently. */
  lemma IsoSecondsZInjective(a: DateTime, b: DateTime)
    requires Valid(a) && Valid(b) && IsoSecondsZ(a) == IsoSecondsZ(b)
    ensures a == b
  {
  }
}

=== FILE: verifier.dfy ===
/** Checking a credential's signature (`verify_vc_signature`): the proof is popped off the
    dict, the issuer's key is recovered from its verification method, the detached JWS is
    split into its segments, and the signature is checked against the canonical bytes of
    what remains. Every exception along the way turns into `False`. */
module Verifier {
  import opened Wrappers
  import opened Bytes
  import opened Json
  import opened Crypto
  import opened Timestamp
  import opened MutableDict
  import Base64Url
  import DidKey
  import Dict
  import JsonParse
  import PyStr
  import Credential

  /** Lines 27-32: the proof's `verificationMethod` must be a string (`None` or any other
      value makes `.split` raise), from which the 32-byte public key is recovered. */
  function ProofKey(proof: seq<Member>): (r: Option<seq<Byte>>)
    ensures r.Some? ==> |r.value| == 32
    ensures r.Some? <==> (Lookup(proof, "verificationMethod").Some? &&
      Lookup(proof, "verificationMethod").value.Str? &&
      DidKey.KeyFromVerificationMethod(Lookup(proof, "verificationMethod").value.s).Some?)
  {
    match Lookup(proof, "verificationMethod")
    case Some(Str(vm)) => DidKey.KeyFromVerificationMethod(vm)
    case _ => None
  }

  /** Lines 35-36: the proof's `jws` must be a string that splits on `.` into exactly three
      parts (otherwise the unpacking raises); the header and signature segments, the middle
      one being dropped. */
  function JwsParts(proof: seq<Member>): (r: Option<(string, string)>)
    ensures r.Some? ==> '.' !in r.value.0 && '.' !in r.value.1
    ensures r.Some? <==> (Lookup(proof, "jws").Some? && Lookup(proof, "jws").value.Str? &&
      |PyStr.Split(Lookup(proof, "jws").value.s, '.')| == 3)
  {
    match Lookup(proof, "jws")
    case Some(Str(jws)) =>
      var parts := PyStr.Split(jws, '.');
      if |parts| == 3 then Some((parts[0], parts[2])) else None
    case _ => None
  }

  /** What a proof provides to the check: the public key, the header segment and the
      signature bytes. */
  datatype Material = Material(key: seq<Byte>, header: string, signature: seq<Byte>)

  /** Lines 21-45 without the final check: the material the credential's proof yields, or
      `None` when a step raises or the proof is missing or empty. */
  function ProofMaterial(vc: seq<Member>): (r: Option<Material>)
    ensures r.Some? ==> ("proof" in KeySet(vc) && Lookup(vc, "proof").value.Obj? &&
      Lookup(vc, "proof").value.members != [])
    ensures r.Some? ==> |r.value.key| == 32 && '.' !in r.value.header
    ensures r.Some? ==> (var proof := Lookup(vc, "proof").value.members;
      ProofKey(proof) == Some(r.value.key) &&
      JwsParts(proof).Some? && JwsParts(proof).value.0 == r.value.header &&
      Base64Url.UrlsafeDecode(JwsParts(proof).value.1 + "==") == Some(r.value.signature))
  {
    match Lookup(vc, "proof")
    case None => None                            // `pop` raises `KeyError`
    case Some(proof) =>
      if Falsy(proof) then None                  // an empty or `None` proof
      else if !proof.Obj? then None              // `.get` raises `AttributeError`
      else
        var pk := ProofKey(proof.members);
        var parts := JwsParts(proof.members);
        if pk.None? || parts.None? then None
        else
          match Base64Url.UrlsafeDecode(parts.value.1 + "==")
          case None => None                      // `binascii.Error`
          case Some(signature) => Some(Material(pk.value, parts.value.0, signature))
  }

  /** The answer of `verify_vc_signature` for a dict holding `vc`: whether the proof's
      signature verifies, under the proof's key, for the header segment followed by `.` and
      the canonical bytes of the credential without its proof. */
  function VerifySignature(c: Suite, vc: seq<Member>): (ok: bool)
    ensures ok ==> ProofMaterial(vc).Some?
  {
    match ProofMaterial(vc)
    case None => false
    case Some(m) =>
      c.verify(m.key, m.signature, Credential.SigningInput(m.header, Obj(Remove(vc, "proof"))))
  }

  /** `verify_vc_signature(vc_json)`: pops `proof` off the dict it is given (the caller sees
      the dict without it afterwards, whatever the answer), then checks the signature. */
  method VerifyVcSignature(c: Suite, vc: PyDict) returns (ok: bool)
    requires vc.Valid()
    modifies vc
    ensures vc.Valid()
    ensures ok == VerifySignature(c, old(vc.items))
    ensures vc.items == Remove(old(vc.items), "proof")
  {
    var popped := vc.Pop("proof");
    if popped.None? {
      return false;
    }
    var proof := popped.value;
    if Falsy(proof) || !proof.Obj? {
      return false;
    }
    var pk := ProofKey(proof.members);
    if pk.None? {
      return false;
    }
    var parts := JwsParts(proof.members);
    if parts.None? {
      return false;
    }
    var signingInput := Credential.SigningInput(parts.value.0, Obj(vc.items));
    var signature := Base64Url.UrlsafeDecode(parts.value.1 + "==");
    if signature.None? {
      return false;
    }
    ok := c.verify(pk.value, signature.value, signingInput);
  }

  // ---------------------------------------------------------------------------------
  // Failures answer `False`.

  /** A credential without a `proof`, or with an empty or `None` one, is rejected. */
  lemma MissingProofFails(c: Suite, vc: seq<Member>)
    requires "proof" !in KeySet(vc) || Falsy(Lookup(vc, "proof").value)
    ensures !VerifySignature(c, vc)
  {
  }

  /** A `jws` that is missing, `None`, not a string, or does not split into exactly three
      segments is rejected. */
  lemma MalformedJwsFails(c: Suite, vc: seq<Member>)
    requires Lookup(vc, "proof").Some? && Lookup(vc, "proof").value.Obj?
    requires JwsParts(Lookup(vc, "proof").value.members).None?
    ensures !VerifySignature(c, vc)
  {
  }

  /** A verification method that is missing, `None`, not a string, or does not yield a
      32-byte key after its two-byte prefix is rejected. */
  lemma BadKeyFails(c: Suite, vc: seq<Member>)
    requires Lookup(vc, "proof").Some? && Lookup(vc, "proof").value.Obj?
    requires ProofKey(Lookup(vc, "proof").value.members).None?
    ensures !VerifySignature(c, vc)
  {
  }

  /** A signature segment that `urlsafe_b64decode` rejects, even after the two `=` are
      appended, is rejected. */
  lemma BadSignatureEncodingFails(c: Suite, vc: seq<Member>, header: string, sigText: string)
    requires Lookup(vc, "proof").Some? && Lookup(vc, "proof").value.Obj?
    requires JwsParts(Lookup(vc, "proof").value.members) == Some((header, sigText))
    requires Base64Url.UrlsafeDecode(sigText + "==").None?
    ensures !VerifySignature(c, vc)
  {
  }

  /** The middle segment of the JWS is dropped unread: whatever it holds, the proof yields
      the header and signature segments around it. */
  lemma JwsMiddleIgnored(proof: seq<Member>, header: string, middle: string, sig: string)
    requires '.' !in header && '.' !in middle && '.' !in sig
    requires Lookup(proof, "jws") == Some(Str(header + "." + middle + "." + sig))
    ensures JwsParts(proof) == Some((header, sig))
  {
    PyStr.SplitThree(header, middle, sig, '.');
  }

  // ---------------------------------------------------------------------------------
  // What a signature binds.

  /** The answer depends on the credential without its proof only through its content in
      Python's `==` sense: reordering keys, at any depth, does not change it. */
  lemma ContentOnly(c: Suite, a: seq<Member>, b: seq<Member>)
    requires WellFormed(Obj(a)) && WellFormed(Obj(b))
    requires Lookup(a, "proof") == Lookup(b, "proof")
    requires Equiv(Obj(Remove(a, "proof")), Obj(Remove(b, "proof")))
    ensures VerifySignature(c, a) == VerifySignature(c, b)
  {
    Dict.RemoveWellFormed(a, "proof");
    Dict.RemoveWellFormed(b, "proof");
    if ProofMaterial(a).Some? {
      var m := ProofMaterial(a).value;
      Credential.SigningInputInjective(m.header, Obj(Remove(a, "proof")), Obj(Remove(b, "proof")));
    }
  }

  /** When the proof's signature verifies only for the bytes that were signed (`signed`
      under the proof's header), the credential is accepted exactly when its content, proof
      left out, equals the signed document: adding, removing or changing any field makes the
      check fail. */
  lemma OnlySignedContentVerifies(c: Suite, vc: seq<Member>, signed: Json)
    requires WellFormed(Obj(vc)) && WellFormed(signed) && ProofMaterial(vc).Some?
    requires var m := ProofMaterial(vc).value;
      c.verify(m.key, m.signature, Credential.SigningInput(m.header, signed))
    requires var m := ProofMaterial(vc).value;
      BindsOnly(c, m.key, m.signature, Credential.SigningInput(m.header, signed))
    ensures VerifySignature(c, vc) <==> Equiv(Obj(Remove(vc, "proof")), signed)
  {
    var m := ProofMaterial(vc).value;
    Dict.RemoveWellFormed(vc, "proof");
    Credential.SigningInputInjective(m.header, Obj(Remove(vc, "proof")), signed);
  }

  // ---------------------------------------------------------------------------------
  // Issued credentials verify.

  /** A payload signed and completed by `create_signed_vc` verifies, when its verification
      method names the signing key's public key and Ed25519 is correct. */
  lemma AttachedProofVerifies(c: Suite, payload: seq<Member>, privateKey: seq<Byte>,
                              verificationMethod: string, signedAt: DateTime)
    requires Ed25519Correct(c) && Valid(signedAt)
    requires DistinctKeys(payload) && "proof" !in KeySet(payload)
    requires DidKey.KeyFromVerificationMethod(verificationMethod) == Some(c.publicKey(privateKey))
    ensures VerifySignature(c, Credential.AttachProof(c, payload, privateKey, verificationMethod, signedAt))
  {
    var input := Credential.SigningInput(Credential.EncodedHeader(), Obj(payload));
    var vc := Credential.AttachProof(c, payload, privateKey, verificationMethod, signedAt);
    AttachedMaterial(c, payload, privateKey, verificationMethod, signedAt);
    assert c.verify(c.publicKey(privateKey), c.sign(privateKey, input), input);
  }

  /** What the verifier reads from a proof `create_signed_vc` attached: the key its
      verification method names, the encoded header and the signature made; and without the
      proof the payload is back. */
  lemma AttachedMaterial(c: Suite, payload: seq<Member>, privateKey: seq<Byte>,
                         verificationMethod: string, signedAt: DateTime)
    requires Valid(signedAt) && DistinctKeys(payload) && "proof" !in KeySet(payload)
    requires DidKey.KeyFromVerificationMethod(verificationMethod).Some?
    ensures var vc := Credential.AttachProof(c, payload, privateKey, verificationMethod, signedAt);
      var header := Credential.EncodedHeader();
      Remove(vc, "proof") == payload &&
      ProofMaterial(vc) == Some(Material(DidKey.KeyFromVerificationMethod(verificationMethod).value,
        header, c.sign(privateKey, Credential.SigningInput(header, Obj(payload)))))
  {
    var header := Credential.EncodedHeader();
    var signature := c.sign(privateKey, Credential.SigningInput(header, Obj(payload)));
    var vc := Credential.AttachProof(c, payload, privateKey, verificationMethod, signedAt);
    var created := IsoSecondsZ(signedAt);
    assert vc == Put(payload, "proof", Credential.ProofObject(created, verificationMethod,
      Credential.DetachedJws(header, signature)));
    Credential.EncodedHeaderAlphabet();
    ProofMaterialOf(payload, created, verificationMethod, header, signature);
  }

  /** The same, for any header segment free of `.` and `=`. */
  lemma ProofMaterialOf(payload: seq<Member>, created: string, verificationMethod: string,
                        header: string, signature: seq<Byte>)
    requires DistinctKeys(payload) && "proof" !in KeySet(payload)
    requires '.' !in header && '=' !in header
    requires DidKey.KeyFromVerificationMethod(verificationMethod).Some?
    ensures var vc := Put(payload, "proof",
        Credential.ProofObject(created, verificationMethod, Credential.DetachedJws(header, signature)));
      Remove(vc, "proof") == payload &&
      ProofMaterial(vc) == Some(Material(DidKey.KeyFromVerificationMethod(verificationMethod).value,
        header, signature))
  {
    var proof := Credential.ProofObject(created, verificationMethod,
      Credential.DetachedJws(header, signature));
    var vc := Put(payload, "proof", proof);
    var sigText := Base64Url.EncodeNoPad(signature);
    var pk := DidKey.KeyFromVerificationMethod(verificationMethod).value;
    assert Lookup(vc, "proof") == Some(proof) && Remove(vc, "proof") == payload by {
      AddedProof(payload, proof);
    }
    assert ProofKey(proof.members) == Some(pk) && JwsParts(proof.members) == Some((header, sigText)) &&
      proof.Obj? && proof.members != [] by {
      ProofParts(created, verificationMethod, header, signature);
    }
    assert Base64Url.UrlsafeDecode(sigText + "==") == Some(signature) by {
      Base64Url.DecodePaddedRoundTrip(signature);
    }
    MaterialOf(vc, proof, pk, header, sigText, signature);
  }

  lemma AddedProof(payload: seq<Member>, proof: Json)
    requires DistinctKeys(payload) && "proof" !in KeySet(payload)
    ensures Lookup(Put(payload, "proof", proof), "proof") == Some(proof)
    ensures Remove(Put(payload, "proof", proof), "proof") == payload
  {
    Dict.AddNewKey(payload, "proof", proof);
    Dict.PutLookup(payload, "proof", proof);
  }

  /** The key and JWS segments the verifier reads from a proof `create_signed_vc` built. */
  lemma ProofParts(created: string, verificationMethod: string, header: string,
                   signature: seq<Byte>)
    requires '.' !in header && '=' !in header
    ensures var proof := Credential.ProofObject(created, verificationMethod,
        Credential.DetachedJws(header, signature));
      proof.Obj? && proof.members != [] &&
      ProofKey(proof.members) == DidKey.KeyFromVerificationMethod(verificationMethod) &&
      JwsParts(proof.members) == Some((header, Base64Url.EncodeNoPad(signature)))
  {
    var jws := Credential.DetachedJws(header, signature);
    Credential.ProofLookups(created, verificationMethod, jws);
    Credential.JwsSegments(header, signature);
  }

  /** The material of a proof whose steps all succeed. */
  lemma MaterialOf(vc: seq<Member>, proof: Json, pk: seq<Byte>, header: string, sigText: string,
                   signature: seq<Byte>)
    requires Lookup(vc, "proof") == Some(proof) && proof.Obj? && proof.members != []
    requires ProofKey(proof.members) == Some(pk)
    requires JwsParts(proof.members) == Some((header, sigText))
    requires Base64Url.UrlsafeDecode(sigText + "==") == Some(signature)
    ensures ProofMaterial(vc) == Some(Material(pk, header, signature))
  {
  }

  /** The credential `issue_tourist_credential` returns, read back by `json.loads` as the
      verifier's caller does, is the issued dict itself, and its signature verifies. */
  lemma IssuedVerifies(c: Suite, data: Json, privateKey: seq<Byte>, issuedAt: DateTime,
                       signedAt: DateTime)
    requires Ed25519Correct(c) && Valid(issuedAt) && Valid(signedAt)
    requires WellFormed(data) && Credential.RecordAccepted(data)
    ensures var vc := Credential.Issued(c, data, privateKey, issuedAt, signedAt).value;
      JsonParse.Loads(DumpsDefault(Obj(vc))) == Some(Obj(vc)) && VerifySignature(c, vc)
  {
    var issuer := DidKey.GenerateIssuerId(c, privateKey);
    var date := IsoSecondsZ(issuedAt);
    var payload := Credential.BuildPayload(c, data, issuer.did, date).value;
    var vc := Credential.AttachProof(c, payload, privateKey, issuer.verificationMethod, signedAt);
    assert Credential.Issued(c, data, privateKey, issuedAt, signedAt).value == vc;
    Credential.PayloadKeysDistinct(c, data, issuer.did, date);
    assert VerifySignature(c, vc) by {
      DidKey.KeyOfGeneratedIssuer(c, privateKey);
      AttachedProofVerifies(c, payload, privateKey, issuer.verificationMethod, signedAt);
    }
    assert WellFormed(Obj(vc)) by {
      PayloadWellFormed(c, data, issuer.did, date);
      AttachedWellFormed(c, payload, privateKey, issuer.verificationMethod, signedAt);
    }
    JsonParse.LoadsDumpsDefault(Obj(vc));
  }

  /** The payload built from a well-formed record is well formed. */
  lemma PayloadWellFormed(c: Suite, data: Json, issuerDid: string, issuanceDate: string)
    requires WellFormed(data) && Credential.RecordAccepted(data)
    ensures WellFormed(Obj(Credential.BuildPayload(c, data, issuerDid, issuanceDate).value))
  {
    var ms := data.members;
    Credential.FieldsPresent(data);
    var v := seq(6, i requires 0 <= i < 6 => Lookup(ms, Credential.TouristFields[i]).value);
    forall i | 0 <= i < 6 ensures WellFormed(v[i]) {
      LookupWellFormed(ms, Credential.TouristFields[i]);
    }
    assert v[0] == Lookup(ms, "name").value && v[1] == Lookup(ms, "nationality").value &&
      v[2] == Lookup(ms, "passportNumber").value && v[3] == Lookup(ms, "emergencyContact").value &&
      v[4] == Lookup(ms, "bloodType").value && v[5] == Lookup(ms, "insurancePolicyId").value;
    var info := Credential.TouristInfo(v[0], v[1], v[2], v[3], v[4], v[5]);
    var id := Credential.SubjectIdOf(c, Lookup(ms, "passportNumber").value.s);
    Credential.BuildPayloadOf(c, data, issuerDid, issuanceDate);
    InfoWellFormed(v);
    PayloadMembersWellFormed(issuerDid, issuanceDate, id, info);
  }

  lemma LookupWellFormed(ms: seq<Member>, k: string)
    requires WellFormed(Obj(ms)) && k in KeySet(ms)
    ensures WellFormed(Lookup(ms, k).value)
  {
    var i :| 0 <= i < |ms| && ms[i] == Member(k, Lookup(ms, k).value);
  }

  lemma InfoWellFormed(v: seq<Json>)
    requires |v| == 6 && forall i :: 0 <= i < 6 ==> WellFormed(v[i])
    ensures WellFormed(Obj(Credential.TouristInfo(v[0], v[1], v[2], v[3], v[4], v[5])))
  {
    var info := Credential.TouristInfo(v[0], v[1], v[2], v[3], v[4], v[5]);
    Credential.InfoAt(v);
    forall i | 0 <= i < |info| ensures WellFormed(info[i].value) {
      if i > 0 {
        assert info[i].value == v[i - 1];
      }
    }
  }

  lemma PayloadMembersWellFormed(issuerDid: string, issuanceDate: string, subjectId: string,
                                 info: seq<Member>)
    requires WellFormed(Obj(info))
    ensures WellFormed(Obj(Credential.PayloadMembers(issuerDid, issuanceDate, subjectId, info)))
  {
    var p := Credential.PayloadMembers(issuerDid, issuanceDate, subjectId, info);
    Credential.PayloadMembersDistinct(issuerDid, issuanceDate, subjectId, info);
    var subject := [Member("id", Str(subjectId)), Member("touristInfo", Obj(info))];
    assert WellFormed(Obj(subject));
    assert WellFormed(p[0].value) && WellFormed(p[2].value);
  }

  /** Adding the proof keeps a well-formed payload well formed. */
  lemma AttachedWellFormed(c: Suite, payload: seq<Member>, privateKey: seq<Byte>,
                           verificationMethod: string, signedAt: DateTime)
    requires Valid(signedAt) && WellFormed(Obj(payload)) && "proof" !in KeySet(payload)
    ensures WellFormed(Obj(Credential.AttachProof(c, payload, privateKey, verificationMethod, signedAt)))
  {
    var vc := Credential.AttachProof(c, payload, privateKey, verificationMethod, signedAt);
    var header := Credential.EncodedHeader();
    var signature := c.sign(privateKey, Credential.SigningInput(header, Obj(payload)));
    var proof := Credential.ProofObject(IsoSecondsZ(signedAt), verificationMethod,
      Credential.DetachedJws(header, signature));
    assert vc == Put(payload, "proof", proof);
    Credential.ProofShape(IsoSecondsZ(signedAt), verificationMethod, Credential.DetachedJws(header, signature));
    Dict.AddWellFormed(payload, "proof", proof);
  }
}

=== FILE: wrappers.dfy ===
/** The optional and success-or-failure values the model returns where Python returns
    None or raises. */
module Wrappers {

  datatype Option<+T> = None | Some(value: T)

  /** An exception is `Err` with the text `str(e)` would give; `:-` propagates it the way an
      uncaught exception leaves the function. */
  datatype Result<+T, +E> = Ok(value: T) | Err(error: E)
  {
    predicate IsFailure()
    {
      Err?
    }

    function PropagateFailure<U>(): Result<U, E>
      requires Err?
    {
      Err(error)
    }

    function Extract(): T
      requires Ok?
    {
      value
    }
  }
}
